=== FILE: README.md ===
# cafe_app core in Dafny

This project models the core of cafe_app, a FastAPI service for a restaurant
menu. The service stores menus, their submenus and the submenus' dishes in
PostgreSQL, and caches lookups and lists in Redis. It also includes a job
that reads a spreadsheet and lays it over the store. The model covers three
parts.

- **The entity store** (`Models`, `Schemas`, `MenuCrud`, `SubmenuCrud`,
  `DishCrud`, `MenuUtils`, `SubmenuUtils`, `DishUtils`).
  - The three tables are modelled as insertion-ordered sequences.
  - Cascade deletion is modelled, as are the two aggregated counts of a
    menu and the dish count of a submenu.
  - So are request validation, the paged lists, partial updates, and the
    title-uniqueness guards.
- **The Redis cache** (`Text`, `CacheKeys`, `RedisCache`, `CacheState`,
  `MenuServices`, `SubmenuServices`, `DishServices`, `DishRouter`, with
  `StoreFrames` for the store facts they rely on).
  - The key scheme is `menu_{id}`, `{menu_id}_submenu_{id}`,
    `{submenu_id}_dish_{id}` plus seven fixed names. Every key of the scheme
    is proved to be read back (`split('_')`) as the key it was built from.
  - The `KEYS` patterns are proved to match exactly the intended keys.
  - `CacheState.Coherent` states that a cache is coherent with the store.
    Every cached menu, submenu and dish record is what the uncached lookup
    would answer now. The cached dish page and submenu page are the pages
    their fingerprints name. The cached menu list is some page of the
    store's menus. The cached lookups and lists, the invalidations of the
    dish routes, and the five dish routes are proved to keep coherence.
- **The synchronisation job** (`SheetParser`, `SyncApi`, `Reconciler`). There
  are three copies of it: `tasks/update_db.py` (asyncio), `tasks/task_online.py`
  and `tasks/task_local.py`. One model takes a `Variant` and branches exactly
  where the copies differ.
  - The parser turns sheet rows into a menu/submenu/dish tree. It is proved
    to succeed exactly when the rows nest properly. It is also proved to
    list every non-empty row once, in row order.
  - The reconciler matches sheet nodes against the store by id, then by
    title, and otherwise creates them. It writes the resolved ids back to
    columns A/B/C and records discounts. It then deletes orphans, and each
    exception stops the run where the source raises it.

Python's `None`/exceptions become `Option`/`Result`/`Outcome` values. HTTP
errors carry their status and detail. Fresh UUIDs are parameters: a single id
for a route, and a supply `ids: nat -> string` with a counter for the job.
Redis `KEYS` returns keys in no particular order. The members that take its
first answer are methods that pick any enumeration.

Where the route code and the job disagree about the API, the model follows
the code the job calls:

- The `src/menu/router.py` in the repository is an older revision: it
  imports helpers that no longer exist. It also does not refuse a duplicate
  menu title, yet the job handles a 409 from `POST /menus/`. `SyncApi.OnPostMenu`
  answers 409 for a title that is already used, as the job expects.
- `src/menu/crud.py:get_menus` imports count helpers that `src/menu/utils.py`
  does not define. `MenuCrud.GetMenus` carries the counts `menu_by_id`
  computes.

## Model

| member | source | states |
|---|---|---|
| Models.CountDishes | src/submenu/utils.py:40-46 | The count is the number of dishes whose `submenu_id` is the submenu; in a well-formed store it is the number of distinct ids among them; it is zero exactly when no dish references the submenu |
| Models.DishesOf | src/submenu/utils.py:40-46 | A dish is selected exactly when it is stored and references the submenu |
| Models.DishCountIsDistinctIds | src/submenu/utils.py:40-46 | With unique dish ids, counting the submenu's dish rows equals counting their distinct ids |
| Models.TotalSubmenus | src/menu/utils.py:36 | `count(distinct SubMenu.id)` over the join rooted at the menu: zero exactly when no submenu references the menu; in a well-formed store it is the number of the menu's submenu rows (`MenuUtils.SubmenuCountAgreesWithRows`) |
| Models.TotalDishes | src/menu/utils.py:37 | `count(distinct Dish.id)` over the same join: zero exactly when no dish lies in a submenu of the menu; in a well-formed store it is the number of dish rows beneath the menu (`MenuUtils.DishCountAgreesWithRows`) |
| Models.CascadeDeleteSubmenu | src/core/models.py:23-29 | Deleting a submenu removes exactly that submenu and the dishes referencing it, leaves menus alone, and keeps the store well-formed |
| Models.CascadeDeleteMenu | src/core/models.py:7-20 | Deleting a menu removes exactly it, its submenus and the dishes beneath them, and keeps the store well-formed |
| Models.DeleteDishRow | src/dish/crud.py:57-64 | Deleting a dish removes exactly that row, keeps the order of the rest, and keeps the store well-formed |
| Models.CascadeRemovesWholeSubtree | src/core/models.py:10-20 | After a menu deletion no submenu or dish remains beneath the menu, and every dish not beneath it survives |
| Models.SameDishId | src/core/base.py:19-25 | In a well-formed store a dish id names exactly one row (primary key) |
| Models.SameSubmenuId | src/core/base.py:19-25 | In a well-formed store a submenu id names exactly one row |
| Schemas.ValidateMenuCreate | src/menu/schemas.py:7-13 | A menu body is accepted exactly when it has a title and a description of at most 1024 characters; otherwise 422 |
| Schemas.ValidateSubMenuCreate | src/submenu/schemas.py:7-9 | A submenu body is accepted exactly when it has a title and a description of at most 512 characters |
| Schemas.ValidateDishCreate | src/dish/schemas.py:7-14 | A dish body is accepted exactly when it has a title and a description of at most 512 characters; a missing price becomes "0" |
| Schemas.ValidateMenuUpdate | src/menu/schemas.py:22-24 | A partial menu update is refused only for a description over 1024 characters and is passed on unchanged |
| Schemas.ValidateSubMenuUpdate | src/submenu/schemas.py:21-23 | A partial submenu update is refused only for a description over 512 characters |
| Schemas.ValidateDishUpdate | src/dish/schemas.py:25-28 | A partial dish update is refused only for a description over 1024 characters |
| Schemas.DishUpdateBoundLooserThanCreate | src/dish/schemas.py:7-28 | Every dish description valid on create is valid on update, and descriptions of 513 to 1024 characters pass only on update |
| MenuCrud.CreateMenu | src/menu/crud.py:9-13 | The new menu carries the payload and the given id, is appended, nothing else changes, and a fresh id keeps the store well-formed |
| Common.Page | src/menu/crud.py:17 | `.offset(offset).limit(limit)`: the rows from position `offset` on, in storage order, at most `limit` of them and none when the offset is past the end |
| MenuCrud.GetMenus | src/menu/crud.py:16-27 | The page is the offset/limit slice of the menus, each with its distinct submenu and dish counts |
| MenuCrud.GetMenuById | src/menu/crud.py:30-33 | The lookup answers a stored menu with that id, and nothing exactly when no menu has it |
| MenuCrud.ApplyMenuUpdate | src/menu/crud.py:36-46 | Fields present in the body take its values, absent fields keep theirs, and the id never changes |
| MenuCrud.UpdateMenuPartial | src/menu/crud.py:36-46 | Only rows with the menu's id are replaced by the updated menu; submenus, dishes and well-formedness are kept |
| MenuCrud.DeleteMenu | src/menu/crud.py:49-59 | The menu id is gone, exactly the other menus remain, and exactly the dishes not beneath it remain |
| MenuCrud.CreateThenGet | src/menu/crud.py:9-33 | A menu created under a fresh id is found by that id with the created values |
| SubmenuCrud.GetSubmenuById | src/submenu/crud.py:8-14 | The lookup answers a stored submenu with that id, and nothing exactly when none has it |
| SubmenuCrud.SubmenusOf | src/submenu/crud.py:17-32 | Exactly the submenus whose foreign key names the menu, with unique ids |
| SubmenuCrud.GetSubmenus | src/submenu/crud.py:17-32 | The page is the offset/limit slice of the menu's submenus, each with its dish count |
| SubmenuCrud.CreateSubmenu | src/submenu/crud.py:35-47 | The new submenu carries the payload and the menu's id, is appended, and a fresh id under an existing menu keeps the store well-formed |
| SubmenuCrud.ApplySubmenuUpdate | src/submenu/crud.py:50-59 | Present fields are overwritten, absent ones kept; id and menu never change |
| SubmenuCrud.UpdateSubmenuPartial | src/submenu/crud.py:50-59 | Only the submenu's row is replaced; the set of submenu ids and well-formedness are kept |
| SubmenuCrud.DeleteSubmenu | src/submenu/crud.py:62-69 | The submenu and exactly the dishes referencing it go; menus stay; the answer is the deletion message |
| SubmenuCrud.GetSubmenuByTitle | src/submenu/crud.py:72-78 | Finds the first stored submenu with exactly that title in any menu, and nothing exactly when no submenu has it |
| SubmenuCrud.TitleLookupAfterCreate | src/submenu/crud.py:35-47 | After a submenu is created, a title that was already found still finds the same submenu; a title found nowhere before finds the new submenu exactly when it carries that title |
| DishCrud.CreateDish | src/dish/crud.py:8-20 | The new dish carries the payload and the submenu's id, is appended, and a fresh id under an existing submenu keeps the store well-formed |
| DishCrud.GetDishByTitle | src/dish/crud.py:23-26 | Finds the first stored dish with exactly that title under any submenu, and nothing exactly when none has it |
| DishCrud.TitleLookupAfterCreate | src/dish/crud.py:8-20 | After a dish is created, a title that was already found still finds the same dish; a title found nowhere before finds the new dish exactly when it carries that title |
| DishCrud.GetDishById | src/dish/crud.py:29-32 | Finds the dish with that id, and nothing exactly when none has it |
| DishCrud.GetDishes | src/dish/crud.py:35-42 | The page is the offset/limit slice of all dishes, whatever submenu the path names |
| DishCrud.ApplyDishUpdate | src/dish/crud.py:45-54 | Present fields (title, description, price) are overwritten, absent ones kept; id and submenu never change |
| DishCrud.UpdateDishPartial | src/dish/crud.py:45-54 | Only the dish's row is replaced; the set of dish ids and well-formedness are kept |
| DishCrud.DeleteDish | src/dish/crud.py:57-64 | Exactly the dish with that id goes, in order; menus and submenus stay; well-formedness is kept |
| MenuUtils.DishesUnder | src/menu/utils.py:30-50 | Exactly the dishes whose submenu belongs to the menu, with unique ids |
| MenuUtils.MenuById | src/menu/utils.py:12-27 | 404 "menu not found" exactly when no menu has the id; otherwise the menu with both distinct counts |
| MenuUtils.SubmenuCountAgreesWithRows | src/menu/utils.py:30-50 | In a well-formed store the distinct submenu count equals the number of the menu's submenu rows |
| MenuUtils.DishCountAgreesWithRows | src/menu/utils.py:30-50 | In a well-formed store the distinct dish count equals the number of dish rows beneath the menu |
| SubmenuUtils.SubmenuById | src/submenu/utils.py:12-24 | 404 "submenu not found" exactly when no submenu has the id; otherwise the submenu with its dish count |
| SubmenuUtils.CheckUniqueSubmenu | src/submenu/utils.py:27-37 | 409 exactly when some submenu of any menu already has the title |
| DishUtils.DishById | src/dish/utils.py:11-21 | 404 "dish not found" exactly when no dish has the id; otherwise that dish |
| DishUtils.CheckUniqueDish | src/dish/utils.py:24-35 | 409 exactly when some dish under any submenu already has the title |
| Text.IdHasNoUnderscore | src/core/base.py:19-25 | A UUID id contains no `_` and does not start with `[` |
| Text.IsId | src/menu/services.py:21-22 | A path id is accepted exactly when it is the text `str()` gives a version-4 UUID: 36 characters, `-` at 8, 13, 18 and 23, lower-case hex elsewhere, `4` at 14 and one of `8`, `9`, `a`, `b` at 19 |
| Text.JoinSplit | src/dish/services.py:62-73 | Joining the pieces of `split(sep)` with `sep` gives back the string |
| Text.SplitJoin | src/dish/services.py:62-73 | Splitting `x + sep + y` gives the pieces of `x` followed by those of `y` |
| Text.SplitNoSep | src/dish/services.py:62-73 | A string without the separator splits into itself alone |
| Text.ParseNatToString | src/dish/services.py:76-91 | The decimal rendering of a natural number reads back as that number |
| Text.FingerprintInjective | src/dish/services.py:76-91 | Two `{offset}_{limit}` fingerprints are equal exactly when the pages are the same |
| Text.ScopedFingerprintInjective | src/submenu/services.py:83-95 | Two `{menu_id}_{offset}_{limit}` fingerprints of UUID menus are equal exactly when menu and page are the same |
| CacheKeys.ParseKey | src/dish/services.py:62-73 | A key that parses is a key of the scheme whose `_`-pieces are the parsed parts |
| CacheKeys.ParseRender | src/dish/services.py:40-42 | Building a key of the scheme and reading it back gives the same key |
| CacheKeys.RenderParsed | src/dish/services.py:62-73 | A string that reads as a key is exactly that key's rendering |
| CacheKeys.RenderInjective | src/menu/services.py:21-46 | Distinct keys of the scheme are distinct strings |
| CacheKeys.EntityKeyNotFixed | src/redis/utils.py:13-14 | No entity key collides with a fixed list-key name |
| CacheKeys.SubmenuKeyNamesItsMenu | src/dish/services.py:65-67 | The first `_`-piece of a submenu key is its menu id and the last is its submenu id |
| CacheKeys.SubmenuSuffixMatches | src/submenu/services.py:20-47 | The pattern `*_submenu_{id}` matches exactly the keys of submenus with that id |
| CacheKeys.DishSuffixMatches | src/dish/services.py:19-46 | The pattern `*_dish_{id}` matches exactly the keys of dishes with that id |
| CacheKeys.DishPrefixMatches | src/submenu/services.py:72-80 | The pattern `{submenu_id}_dish_*` matches exactly the dish keys of that submenu |
| CacheKeys.SubmenuKeyHasMenuPrefix | src/menu/services.py:72-92 | Every submenu key of a menu starts with the menu id |
| CacheKeys.DishKeyHasSubmenuPrefix | src/menu/services.py:72-92 | Every dish key of a submenu starts with the submenu id |
| CacheKeys.MenuKeyIsNoSubmenuKey | src/menu/services.py:72-92 | A menu key is never a submenu key |
| CacheKeys.DishKeyIsNoMenuKey | src/dish/services.py:62-73 | A key starting with a UUID is never a menu key |
| CacheKeys.DishKeyIsNoSubmenuKey | src/submenu/services.py:72-80 | A dish key is never a submenu key |
| RedisCache.Rendered | src/redis/utils.py:16-18 | `str(arg)`: a key stays itself; a list becomes a bracketed text starting with `[` |
| RedisCache.ClearCache | src/redis/utils.py:16-18 | Exactly the rendered arguments are deleted; every other key keeps its value |
| RedisCache.ClearMainCache | src/redis/utils.py:13-14 | Exactly the four list keys are deleted; everything else keeps its value |
| RedisCache.ClearListArgument | src/redis/utils.py:16-18 | Passing a list deletes only its rendering: every key not starting with `[`, the listed keys included, survives with its value |
| RedisCache.ListKeys | src/dish/services.py:25 | Any answer order of `KEYS` lists each found key exactly once |
| RedisCache.KeysWithPrefix | src/menu/services.py:77 | `KEYS {prefix}*`: exactly the cached keys that start with the prefix |
| RedisCache.KeysWithSuffix | src/dish/services.py:25 | `KEYS *{suffix}`: exactly the cached keys that end with the suffix |
| CacheState.WithoutShrinks | src/redis/utils.py:16-18 | A deletion keeps some keys with their values, adds none, and removes every deleted key |
| CacheState.DishAnswerIsTheRow | src/dish/utils.py:11-21 | The dish lookup's answer is the one stored row with that id |
| CacheState.SubmenuAnswerIsTheRow | src/submenu/utils.py:12-24 | The submenu lookup's answer is the one stored row with that id |
| CacheState.CachedSubmenuIsFresh | src/submenu/services.py:20-30 | In a coherent cache, a submenu found by `*_submenu_{id}` is what the store answers |
| CacheState.CachedDishIsFresh | src/dish/services.py:25-30 | In a coherent cache, a dish found by `*_dish_{id}` is what the store answers |
| CacheState.CoherentAfterDeletion | src/redis/utils.py:16-18 | Deleting keys from a coherent cache leaves it coherent |
| CacheState.CoherentAfterWrite | src/dish/services.py:39-42 | Writing the store's current answer under its key keeps the cache coherent |
| CacheState.CoherentAfterMenuPageWrite | src/menu/services.py:95-105 | Writing a page of the store's menus under `all_menus` keeps the cache coherent |
| CacheState.CoherentAfterSubmenuPageWrite | src/submenu/services.py:83-95 | Writing a menu's submenu page with the fingerprint naming that menu and page keeps the cache coherent |
| CacheState.CoherentAfterDishPageWrite | src/dish/services.py:83-89 | Writing a dish page together with its fingerprint keeps the cache coherent |
| CacheState.CoherentAfterDishUpdate | src/dish/router.py:126-151 | After a dish update, deleting its dish key and the dish list restores coherence with the updated store |
| CacheState.CoherentAfterDishCreate | src/dish/router.py:38-61 | After a dish creation, the create route's invalidations restore coherence with the new store |
| CacheState.CoherentAfterDishDelete | src/dish/router.py:168-183 | After a dish deletion, the corrected invalidation (menu key included) restores coherence |
| StoreFrames.RowFollowsLinks | src/core/models.py:23-29 | A store change that keeps every dish's submenu keeps each dish beneath the same menu |
| StoreFrames.TotalDishesFollowLinks | src/menu/utils.py:30-50 | Such a change keeps every menu's dish count |
| StoreFrames.MenuLookupFollowsLinks | src/menu/utils.py:12-27 | Such a change keeps every menu lookup's answer |
| StoreFrames.SubmenuLookupFollowsLinks | src/submenu/utils.py:12-24 | Such a change keeps every submenu lookup's answer |
| StoreFrames.MenuPageFollowsLinks | src/menu/crud.py:16-27 | Such a change keeps every page of the menu list, counts included |
| StoreFrames.SubmenuPageFollowsLinks | src/submenu/crud.py:17-32 | Such a change keeps every page of every menu's submenu list, dish counts included |
| StoreFrames.UpdateKeepsLinks | src/dish/crud.py:45-54 | A dish update never moves a dish to another submenu |
| StoreFrames.DishLookupAfterUpdate | src/dish/crud.py:45-54 | A dish update changes no other dish's lookup |
| StoreFrames.TotalDishesAfterCreate | src/dish/crud.py:8-20 | Creating a dish changes no other menu's dish count |
| StoreFrames.MenuLookupAfterCreate | src/dish/crud.py:8-20 | Creating a dish changes no other menu's lookup |
| StoreFrames.SubmenuLookupAfterCreate | src/dish/crud.py:8-20 | Creating a dish changes no other submenu's lookup |
| StoreFrames.DishLookupAfterCreate | src/dish/crud.py:8-20 | Creating a dish changes no other dish's lookup |
| StoreFrames.TotalDishesAfterDelete | src/dish/crud.py:57-64 | Deleting a dish changes no other menu's dish count |
| StoreFrames.MenuLookupAfterDelete | src/dish/crud.py:57-64 | Deleting a dish changes no other menu's lookup |
| StoreFrames.SubmenuLookupAfterDelete | src/dish/crud.py:57-64 | Deleting a dish changes no other submenu's lookup |
| StoreFrames.DishLookupAfterDelete | src/dish/crud.py:57-64 | Deleting a dish changes no other dish's lookup |
| MenuServices.MenuById | src/menu/services.py:21-46 | A GET is answered from `menu_{id}` when cached, otherwise by the store and written back; an id that is not canonical UUID4 text is 422; a coherent cache answers what the store answers and stays coherent |
| MenuServices.MenuByIdTouchesOneKey | src/menu/services.py:21-46 | The lookup writes no key but `menu_{id}` |
| MenuServices.MenuScope | src/menu/services.py:72-75 | The first steps of the menu invalidation remove exactly the list keys and `menu_{id}` |
| MenuServices.SubmenuStage | src/menu/services.py:72-83 | After the prefix step, exactly the keys that are not list keys, not the menu key and do not start with the menu id remain |
| MenuServices.SubmenuKeyIsFound | src/menu/services.py:77-83 | Every cached submenu key of the menu is found, and its submenu id is read off it |
| MenuServices.DishKeyIsCollected | src/menu/services.py:85-88 | Every cached dish key of a found submenu is collected |
| MenuServices.ClearMenuCache | src/menu/services.py:72-92 | As written: list keys, menu key and menu-prefixed keys go, but every collected dish key is still cached afterwards |
| MenuServices.ClearMenuCacheFixed | src/menu/services.py:72-92 | Corrected: the collected dish keys are deleted one by one, and exactly the other keys remain |
| MenuServices.FixedMenuCacheDropsDishKeys | src/menu/services.py:85-92 | The corrected invalidation leaves no dish key of any found submenu |
| MenuServices.LoadAllMenus | src/menu/services.py:95-105 | A cached `all_menus` list is served as is; otherwise the page is read and cached; with a coherent cache the answer is a page of the current store's menus, not necessarily the page asked for, and coherence is kept |
| MenuServices.LoadAllMenusTouchesOneKey | src/menu/services.py:95-105 | Loading the menu list writes no key but `all_menus` |
| MenuServices.MenuListIgnoresPage | src/menu/services.py:95-105 | Once a page is cached, every later request gets that page whichever page it asks for |
| SubmenuServices.SubmenuById | src/submenu/services.py:20-47 | A GET is answered from the first `*_submenu_{id}` key when it holds a submenu, otherwise by the store and written back; a coherent cache answers what the store answers |
| SubmenuServices.SubmenuScope | src/submenu/services.py:72-78 | The first steps of the submenu invalidation remove exactly the list keys, the menu key and the submenu key |
| SubmenuServices.DishKeySurvivesScope | src/submenu/services.py:72-80 | Every dish key of the submenu survives those steps and matches `{submenu_id}_dish_*` |
| SubmenuServices.ClearSubmenuCache | src/submenu/services.py:72-80 | As written: every dish key of the submenu is found, yet still cached afterwards |
| SubmenuServices.ClearSubmenuCacheFixed | src/submenu/services.py:72-80 | Corrected: exactly the keys that are not list, menu, submenu or dish keys of the submenu remain |
| SubmenuServices.FixedSubmenuCacheDropsDishKeys | src/submenu/services.py:72-80 | The corrected invalidation leaves no dish key of the submenu |
| SubmenuServices.LoadAllSubmenus | src/submenu/services.py:83-95 | As written: the cached list is served whenever `submenus_params` holds `{offset}_{limit}`; otherwise the menu's page is read and cached |
| SubmenuServices.TwoMenus | src/core/models.py:15-20 | A store with two menus of one submenu each |
| SubmenuServices.SubmenuListServesOtherMenu | src/submenu/services.py:83-95 | Listing menu `a` and then menu `b` with the same page serves `b` the submenus of `a` |
| SubmenuServices.LoadAllSubmenusFixed | src/submenu/services.py:83-95 | Corrected: the fingerprint names the menu as well as the page, and with a coherent cache the answer is exactly the page asked for of that menu and coherence is kept |
| SubmenuServices.FixedSubmenuListIsFresh | src/submenu/services.py:83-95 | With the corrected fingerprint the listing answers what the store answers, and the cached page stays fresh |
| SubmenuServices.FixedSubmenuListRepeats | src/submenu/services.py:83-95 | Listing the same menu's page twice gives the same answer and the same cache |
| DishServices.DishById | src/dish/services.py:19-46 | A GET is answered from the first `*_dish_{id}` key when it holds a dish, otherwise by the store and written back; a coherent cache answers what the store answers |
| DishServices.DishScope | src/dish/services.py:62-73 | The dish invalidation removes exactly the list keys, the dish key and the submenu key |
| DishServices.MenuKeySurvivesDishScope | src/dish/services.py:62-73 | No menu key is removed by the dish invalidation |
| DishServices.ClearDishCache | src/dish/services.py:62-73 | As written: the menu id is the first piece of a found submenu key, or `None`; every cached menu key survives with its value |
| DishServices.ClearDishCacheFixed | src/dish/services.py:62-73 | Corrected: the menu key is deleted too, and exactly the named keys go |
| DishServices.OneDish | src/core/models.py:7-29 | A well-formed store with one menu, one submenu and one dish |
| DishServices.OneDishMenuRead | src/menu/utils.py:12-27 | That menu reads with one submenu and one dish |
| DishServices.OneDishDeletedMenuRead | src/menu/utils.py:12-27 | Once the dish is deleted, the menu reads with no dish |
| DishServices.OneDishCacheCoherent | src/dish/services.py:62-73 | The fixture cache holding only the menu of the one-dish store is coherent with it |
| DishServices.OneDishMenuSurvives | src/dish/services.py:62-73 | The dish invalidation keeps the fixture's menu record, whatever menu id it settled on |
| DishServices.StaleMenuAfterDelete | src/dish/services.py:62-73 | Any cache that still holds the fixture's menu record is incoherent once the dish is deleted |
| DishServices.DishDeleteLeavesStaleMenu | src/dish/services.py:62-73 | As written: starting from a coherent cache, the dish invalidation of `clear_dish_cache` followed by the deletion leaves the cache incoherent, as the menu's dish count is stale |
| DishServices.LoadAllDishes | src/dish/services.py:76-91 | The cached list is served when `dishes_params` names the page asked for; otherwise the page is read and cached with its fingerprint; a coherent cache answers the store's page |
| DishServices.DishListRepeats | src/dish/services.py:76-91 | Asking for the same page again gives the same list and the same cache |
| DishServices.DishListOtherPage | src/dish/services.py:76-91 | Asking for another page after one is cached reads the store again |
| DishRouter.CreateInvalidation | src/dish/router.py:55-57 | The create route's invalidations, with `clear_menu_cache` and `clear_submenu_cache` as written, remove the four list keys, the menu key, the submenu key and every key starting with the menu id, keep every other entry unchanged, and add nothing |
| DishRouter.CreateDish | src/dish/router.py:38-61 | 404 for a missing menu, then submenu; 422 for a bad id or body; 409 exactly when the title is taken; otherwise the dish is appended, titles stay unique, and coherence is kept under the as-written invalidations |
| DishRouter.NewTitleKeepsTitlesUnique | src/dish/router.py:38-61 | Appending a dish with an unused title keeps dish titles unique |
| DishRouter.ListDishes | src/dish/router.py:70-84 | With a coherent cache the answer is the store's page, default offset 0 and limit 100, and coherence is kept |
| DishRouter.GetDish | src/dish/router.py:99-111 | An id that is not canonical UUID4 text is 422; with a coherent cache the answer is the store's, 404 exactly when no dish has the id |
| DishRouter.UpdateDish | src/dish/router.py:126-151 | 404 for a missing dish, 422 for a bad id or body, otherwise the update is applied; well-formedness and coherence are kept |
| DishRouter.OwnerOf | src/submenu/crud.py:8-14 | For a stored submenu, the id of the menu it belongs to |
| DishRouter.DeleteDish | src/dish/router.py:168-183 | 404 for a missing dish, 422 for an id that is not canonical UUID4 text, otherwise exactly that dish goes; well-formedness and coherence are kept |
| SheetParser.Discount | tasks/update_db.py:262-265 | The discount is column G when present and not blank; otherwise `0` (asyncio) or `nan` (the other copies) |
| SheetParser.KindOf | tasks/update_db.py:237-276 | The first non-blank of columns A, B, C decides a menu, submenu or dish row, and only when the row has the cells that level reads |
| SheetParser.Step | tasks/update_db.py:238-276 | One row of the loop: a failing row reports its own index; a row that parses leaves every menu but the last as it was and adds at most one menu, and only a menu row adds one |
| SheetParser.ParseUpTo | tasks/update_db.py:237-276 | The loop over the first rows: a failure names one of those rows, and the tree read so far has at most one menu per row |
| SheetParser.Parse | tasks/update_db.py:230-237 | The loop over all rows of the sheet: a failure names a row of the sheet, and the tree has at most one menu per row |
| SheetParser.StepNodes | tasks/update_db.py:237-276 | One row that parses appends its own node, if any, to the tree read in document order |
| SheetParser.ParsedTreeListsRows | tasks/update_db.py:237-276 | The parsed tree read in document order is the sequence of non-skipped rows, each read on its own with its row index |
| SheetParser.NodeCountIsRowCount | tasks/update_db.py:237-276 | The tree has one node per row whose leading cells are not all blank |
| SheetParser.RowNodesCount | tasks/update_db.py:237-276 | The row nodes of the first rows number the non-blank rows among them |
| SheetParser.MenuBeforeStep | tasks/update_db.py:238-247 | A menu has been seen before row n exactly when one was seen before row n-1 or row n-1 is a menu row |
| SheetParser.SubmenuOpenStep | tasks/update_db.py:249-258 | A menu row closes the open submenu, a submenu row opens one, other rows leave it |
| SheetParser.OpenSubmenuHasMenu | tasks/update_db.py:249-258 | In properly nested rows an open submenu lies under a menu |
| SheetParser.TreeShape | tasks/update_db.py:237-276 | The tree has a menu exactly when a menu row was seen, and its last menu has a submenu exactly when one is open |
| SheetParser.StepOkIffFits | tasks/update_db.py:249-267 | Once the earlier rows parse, the next parses exactly when it is long enough and its parent exists |
| SheetParser.ParseSucceedsIffNested | tasks/update_db.py:237-276 | Parsing succeeds exactly when every row fits: submenus below a menu, dishes below a submenu of the current menu |
| SheetParser.DishNodeReadsPriceAndDiscount | tasks/update_db.py:260-276 | A dish node's price is column F as text, and its discount is column G or the copy's default |
| SyncApi.ListMenus | src/menu/crud.py:16-27 | `GET /menus/` answers the first 100 menus in order |
| SyncApi.ListMenuIds | tasks/task_online.py:80-81 | The menu ids the job lists before processing are those of the first 100 stored menus, in order |
| SyncApi.ListDishIds | src/dish/crud.py:35-42 | The dish list answers the ids of the first 100 dishes of all submenus |
| SyncApi.ListSubmenus | src/submenu/router.py:32-38 | Answers exactly when the menu is found; every listed submenu belongs to it, and all of them when there are at most 100 |
| SyncApi.OnPatchMenu | src/menu/router.py:44-54 | Applied exactly when the menu is found and the description fits; otherwise nothing changes; well-formedness is kept |
| SyncApi.OnPostMenu | src/menu/router.py:17-23 | 201 exactly when the description fits and no menu has the title (then the menu is appended under the new id); a valid refused body is 409 and changes nothing |
| SyncApi.OnDeleteMenu | src/menu/router.py:57-63 | A found menu goes with everything beneath it; otherwise nothing changes |
| SyncApi.OnPatchSubmenu | src/submenu/router.py:49-59 | Applied exactly when the submenu is found and the description fits, whatever menu the path names |
| SyncApi.OnPostSubmenu | src/submenu/router.py:19-29 | 201 exactly when the menu is found, the description fits and no submenu of any menu has the title |
| SyncApi.OnDeleteSubmenu | src/submenu/router.py:62-69 | The submenu and its dishes go exactly when both menu and submenu are found |
| SyncApi.OnPatchDish | src/dish/router.py:126-151 | Applied exactly when the dish is found and the description fits |
| SyncApi.OnPostDish | src/dish/router.py:38-61 | 201 exactly when menu and submenu are found, the description fits and no dish has the title |
| SyncApi.OnDeleteDish | src/dish/router.py:168-183 | The dish goes exactly when it is found, whatever the path's other segments say |
| Reconciler.SyncDish | tasks/update_db.py:174-204 | A listed dish keeps its id and writes nothing; another is posted and its id written to column C; a refusal keeps the sheet id (asyncio) or stops with KeyError; in the online and workbook copies an empty title or description cell stops the run before anything is sent |
| Reconciler.SyncDishes | tasks/update_db.py:174-204 | A finished dish loop resolves one id per sheet dish |
| Reconciler.ListedDishesKeepTheirIds | tasks/update_db.py:177-183 | Every dish whose sheet id was listed at the start resolves to that id |
| Reconciler.OtherDiscountsUntouched | tasks/update_db.py:202-204 | Discounts of ids no dish of the loop resolved to are unchanged |
| Reconciler.LastDishWinsDiscount | tasks/update_db.py:202-204 | Each resolved id carries the discount of the last dish that resolved to it |
| Reconciler.SettleSubmenu | tasks/update_db.py:172-206 | The settled submenu id is written to column B before its dishes are reconciled |
| Reconciler.ResolveSubmenu | tasks/update_db.py:144-170 | Settling a submenu id writes no cell and only grows the run; in the online and workbook copies an empty title or description cell stops the patch by id and the post before they are sent |
| Reconciler.SubmenuMatchedById | tasks/update_db.py:144-149 | A sheet submenu listed by id keeps its id |
| Reconciler.SubmenuMatchedByTitle | tasks/task_online.py:103-112 | Matched by title, the asyncio copy adopts the first listed submenu with that title; the others stop with TypeError before sending anything |
| Reconciler.SubmenuPosted | tasks/task_online.py:114-123 | Otherwise the submenu is posted: a 201 gives the new id; on a refusal the online copy keeps the sheet id and the others stop with KeyError; a body holding an empty cell is never sent |
| Reconciler.SyncSubmenu | tasks/update_db.py:140-206 | One sheet submenu writes its settled id to column B first |
| Reconciler.SyncSubmenus | tasks/update_db.py:140-206 | A finished submenu loop settles one id per sheet submenu |
| Reconciler.Sweep | tasks/update_db.py:208-210 | Exactly the listed submenu ids no sheet submenu settled on are deleted, and they are gone from the store |
| Reconciler.UpdateAllData | tasks/update_db.py:132-210 | A menu that cannot be listed stops the run with TypeError before anything else |
| Reconciler.CreatedDishWritesAt | tasks/update_db.py:118-129 | The i-th created dish gets the i-th fresh id, written to column C at its row |
| Reconciler.CreateDishes | tasks/update_db.py:118-129 | Every created dish's new id is written to column C in order; a refusal stops with KeyError; an empty title or description cell (online and workbook copies) stops the run before the post; no dish id or discount is recorded |
| Reconciler.CreateSubmenus | tasks/task_online.py:177-207 | Creating submenus records no dish id and no discount; an empty title or description cell (online and workbook copies) stops the run before the post |
| Reconciler.CreateAllData | tasks/update_db.py:102-129 | The new menu id is written to column A first; no dish id or discount is recorded |
| Reconciler.UpdateMenu | tasks/update_db.py:60-99 | Found: reconciled under the sheet id. 201: under the new id. 409: under the first listed menu with the title, or IndexError when none is listed. A body that does not fit changes nothing. In the online and workbook copies an empty title or description cell stops the run before the patch or post. Whatever the branch, a menu that gets through keeps the cells written and records at most one menu id after those already recorded |
| Reconciler.SyncMenus | tasks/update_db.py:307-316 | The loop over the sheet's menus: when it gets through all of them, no menu had an empty title or description cell (online and workbook copies), the cells written before are kept, and the menu ids recorded extend those before by at most one per sheet menu |
| Reconciler.FewerMenuRows | src/core/models.py:7-12 | A store with fewer menu rows has fewer menu ids |
| Reconciler.DeleteOrphanDishes | tasks/update_db.py:317-319 | Exactly the listed dishes no sheet dish resolved to are deleted |
| Reconciler.DeleteOrphanMenus | tasks/update_db.py:321-323 | Exactly the listed menus whose id is not kept are deleted, and no other menu row goes |
| Reconciler.FinalPass | tasks/update_db.py:317-323 | The final pass writes no cell and keeps every menu whose id is kept |
| Reconciler.FinalPassDeletes | tasks/update_db.py:317-323 | The final pass's requests delete exactly the orphan dishes and the listed menus not kept |
| Reconciler.TitleFallbackAdoptsAnotherId | tasks/update_db.py:95-99 | The 409 fallback reconciles a sheet menu under a stored id other than its sheet id |
| Reconciler.ReconciledMenuDeleted | tasks/update_db.py:321-323 | As written: a listed menu that was reconciled under, but is not a sheet id, is deleted |
| Reconciler.ReconciledMenuKept | tasks/update_db.py:321-323 | Corrected: no menu that was reconciled under is deleted, and its row stays |
| Reconciler.Sync | tasks/task_local.py:181-235 | A parse failure sends nothing; a run that stops stores no discounts; the workbook copy that stops keeps no cell writes |

## Left out

- JSON encoding, the cache TTLs (`setex` expiry) and the Redis connection are not modelled. A cached value is the record it encodes.
- The discounted price (`get_new_dish_price`, `src/dish/services.py:94-105`) uses float arithmetic and is not modelled. Lookups answer the stored price. With the text discounts the online and workbook copies of the job store, its `discount / 100` would raise.
- DishRouter.UpdateDish: `dish_by_id` sets the discounted price on the row object for every method, PATCH included (`src/dish/services.py:44`), and `update_dish_partial` commits that object (`src/dish/crud.py:50-52`). So a PATCH whose body has no `price`, on a dish with a `discounts` entry, saves the discounted price, and each such PATCH discounts it again. The model keeps the stored price, since the discount arithmetic is floating point.
- The price validator and its float rounding (`src/dish/schemas.py:12-14`) are floating point and not modelled. Prices are kept as text.
- Reading the sheet (Google Sheets, pandas, openpyxl) and writing the cells are I/O. The rows arrive as text cells, and the writes are a logged sequence. Numeric cells are taken as their text.
- The job's HTTP calls go straight to the store through `SyncApi`. The cache the routes keep in between is not part of that view.
- The asyncio copy runs one task per sheet menu concurrently. Here the menus are processed one after the other in sheet order.
- The routes are modelled for dishes only (`src/dish/router.py`). The menu and submenu routers are context and are seen only through `SyncApi`.
- A cache entry of the wrong kind under a key is treated as a miss. The source would fail to decode it.
- Negative `offset`/`limit` values are not modelled: both are `nat`.
- `src/menu/crud.py:get_menus` imports count helpers that do not exist. `MenuCrud.GetMenus` gives it the counts `menu_by_id` computes.
- DishRouter.CreateDish: like the source, it does not check that the submenu in the path belongs to the menu in the path. Coherence is stated only for a submenu that does belong to that menu.
- DishRouter.DeleteDish uses the corrected dish invalidation. The as-written one is stated on its own member (Findings).
- SyncApi.OnPostMenu: the duplicate-title 409 follows the job's expectations rather than the older menu router in the repository.
- SyncApi.ListMenus, SyncApi.ListDishIds, SyncApi.ListSubmenus: the job calls them without paging, so they read the default page (offset 0, limit 100).
- Reconciler.SyncSubmenus states one settled id per sheet submenu and that the run only grows. The column-B write is stated for each single submenu (`Reconciler.SyncSubmenu`), not for the loop.
- Reconciler.SyncMenus: its contract states only what holds of every menu of a finished loop (no blank body cell, cells and menu ids only added). What happens to each menu is stated on `Reconciler.UpdateMenu`, and the whole run on `Reconciler.Sync` and the final-pass lemmas.
- Reconciler.Sync states what a run that stops or fails to parse leaves behind. A successful run is described by the members it composes.
- Reconciler.UpdateAllData states the unlistable-menu crash. Its submenu and dish behaviour is stated on `Reconciler.SyncSubmenu`, `Reconciler.SyncDish` and `Reconciler.Sweep`.
- The fresh UUIDs the store hands out are a supply `ids: nat -> string`. Whether they are distinct is the caller's assumption.
- Sheet rows too short for the cells their level reads stop the parse (`RowTooShort`), where the source raises `IndexError`.
- MenuServices.MenuById: the path ids are pydantic `UUID4` values, which also accept other spellings of a version-4 UUID (upper-case hex, no hyphens and the like) and normalise them. The model takes ids as canonical lower-case text (`Text.IsId`) and answers 422 for every other spelling.
- SubmenuServices.SubmenuById: the path ids are pydantic `UUID4` values, which also accept other spellings of a version-4 UUID (upper-case hex, no hyphens and the like) and normalise them. The model takes ids as canonical lower-case text (`Text.IsId`) and answers 422 for every other spelling.
- DishServices.DishById: the path ids are pydantic `UUID4` values, which also accept other spellings of a version-4 UUID (upper-case hex, no hyphens and the like) and normalise them. The model takes ids as canonical lower-case text (`Text.IsId`) and answers 422 for every other spelling.
- DishRouter.CreateDish: the path ids are pydantic `UUID4` values, which also accept other spellings of a version-4 UUID (upper-case hex, no hyphens and the like) and normalise them. The model takes ids as canonical lower-case text (`Text.IsId`) and answers 422 for every other spelling.
- DishRouter.GetDish: the path ids are pydantic `UUID4` values, which also accept other spellings of a version-4 UUID (upper-case hex, no hyphens and the like) and normalise them. The model takes ids as canonical lower-case text (`Text.IsId`) and answers 422 for every other spelling.
- DishRouter.UpdateDish: the path ids are pydantic `UUID4` values, which also accept other spellings of a version-4 UUID (upper-case hex, no hyphens and the like) and normalise them. The model takes ids as canonical lower-case text (`Text.IsId`) and answers 422 for every other spelling.
- DishRouter.DeleteDish: the path ids are pydantic `UUID4` values, which also accept other spellings of a version-4 UUID (upper-case hex, no hyphens and the like) and normalise them. The model takes ids as canonical lower-case text (`Text.IsId`) and answers 422 for every other spelling.
- Schemas.ValidateMenuUpdate: an update title is either absent or a text, so an explicit JSON `null` title cannot be expressed. The source accepts it (`title: str | None`), sets the `NOT NULL` column to `None`, and the commit fails with a 500.
- Schemas.ValidateSubMenuUpdate: an update title is either absent or a text, so an explicit JSON `null` title cannot be expressed. The source accepts it (`title: str | None`), sets the `NOT NULL` column to `None`, and the commit fails with a 500.
- Schemas.ValidateDishUpdate: an update title is either absent or a text, so an explicit JSON `null` title cannot be expressed. The source accepts it (`title: str | None`), sets the `NOT NULL` column to `None`, and the commit fails with a 500.
- MenuCrud.UpdateMenuPartial: an update title is either absent or a text, so an explicit JSON `null` title cannot be expressed. The source accepts it (`title: str | None`), sets the `NOT NULL` column to `None`, and the commit fails with a 500.
- SubmenuCrud.UpdateSubmenuPartial: an update title is either absent or a text, so an explicit JSON `null` title cannot be expressed. The source accepts it (`title: str | None`), sets the `NOT NULL` column to `None`, and the commit fails with a 500.
- DishCrud.UpdateDishPartial: an update title is either absent or a text, so an explicit JSON `null` title cannot be expressed. The source accepts it (`title: str | None`), sets the `NOT NULL` column to `None`, and the commit fails with a 500.
- DishRouter.UpdateDish: an update title is either absent or a text, so an explicit JSON `null` title cannot be expressed. The source accepts it (`title: str | None`), sets the `NOT NULL` column to `None`, and the commit fails with a 500.
- CacheState.Coherent: the `all_menus_nested` and `discounts` keys are not constrained. The cached `all_menus` list is only held to be some page of the store's menus, because `load_all_menus` records no bounds for it.
- Reconciler.NanBody: in the online and workbook copies an empty cell reaches the request body as NaN, which `requests` refuses to encode. The model stops the run there (`InvalidJson`). Cells are text here, so a cell holding the literal text `nan` is taken as empty too, and older `requests` releases that send the NaN are not modelled.

## Findings

| source | as written | input that shows it | evidently intended | confidence | as-written member | corrected member |
|---|---|---|---|---|---|---|
| src/menu/services.py:91-92 | `clear_cache(dish_keys)` passes the list of found dish keys as one argument, and `clear_cache` deletes `str(arg)`, the text `"['k1', 'k2']"` | a cached menu with a cached submenu `x` and a cached dish key `x_dish_y`: after `clear_menu_cache` the dish key is still there | delete each found dish key (`clear_cache(*dish_keys)`) | not executed | MenuServices.ClearMenuCache | MenuServices.FixedMenuCacheDropsDishKeys |
| src/submenu/services.py:79-80 | the same one-list call in `clear_submenu_cache` | a cached dish key `x_dish_y` of submenu `x`: after `clear_submenu_cache` it is still there | delete each key under `{submenu_id}_dish_*` | not executed | SubmenuServices.ClearSubmenuCache | SubmenuServices.FixedSubmenuCacheDropsDishKeys |
| tasks/update_db.py:321-323 | orphan menus are those not in `google_menus_ids`, the SHEET ids | a sheet menu whose sheet id is unknown but whose title matches stored menu `m`: the run reconciles it under `m`, then deletes `m` | keep every menu the sheet was reconciled under | not executed | Reconciler.ReconciledMenuDeleted | Reconciler.ReconciledMenuKept |
| src/submenu/services.py:83-95 | the `submenus_params` fingerprint `{offset}_{limit}` does not name the menu | list the submenus of menu `a`, then of menu `b`, both with the default page: `b` is served the submenus of `a` | fingerprint `{menu_id}_{offset}_{limit}` | not executed | SubmenuServices.SubmenuListServesOtherMenu | SubmenuServices.FixedSubmenuListIsFresh |
| src/dish/services.py:62-73 | `clear_dish_cache` deletes the dish and submenu keys but not `menu_{menu_id}`, whose value carries the menu's dish count | store `OneDish` (one menu, one submenu, one dish), cache holding that menu's key with dish count 1: delete the dish, and the menu key still says 1 | delete `menu_{menu_id}` as well | not executed | DishServices.DishDeleteLeavesStaleMenu | DishServices.ClearDishCacheFixed |

=== FILE: cache_keys.dfy ===
/**
 * The Redis key scheme. Entity keys are built by concatenation around `_`
 * (`menu_{id}`, `{menu_id}_submenu_{id}`, `{submenu_id}_dish_{id}`), and the
 * services read parent ids back with `split('_')`. Seven further keys have
 * fixed names. Because UUIDs contain no `_`, every key of the scheme is read
 * back as the key it was built from.
 */
module CacheKeys {
  import opened Common
  import opened Text

  const AllMenus := "all_menus"
  const AllSubmenus := "all_submenus"
  const AllDishes := "all_dishes"
  const AllMenusNested := "all_menus_nested"
  const DishesParams := "dishes_params"
  const SubmenusParams := "submenus_params"
  const Discounts := "discounts"

  /** The list keys `clear_main_cache` deletes. */
  const MainKeys: set<string> := {AllMenus, AllSubmenus, AllDishes, AllMenusNested}

  const FixedNames: set<string> := MainKeys + {DishesParams, SubmenusParams, Discounts}

  datatype Key =
    | ForMenu(menuId: string)
    | ForSubmenu(menuId: string, submenuId: string)
    | ForDish(submenuId: string, dishId: string)
    | Fixed(name: string)

  function MenuKey(menuId: string): string { "menu_" + menuId }
  function SubmenuKey(menuId: string, submenuId: string): string { menuId + "_submenu_" + submenuId }
  function DishKey(submenuId: string, dishId: string): string { submenuId + "_dish_" + dishId }

  /** The patterns `*_submenu_{id}` and `*_dish_{id}` the lookups use when the parent id is unknown. */
  function SubmenuSuffix(id: string): string { "_submenu_" + id }
  function DishSuffix(id: string): string { "_dish_" + id }

  /** A key of the scheme: UUID ids, or one of the fixed names. */
  predicate ValidKey(k: Key) {
    match k
    case ForMenu(m) => IsId(m)
    case ForSubmenu(m, s) => IsId(m) && IsId(s)
    case ForDish(s, d) => IsId(s) && IsId(d)
    case Fixed(name) => name in FixedNames
  }

  function Render(k: Key): string
  {
    match k
    case ForMenu(m) => MenuKey(m)
    case ForSubmenu(m, s) => SubmenuKey(m, s)
    case ForDish(s, d) => DishKey(s, d)
    case Fixed(name) => name
  }

  /** The `_`-separated pieces of an entity key. */
  function Pieces(k: Key): seq<string>
  {
    match k
    case ForMenu(m) => ["menu", m]
    case ForSubmenu(m, s) => [m, "submenu", s]
    case ForDish(s, d) => [s, "dish", d]
    case Fixed(name) => [name]
  }

  /** Reads a Redis key back into the scheme, by its `_`-separated pieces. */
  function ParseKey(t: string): (r: Option<Key>)
    ensures r.Some? ==> ValidKey(r.value)
    ensures r.Some? && !r.value.Fixed? ==> Split(t, '_') == Pieces(r.value)
    ensures r.Some? && r.value.Fixed? ==> t == r.value.name
  {
    var p := Split(t, '_');
    if |p| == 2 && p[0] == "menu" && IsId(p[1]) then Some(ForMenu(p[1]))
    else if |p| == 3 && p[1] == "submenu" && IsId(p[0]) && IsId(p[2]) then Some(ForSubmenu(p[0], p[2]))
    else if |p| == 3 && p[1] == "dish" && IsId(p[0]) && IsId(p[2]) then Some(ForDish(p[0], p[2]))
    else if t in FixedNames then Some(Fixed(t))
    else None
  }

  /** The piece pattern `ParseKey` reads as an entity key. */
  predicate EntityShaped(p: seq<string>) {
    (|p| == 2 && p[0] == "menu") || (|p| == 3 && (p[1] == "submenu" || p[1] == "dish"))
  }

  lemma AllMenusPieces() ensures |Split(AllMenus, '_')| <= 3 && !EntityShaped(Split(AllMenus, '_')) {
    assert AllMenus == "all" + "_" + "menus";
    SplitPair("all", '_', "menus");
  }
  lemma AllSubmenusPieces() ensures |Split(AllSubmenus, '_')| <= 3 && !EntityShaped(Split(AllSubmenus, '_')) {
    assert AllSubmenus == "all" + "_" + "submenus";
    SplitPair("all", '_', "submenus");
  }
  lemma AllDishesPieces() ensures |Split(AllDishes, '_')| <= 3 && !EntityShaped(Split(AllDishes, '_')) {
    assert AllDishes == "all" + "_" + "dishes";
    SplitPair("all", '_', "dishes");
  }
  lemma AllMenusNestedPieces() ensures |Split(AllMenusNested, '_')| <= 3 && !EntityShaped(Split(AllMenusNested, '_')) {
    assert AllMenusNested == "all" + "_" + "menus" + "_" + "nested";
    SplitTriple("all", '_', "menus", "nested");
  }
  lemma DishesParamsPieces() ensures |Split(DishesParams, '_')| <= 3 && !EntityShaped(Split(DishesParams, '_')) {
    assert DishesParams == "dishes" + "_" + "params";
    SplitPair("dishes", '_', "params");
  }
  lemma SubmenusParamsPieces() ensures |Split(SubmenusParams, '_')| <= 3 && !EntityShaped(Split(SubmenusParams, '_')) {
    assert SubmenusParams == "submenus" + "_" + "params";
    SplitPair("submenus", '_', "params");
  }
  lemma DiscountsPieces() ensures |Split(Discounts, '_')| <= 3 && !EntityShaped(Split(Discounts, '_')) {
    SplitNoSep(Discounts, '_');
  }

  lemma FixedNameCases(name: string)
    requires name in FixedNames
    ensures name == AllMenus || name == AllSubmenus || name == AllDishes || name == AllMenusNested
         || name == DishesParams || name == SubmenusParams || name == Discounts
  {
  }

  /** A fixed name is shorter than a UUID, so no pattern naming an id matches it. */
  lemma FixedKeyShort(k: Key)
    requires ValidKey(k)
    ensures k.Fixed? ==> |Render(k)| < 36
  {
    if k.Fixed? { FixedNameCases(k.name); }
  }

  /** No fixed name has the shape of an entity key, and none has more than three pieces. */
  lemma FixedNamePieces(name: string)
    requires name in FixedNames
    ensures |Split(name, '_')| <= 3 && !EntityShaped(Split(name, '_'))
  {
    FixedNameCases(name);
    if name == AllMenus { AllMenusPieces(); }
    else if name == AllSubmenus { AllSubmenusPieces(); }
    else if name == AllDishes { AllDishesPieces(); }
    else if name == AllMenusNested { AllMenusNestedPieces(); }
    else if name == DishesParams { DishesParamsPieces(); }
    else if name == SubmenusParams { SubmenusParamsPieces(); }
    else { DiscountsPieces(); }
  }

  /** The pieces an entity key splits into. */
  lemma EntityKeyPieces(k: Key)
    requires ValidKey(k) && !k.Fixed?
    ensures k.ForMenu? ==> Split(Render(k), '_') == ["menu", k.menuId]
    ensures k.ForSubmenu? ==> Split(Render(k), '_') == [k.menuId, "submenu", k.submenuId]
    ensures k.ForDish? ==> Split(Render(k), '_') == [k.submenuId, "dish", k.dishId]
  {
    match k
    case ForMenu(m) =>
      IdHasNoUnderscore(m);
      assert Render(k) == "menu" + "_" + m;
      SplitPair("menu", '_', m);
    case ForSubmenu(m, s) =>
      IdHasNoUnderscore(m); IdHasNoUnderscore(s);
      assert Render(k) == m + "_" + "submenu" + "_" + s;
      SplitTriple(m, '_', "submenu", s);
    case ForDish(s, d) =>
      IdHasNoUnderscore(s); IdHasNoUnderscore(d);
      assert Render(k) == s + "_" + "dish" + "_" + d;
      SplitTriple(s, '_', "dish", d);
  }

  /** Building a key and reading it back gives the key again. */
  lemma ParseRender(k: Key)
    requires ValidKey(k)
    ensures ParseKey(Render(k)) == Some(k)
  {
    if k.Fixed? {
      FixedNamePieces(k.name);
    } else {
      EntityKeyPieces(k);
    }
  }

  /** No entity key collides with a fixed name. */
  lemma EntityKeyNotFixed(k: Key)
    requires ValidKey(k) && !k.Fixed?
    ensures Render(k) !in FixedNames
  {
    EntityKeyPieces(k);
    if Render(k) in FixedNames {
      FixedNamePieces(Render(k));
    }
  }

  /** A string that splits into `menu` and an id is that menu's key. */
  lemma MenuPiecesRender(t: string, m: string)
    requires Split(t, '_') == ["menu", m]
    ensures MenuKey(m) == t
  {
    TwoPieces(t, '_');
  }

  /** A string that splits into three pieces is those pieces joined by `_`. */
  lemma TriplePiecesRender(t: string, a: string, mid: string, b: string)
    requires Split(t, '_') == [a, mid, b]
    ensures a + "_" + mid + "_" + b == t
  {
    ThreePieces(t, '_');
  }

  /** A string whose pieces are those of an entity key is that key's rendering. */
  lemma PiecesRender(t: string, k: Key)
    requires !k.Fixed? && Split(t, '_') == Pieces(k)
    ensures Render(k) == t
  {
    match k
    case ForMenu(m) => MenuPiecesRender(t, m);
    case ForSubmenu(m, s) => TriplePiecesRender(t, m, "submenu", s);
    case ForDish(s, d) => TriplePiecesRender(t, s, "dish", d);
  }

  /** A string read as a key is exactly the rendering of that key. */
  lemma RenderParsed(t: string)
    requires ParseKey(t).Some?
    ensures Render(ParseKey(t).value) == t
  {
    var k := ParseKey(t).value;
    if !k.Fixed? { PiecesRender(t, k); }
  }

  /** Distinct keys of the scheme are distinct strings. */
  lemma RenderInjective(k1: Key, k2: Key)
    requires ValidKey(k1) && ValidKey(k2)
    ensures Render(k1) == Render(k2) <==> k1 == k2
  {
    ParseRender(k1);
    ParseRender(k2);
  }

  /** `menu_key[0].split('_')[0]` recovers the menu id from a submenu key. */
  lemma SubmenuKeyNamesItsMenu(m: string, s: string)
    requires IsId(m) && IsId(s)
    ensures Split(SubmenuKey(m, s), '_')[0] == m
    ensures Last(Split(SubmenuKey(m, s), '_')) == s
  {
    EntityKeyPieces(ForSubmenu(m, s));
  }

  /** A key the `*_submenu_{id}` pattern matches is the key of a submenu with that id. */
  lemma SubmenuSuffixOnlySubmenuKeys(k: Key, id: string)
    requires ValidKey(k) && IsId(id)
    requires EndsWith(Render(k), "_submenu_" + id)
    ensures k.ForSubmenu? && k.submenuId == id
  {
    IdHasNoUnderscore(id);
    FixedKeyShort(k);
    assert "_submenu_" + id == ['_'] + "submenu" + ['_'] + id;
    SplitSuffixPair(Render(k), '_', "submenu", id);
    if !k.Fixed? { EntityKeyPieces(k); }
  }

  /** The `*_submenu_{id}` pattern matches exactly the submenu keys ending in that id. */
  lemma SubmenuSuffixMatches(k: Key, id: string)
    requires ValidKey(k) && IsId(id)
    ensures EndsWith(Render(k), "_submenu_" + id) <==> k.ForSubmenu? && k.submenuId == id
  {
    var suffix := "_submenu_" + id;
    if EndsWith(Render(k), suffix) {
      SubmenuSuffixOnlySubmenuKeys(k, id);
    }
    if k.ForSubmenu? && k.submenuId == id {
      assert Render(k) == k.menuId + suffix;
      assert Render(k)[|Render(k)| - |suffix|..] == suffix;
    }
  }

  /** A key the `*_dish_{id}` pattern matches is the key of a dish with that id. */
  lemma DishSuffixOnlyDishKeys(k: Key, id: string)
    requires ValidKey(k) && IsId(id)
    requires EndsWith(Render(k), "_dish_" + id)
    ensures k.ForDish? && k.dishId == id
  {
    IdHasNoUnderscore(id);
    FixedKeyShort(k);
    assert "_dish_" + id == ['_'] + "dish" + ['_'] + id;
    SplitSuffixPair(Render(k), '_', "dish", id);
    if !k.Fixed? { EntityKeyPieces(k); }
  }

  /** The `*_dish_{id}` pattern matches exactly the dish keys ending in that id. */
  lemma DishSuffixMatches(k: Key, id: string)
    requires ValidKey(k) && IsId(id)
    ensures EndsWith(Render(k), "_dish_" + id) <==> k.ForDish? && k.dishId == id
  {
    var suffix := "_dish_" + id;
    if EndsWith(Render(k), suffix) {
      DishSuffixOnlyDishKeys(k, id);
    }
    if k.ForDish? && k.dishId == id {
      assert Render(k) == k.submenuId + suffix;
      assert Render(k)[|Render(k)| - |suffix|..] == suffix;
    }
  }

  /** A key the `{submenu_id}_dish_*` pattern matches is the key of a dish of that submenu. */
  lemma DishPrefixOnlyDishKeys(k: Key, id: string)
    requires ValidKey(k) && IsId(id)
    requires StartsWith(Render(k), id + "_dish_")
    ensures k.ForDish? && k.submenuId == id
  {
    IdHasNoUnderscore(id);
    FixedKeyShort(k);
    assert id + "_dish_" == id + ['_'] + "dish" + ['_'];
    SplitPrefixPair(Render(k), '_', id, "dish");
    if !k.Fixed? { EntityKeyPieces(k); }
  }

  /** The `{submenu_id}_dish_*` pattern matches exactly the dish keys of that submenu. */
  lemma DishPrefixMatches(k: Key, id: string)
    requires ValidKey(k) && IsId(id)
    ensures StartsWith(Render(k), id + "_dish_") <==> k.ForDish? && k.submenuId == id
  {
    var prefix := id + "_dish_";
    if StartsWith(Render(k), prefix) {
      DishPrefixOnlyDishKeys(k, id);
    }
    if k.ForDish? && k.submenuId == id {
      assert Render(k) == prefix + k.dishId;
      assert Render(k)[..|prefix|] == prefix;
    }
  }

  /** Every submenu key of a menu starts with the menu id, so `{menu_id}*` finds it. */
  lemma SubmenuKeyHasMenuPrefix(m: string, s: string)
    ensures StartsWith(SubmenuKey(m, s), m)
  {
    assert SubmenuKey(m, s)[..|m|] == m;
  }

  /** Every dish key of a submenu starts with the submenu id, so `{submenu_id}*` finds it. */
  lemma DishKeyHasSubmenuPrefix(s: string, d: string)
    ensures StartsWith(DishKey(s, d), s)
  {
    assert DishKey(s, d)[..|s|] == s;
  }

  /** A menu key has two pieces; a submenu key, whatever its parts, has at least three. */
  lemma MenuKeyIsNoSubmenuKey(m: string, a: string, b: string)
    requires IsId(m)
    ensures MenuKey(m) != SubmenuKey(a, b)
  {
    EntityKeyPieces(ForMenu(m));
    assert SubmenuKey(a, b) == a + "_" + ("submenu" + "_" + b);
    SplitJoin(a, '_', "submenu" + "_" + b);
    SplitJoin("submenu", '_', b);
  }

  /** Keys that begin with a UUID begin with a hex digit or `-`, never with the `m` of `menu_`. */
  lemma DishKeyIsNoMenuKey(x: string, y: string, m: string)
    requires IsId(x)
    ensures DishKey(x, y) != MenuKey(m) && SubmenuKey(x, y) != MenuKey(m)
  {
    assert DishKey(x, y)[0] == x[0];
    assert SubmenuKey(x, y)[0] == x[0];
    assert MenuKey(m)[0] == 'm';
  }

  /** A dish key ends in `_dish_` and an id; a submenu key ends in `_submenu_` and an id. */
  lemma DishKeyIsNoSubmenuKey(x: string, y: string, m: string, z: string)
    requires IsId(x) && IsId(y) && IsId(z)
    ensures DishKey(x, y) != SubmenuKey(m, z)
  {
    SubmenuSuffixMatches(ForDish(x, y), z);
    assert SubmenuKey(m, z) == m + ("_submenu_" + z);
    assert EndsWith(SubmenuKey(m, z), "_submenu_" + z);
  }
}

=== FILE: cache_state.dfy ===
/**
 * When the cache tells the truth. A cache is coherent with a store when every
 * key belongs to the scheme, every cached record is what the uncached lookup
 * would answer now, the cached dish page and submenu page are the pages their
 * fingerprints name, and the cached menu list is a page of the store's menus.
 * The dish mutations keep coherence exactly when they delete the keys whose
 * lookups they change; the lemmas here say which keys those are.
 */
module CacheState {
  import opened Common
  import opened Text
  import opened Models
  import opened Schemas
  import opened CacheKeys
  import opened RedisCache
  import MenuUtils
  import SubmenuUtils
  import DishUtils
  import DishCrud
  import MenuCrud
  import SubmenuCrud
  import StoreFrames

  /** Every id and foreign key of the store is a UUID, so every key built from them is a key of the scheme. */
  predicate Keyable(s: Store) {
    && (forall m :: m in s.menus ==> IsId(m.id))
    && (forall sm :: sm in s.submenus ==> IsId(sm.id) && IsId(sm.menuId))
    && (forall d :: d in s.dishes ==> IsId(d.id) && IsId(d.submenuId))
  }

  /** The value under key `k` is what the store answers for `k` now. List and fingerprint keys are not constrained here. */
  predicate FreshEntry(s: Store, k: Key, e: Entry) {
    match k
    case ForMenu(m) => e.MenuEntry? && MenuUtils.MenuById(s, m) == Ok(e.menu)
    case ForSubmenu(m, x) =>
      e.SubmenuEntry? && SubmenuUtils.SubmenuById(s, x) == Ok(e.submenu) && e.submenu.submenu.menuId == m
    case ForDish(x, y) => e.DishEntry? && DishUtils.DishById(s, y) == Ok(e.dish) && e.dish.submenuId == x
    case Fixed(_) => true
  }

  /** The cached dish page is the page of the store its fingerprint names. */
  ghost predicate DishPageFresh(c: Cache, s: Store) {
    AllDishes in c && c[AllDishes].DishList? ==>
      forall o: nat, l: nat :: DishesParams in c && c[DishesParams] == Plain(Fingerprint(o, l)) ==>
        c[AllDishes].dishes == DishCrud.GetDishes(s, o, l)
  }

  /**
   * The cached menu list is a page of the store's menus. `load_all_menus`
   * caches whichever page was asked for first and records no bounds, so
   * which page it is stays open.
   */
  ghost predicate MenuPageHeld(c: Cache, s: Store) {
    AllMenus in c && c[AllMenus].MenuList? ==>
      exists o: nat, l: nat :: c[AllMenus].menus == MenuCrud.GetMenus(s, o, l)
  }

  /** The cached submenu page is the page of the menu and bounds its `{menu_id}_{offset}_{limit}` fingerprint names. */
  ghost predicate SubmenuPageFresh(c: Cache, s: Store) {
    AllSubmenus in c && c[AllSubmenus].SubmenuList? ==>
      forall menu: Menu, o: nat, l: nat ::
        (IsId(menu.id) && SubmenusParams in c && c[SubmenusParams] == Plain(ScopedFingerprint(menu.id, o, l))) ==>
        c[AllSubmenus].submenus == SubmenuCrud.GetSubmenus(s, menu, o, l)
  }

  /** Every key belongs to the scheme and every cached record is current. */
  ghost predicate EntriesFresh(c: Cache, s: Store) {
    forall t :: t in c ==> ParseKey(t).Some? && FreshEntry(s, ParseKey(t).value, c[t])
  }

  /** The three cached lists: the dish page, the menu list and the submenu page. */
  ghost predicate ListsFresh(c: Cache, s: Store) {
    DishPageFresh(c, s) && MenuPageHeld(c, s) && SubmenuPageFresh(c, s)
  }

  ghost predicate Coherent(c: Cache, s: Store) {
    EntriesFresh(c, s) && ListsFresh(c, s)
  }

  /** Lists are fresh when the four list and fingerprint keys are unchanged and the store's pages are too. */
  lemma ListsFreshKept(c: Cache, c': Cache, s: Store, s': Store)
    requires ListsFresh(c, s)
    requires forall t :: t in {AllDishes, DishesParams, AllMenus, AllSubmenus, SubmenusParams} ==>
      (t in c' ==> t in c && c'[t] == c[t])
    requires AllDishes in c' ==> forall o: nat, l: nat :: DishCrud.GetDishes(s', o, l) == DishCrud.GetDishes(s, o, l)
    requires AllMenus in c' ==> forall o: nat, l: nat :: MenuCrud.GetMenus(s', o, l) == MenuCrud.GetMenus(s, o, l)
    requires AllSubmenus in c' ==> forall menu: Menu, o: nat, l: nat ::
      SubmenuCrud.GetSubmenus(s', menu, o, l) == SubmenuCrud.GetSubmenus(s, menu, o, l)
    ensures ListsFresh(c', s')
  {
    assert AllDishes in c' ==> c'[AllDishes] == c[AllDishes];
    assert DishesParams in c' ==> c'[DishesParams] == c[DishesParams];
    assert AllMenus in c' ==> c'[AllMenus] == c[AllMenus];
    assert AllSubmenus in c' ==> c'[AllSubmenus] == c[AllSubmenus];
    assert SubmenusParams in c' ==> c'[SubmenusParams] == c[SubmenusParams];
    if AllMenus in c' && c'[AllMenus].MenuList? {
      var o: nat, l: nat :| c[AllMenus].menus == MenuCrud.GetMenus(s, o, l);
      assert c'[AllMenus].menus == MenuCrud.GetMenus(s', o, l);
    }
  }

  /** `c'` keeps some of `c`'s keys with their values and adds none. */
  predicate Shrunk(c': Cache, c: Cache) {
    forall t :: t in c' ==> t in c && c'[t] == c[t]
  }

  lemma WithoutShrinks(c': Cache, c: Cache, gone: set<string>)
    requires Without(c', c, gone)
    ensures Shrunk(c', c) && forall t :: t in gone ==> t !in c'
  {
  }

  // ---------------------------------------------------------------------------
  // Lookups answer the one row carrying the id

  lemma DishAnswerIsTheRow(s: Store, y: string, e: Dish)
    requires Wf(s) && DishUtils.DishById(s, y) == Ok(e)
    ensures e in s.dishes && forall d :: d in s.dishes && d.id == y ==> d == e
  {
    forall d | d in s.dishes && d.id == y ensures d == e {
      SameDishId(s, d, e);
    }
  }

  lemma SubmenuAnswerIsTheRow(s: Store, x: string, e: SubMenuRead)
    requires Wf(s) && SubmenuUtils.SubmenuById(s, x) == Ok(e)
    ensures e.submenu in s.submenus && forall sm :: sm in s.submenus && sm.id == x ==> sm == e.submenu
  {
    forall sm | sm in s.submenus && sm.id == x ensures sm == e.submenu {
      SameSubmenuId(s, sm, e.submenu);
    }
  }

  /**
   * In a coherent cache, any key `*_submenu_{id}` holds the store's current
   * answer for submenu `id`, and its first piece is the id of the owning menu.
   */
  lemma CachedSubmenuIsFresh(c: Cache, s: Store, t: string, id: string)
    requires Coherent(c, s) && t in c && IsId(id) && EndsWith(t, "_submenu_" + id)
    ensures c[t].SubmenuEntry? && SubmenuUtils.SubmenuById(s, id) == Ok(c[t].submenu)
    ensures Split(t, '_')[0] == c[t].submenu.submenu.menuId
  {
    var k := ParseKey(t).value;
    RenderParsed(t);
    SubmenuSuffixMatches(k, id);
  }

  /** In a coherent cache, any key `*_dish_{id}` holds the store's current answer for dish `id`. */
  lemma CachedDishIsFresh(c: Cache, s: Store, t: string, id: string)
    requires Coherent(c, s) && t in c && IsId(id) && EndsWith(t, "_dish_" + id)
    ensures c[t].DishEntry? && DishUtils.DishById(s, id) == Ok(c[t].dish)
  {
    var k := ParseKey(t).value;
    RenderParsed(t);
    DishSuffixMatches(k, id);
  }

  // ---------------------------------------------------------------------------
  // Reads, writes and deletions with an unchanged store

  /** Deleting keys never makes a coherent cache incoherent. */
  lemma CoherentAfterDeletion(c: Cache, c': Cache, s: Store)
    requires Coherent(c, s) && Shrunk(c', c)
    ensures Coherent(c', s)
  {
    ListsFreshKept(c, c', s, s);
  }

  /** Writing the store's current answer under the key it belongs to keeps the cache coherent. */
  lemma CoherentAfterWrite(c: Cache, s: Store, k: Key, e: Entry)
    requires Coherent(c, s) && ValidKey(k) && !k.Fixed? && FreshEntry(s, k, e)
    ensures Coherent(c[Render(k) := e], s)
  {
    var t0 := Render(k);
    var c' := c[t0 := e];
    ParseRender(k);
    EntityKeyNotFixed(k);
    forall t | t in c' ensures ParseKey(t).Some? && FreshEntry(s, ParseKey(t).value, c'[t]) {
      if t != t0 { assert c'[t] == c[t]; }
    }
    ListsFreshKept(c, c', s, s);
  }

  lemma EntriesAfterNamedWrite(c: Cache, s: Store, name: string, e: Entry)
    requires EntriesFresh(c, s) && name in FixedNames
    ensures EntriesFresh(c[name := e], s)
  {
    var c' := c[name := e];
    ParseRender(Fixed(name));
    forall t | t in c' ensures ParseKey(t).Some? && FreshEntry(s, ParseKey(t).value, c'[t]) {
      if t != name { assert c'[t] == c[t]; }
    }
  }

  /** Caching the store's menu page `(o, l)` under `all_menus` keeps the cache coherent. */
  lemma CoherentAfterMenuPageWrite(c: Cache, s: Store, o: nat, l: nat)
    requires Coherent(c, s)
    ensures Coherent(c[AllMenus := MenuList(MenuCrud.GetMenus(s, o, l))], s)
  {
    var c' := c[AllMenus := MenuList(MenuCrud.GetMenus(s, o, l))];
    EntriesAfterNamedWrite(c, s, AllMenus, c'[AllMenus]);
    assert AllDishes in c' ==> c'[AllDishes] == c[AllDishes];
    assert DishesParams in c' ==> c'[DishesParams] == c[DishesParams];
    assert AllSubmenus in c' ==> c'[AllSubmenus] == c[AllSubmenus];
    assert SubmenusParams in c' ==> c'[SubmenusParams] == c[SubmenusParams];
  }

  /** Caching the store's dish page `(o, l)` together with its fingerprint keeps the cache coherent. */
  lemma CoherentAfterDishPageWrite(c: Cache, s: Store, o: nat, l: nat)
    requires Coherent(c, s)
    ensures Coherent(c[AllDishes := DishList(DishCrud.GetDishes(s, o, l))][DishesParams := Plain(Fingerprint(o, l))], s)
  {
    var c1 := c[AllDishes := DishList(DishCrud.GetDishes(s, o, l))];
    var c' := c1[DishesParams := Plain(Fingerprint(o, l))];
    EntriesAfterNamedWrite(c, s, AllDishes, c1[AllDishes]);
    EntriesAfterNamedWrite(c1, s, DishesParams, c'[DishesParams]);
    forall o2: nat, l2: nat | c'[DishesParams] == Plain(Fingerprint(o2, l2))
      ensures c'[AllDishes].dishes == DishCrud.GetDishes(s, o2, l2)
    {
      FingerprintInjective(o, l, o2, l2);
    }
    assert AllMenus in c' ==> c'[AllMenus] == c[AllMenus];
    assert AllSubmenus in c' ==> c'[AllSubmenus] == c[AllSubmenus];
    assert SubmenusParams in c' ==> c'[SubmenusParams] == c[SubmenusParams];
  }

  /**
   * Caching the store's page `(o, l)` of `menu`'s submenus together with the
   * fingerprint `{menu_id}_{offset}_{limit}` keeps the cache coherent.
   */
  lemma CoherentAfterSubmenuPageWrite(c: Cache, s: Store, menu: Menu, o: nat, l: nat)
    requires Coherent(c, s) && IsId(menu.id)
    ensures Coherent(c[AllSubmenus := SubmenuList(SubmenuCrud.GetSubmenus(s, menu, o, l))]
                      [SubmenusParams := Plain(ScopedFingerprint(menu.id, o, l))], s)
  {
    var c1 := c[AllSubmenus := SubmenuList(SubmenuCrud.GetSubmenus(s, menu, o, l))];
    var c' := c1[SubmenusParams := Plain(ScopedFingerprint(menu.id, o, l))];
    EntriesAfterNamedWrite(c, s, AllSubmenus, c1[AllSubmenus]);
    EntriesAfterNamedWrite(c1, s, SubmenusParams, c'[SubmenusParams]);
    forall m2: Menu, o2: nat, l2: nat | IsId(m2.id) && c'[SubmenusParams] == Plain(ScopedFingerprint(m2.id, o2, l2))
      ensures c'[AllSubmenus].submenus == SubmenuCrud.GetSubmenus(s, m2, o2, l2)
    {
      ScopedFingerprintInjective(m2.id, o2, l2, menu.id, o, l);
    }
    assert AllDishes in c' ==> c'[AllDishes] == c[AllDishes];
    assert DishesParams in c' ==> c'[DishesParams] == c[DishesParams];
    assert AllMenus in c' ==> c'[AllMenus] == c[AllMenus];
  }

  // ---------------------------------------------------------------------------
  // The three dish mutations

  /**
   * A partial dish update changes only that dish's lookup and the dish page:
   * deleting those two keys is enough to stay coherent. The menu list and
   * the submenu page carry only counts, which the update leaves alone.
   */
  lemma CoherentAfterDishUpdate(c: Cache, s: Store, d: Dish, u: DishUpdate, c': Cache)
    requires Wf(s) && d in s.dishes && Coherent(c, s)
    requires Shrunk(c', c) && DishKey(d.submenuId, d.id) !in c' && AllDishes !in c'
    ensures Coherent(c', DishCrud.UpdateDishPartial(s, d, u).0)
  {
    var s' := DishCrud.UpdateDishPartial(s, d, u).0;
    StoreFrames.UpdateKeepsLinks(s, d, u);
    forall o: nat, l: nat ensures MenuCrud.GetMenus(s', o, l) == MenuCrud.GetMenus(s, o, l) {
      StoreFrames.MenuPageFollowsLinks(s, s', o, l);
    }
    forall menu: Menu, o: nat, l: nat ensures SubmenuCrud.GetSubmenus(s', menu, o, l) == SubmenuCrud.GetSubmenus(s, menu, o, l) {
      StoreFrames.SubmenuPageFollowsLinks(s, s', menu, o, l);
    }
    ListsFreshKept(c, c', s, s');
    forall t | t in c' ensures ParseKey(t).Some? && FreshEntry(s', ParseKey(t).value, c'[t]) {
      var k := ParseKey(t).value;
      RenderParsed(t);
      match k
      case ForMenu(m) => StoreFrames.MenuLookupFollowsLinks(s, s', m);
      case ForSubmenu(m, x) => StoreFrames.SubmenuLookupFollowsLinks(s, s', x);
      case ForDish(x, y) =>
        DishAnswerIsTheRow(s, y, c[t].dish);
        StoreFrames.DishLookupAfterUpdate(s, d, u, y);
      case Fixed(_) =>
    }
  }

  /**
   * A new dish under `sm` changes the lookups of `sm` and of the menu owning
   * it, and no other cached lookup.
   */
  lemma CoherentAfterDishCreate(c: Cache, s: Store, newId: string, sm: SubMenu, p: DishCreate, c': Cache)
    requires Wf(s) && sm in s.submenus && newId !in DishIds(s) && Coherent(c, s)
    requires Shrunk(c', c) && AllDishes !in c' && AllMenus !in c' && AllSubmenus !in c'
    requires MenuKey(sm.menuId) !in c' && SubmenuKey(sm.menuId, sm.id) !in c'
    ensures Coherent(c', DishCrud.CreateDish(s, newId, sm, p).0)
  {
    var s' := DishCrud.CreateDish(s, newId, sm, p).0;
    ListsFreshKept(c, c', s, s');
    forall t | t in c' ensures ParseKey(t).Some? && FreshEntry(s', ParseKey(t).value, c'[t]) {
      var k := ParseKey(t).value;
      RenderParsed(t);
      match k
      case ForMenu(m) => StoreFrames.MenuLookupAfterCreate(s, newId, sm, p, m);
      case ForSubmenu(m, x) =>
        SubmenuAnswerIsTheRow(s, x, c[t].submenu);
        StoreFrames.SubmenuLookupAfterCreate(s, newId, sm, p, x);
      case ForDish(x, y) => StoreFrames.DishLookupAfterCreate(s, newId, sm, p, y);
      case Fixed(_) =>
    }
  }

  /**
   * Removing dish `d` of submenu `sm` changes the lookups of `d`, of `sm` and
   * of the menu owning `sm`, and no other cached lookup.
   */
  lemma CoherentAfterDishDelete(c: Cache, s: Store, d: Dish, sm: SubMenu, c': Cache)
    requires Wf(s) && d in s.dishes && sm in s.submenus && sm.id == d.submenuId && Coherent(c, s)
    requires Shrunk(c', c) && AllDishes !in c' && AllMenus !in c' && AllSubmenus !in c'
    requires MenuKey(sm.menuId) !in c' && SubmenuKey(sm.menuId, sm.id) !in c' && DishKey(d.submenuId, d.id) !in c'
    ensures Coherent(c', DishCrud.DeleteDish(s, d).0)
  {
    var s' := DishCrud.DeleteDish(s, d).0;
    ListsFreshKept(c, c', s, s');
    forall sm2 | sm2 in s.submenus && sm2.id == d.submenuId ensures sm2.menuId == sm.menuId {
      SameSubmenuId(s, sm2, sm);
    }
    forall t | t in c' ensures ParseKey(t).Some? && FreshEntry(s', ParseKey(t).value, c'[t]) {
      var k := ParseKey(t).value;
      RenderParsed(t);
      match k
      case ForMenu(m) => StoreFrames.MenuLookupAfterDelete(s, d, m);
      case ForSubmenu(m, x) =>
        SubmenuAnswerIsTheRow(s, x, c[t].submenu);
        StoreFrames.SubmenuLookupAfterDelete(s, d, x);
      case ForDish(x, y) =>
        DishAnswerIsTheRow(s, y, c[t].dish);
        StoreFrames.DishLookupAfterDelete(s, d, y);
      case Fixed(_) =>
    }
  }
}

=== FILE: common.dfy ===
/** Failure-compatible wrappers and small sequence helpers shared by every module. */
module Common {

  datatype Option<+T> = None | Some(value: T)

  /** Either a value or the error the source raises instead of returning one. */
  datatype Result<+T, +E> = Ok(value: T) | Err(error: E)

  /** A check that either passes or fails with an error (a function returning `None` or raising). */
  datatype Outcome<+E> = Pass | Fail(error: E)

  /** An HTTP error answer: the status code and the `detail` text of the body. */
  datatype HttpError = HttpError(status: int, detail: string)

  const NotFound: int := 404
  const Conflict: int := 409
  const Unprocessable: int := 422

  function Min(a: int, b: int): int { if a <= b then a else b }

  /** The elements of `xs` that satisfy `keep`, in their original order. */
  function Filter<T(!new)>(xs: seq<T>, keep: T -> bool): (r: seq<T>)
    ensures |r| <= |xs|
    ensures forall x :: x in r <==> x in xs && keep(x)
  {
    if |xs| == 0 then []
    else (if keep(xs[0]) then [xs[0]] else []) + Filter(xs[1..], keep)
  }

  /** The first element satisfying `p` (`.scalars().first()`, or `[...][0]` on a filtered list). */
  function FindFirst<T>(xs: seq<T>, p: T -> bool): (r: Option<T>)
    ensures r.Some? ==> r.value in xs && p(r.value)
    ensures r.None? <==> forall i :: 0 <= i < |xs| ==> !p(xs[i])
    ensures r.Some? ==> exists i :: 0 <= i < |xs| && xs[i] == r.value && forall j :: 0 <= j < i ==> !p(xs[j])
  {
    if |xs| == 0 then None
    else if p(xs[0]) then Some(xs[0])
    else
      var r := FindFirst(xs[1..], p);
      assert r.Some? ==> exists i :: 1 <= i < |xs| && xs[i] == r.value && forall j :: 0 <= j < i ==> !p(xs[j]) by {
        if r.Some? {
          var i :| 0 <= i < |xs[1..]| && xs[1..][i] == r.value && forall j :: 0 <= j < i ==> !p(xs[1..][j]);
          assert xs[i + 1] == r.value;
          forall j | 1 <= j < i + 1 ensures !p(xs[j]) { assert xs[j] == xs[1..][j - 1]; }
        }
      }
      r
  }

  /** Every element `same` picks out replaced by `x`, the others kept in place (a committed row replacing its stored copy). */
  function ReplaceWhere<T>(xs: seq<T>, same: T -> bool, x: T): (r: seq<T>)
    ensures |r| == |xs|
    ensures forall i :: 0 <= i < |xs| ==> r[i] == if same(xs[i]) then x else xs[i]
  {
    seq(|xs|, i requires 0 <= i < |xs| => if same(xs[i]) then x else xs[i])
  }

  /** SQL `OFFSET offset LIMIT limit` over rows in storage order. */
  function Page<T>(xs: seq<T>, offset: nat, limit: nat): (r: seq<T>)
    ensures |r| == if offset >= |xs| then 0 else Min(limit, |xs| - offset)
    ensures forall i :: 0 <= i < |r| ==> offset + i < |xs| && r[i] == xs[offset + i]
  {
    if offset >= |xs| then [] else xs[offset .. offset + Min(limit, |xs| - offset)]
  }

  /** Two consecutive pages read the same rows as one page spanning both. */
  lemma PagesConcatenate<T>(xs: seq<T>, offset: nat, l1: nat, l2: nat)
    ensures Page(xs, offset, l1) + Page(xs, offset + l1, l2) == Page(xs, offset, l1 + l2)
  {
  }

  /** The set of keys of the elements of `xs`. */
  function Image<T, K>(xs: seq<T>, key: T -> K): set<K>
  {
    set i | 0 <= i < |xs| :: key(xs[i])
  }

  /** A key function that separates the elements of `xs` has exactly `|xs|` images. */
  lemma {:induction false} DistinctImageCard<T, K>(xs: seq<T>, key: T -> K)
    requires forall i, j :: 0 <= i < j < |xs| ==> key(xs[i]) != key(xs[j])
    ensures |Image(xs, key)| == |xs|
  {
    if |xs| > 0 {
      var rest := Image(xs[1..], key);
      DistinctImageCard(xs[1..], key);
      assert key(xs[0]) !in rest by {
        forall i | 0 <= i < |xs[1..]| ensures key(xs[1..][i]) != key(xs[0]) {
          assert xs[1..][i] == xs[i + 1];
        }
      }
      assert Image(xs, key) == {key(xs[0])} + rest by {
        forall k | k in Image(xs, key) ensures k in {key(xs[0])} + rest {
          var i :| 0 <= i < |xs| && key(xs[i]) == k;
          if i > 0 { assert xs[1..][i - 1] == xs[i]; }
        }
        forall k | k in rest ensures k in Image(xs, key) {
          var i :| 0 <= i < |xs[1..]| && key(xs[1..][i]) == k;
          assert xs[1..][i] == xs[i + 1];
        }
      }
    }
  }

  // ---------------------------------------------------------------------------
  // How Filter and FindFirst react to changes of their sequence

  lemma {:induction false} FilterAppend<T(!new)>(xs: seq<T>, y: T, keep: T -> bool)
    ensures Filter(xs + [y], keep) == Filter(xs, keep) + (if keep(y) then [y] else [])
  {
    if |xs| > 0 {
      assert (xs + [y])[1..] == xs[1..] + [y];
      FilterAppend(xs[1..], y, keep);
    } else {
      assert xs + [y] == [y];
    }
  }

  /** Two sequences on which `keep` agrees position by position keep equally many elements. */
  lemma {:induction false} FilterLengthPointwise<T(!new)>(xs: seq<T>, ys: seq<T>, keep: T -> bool)
    requires |xs| == |ys|
    requires forall i :: 0 <= i < |xs| ==> keep(xs[i]) == keep(ys[i])
    ensures |Filter(xs, keep)| == |Filter(ys, keep)|
  {
    if |xs| > 0 {
      FilterLengthPointwise(xs[1..], ys[1..], keep);
    }
  }

  /** Filtering first by a condition every `q`-element already meets does not change the `q`-elements. */
  lemma {:induction false} FilterRedundant<T(!new)>(xs: seq<T>, keep: T -> bool, q: T -> bool)
    requires forall i :: 0 <= i < |xs| && q(xs[i]) ==> keep(xs[i])
    ensures Filter(Filter(xs, keep), q) == Filter(xs, q)
  {
    if |xs| > 0 {
      var tail := xs[1..];
      assert forall i :: 0 <= i < |tail| && q(tail[i]) ==> keep(tail[i]) by {
        forall i | 0 <= i < |tail| ensures q(tail[i]) ==> keep(tail[i]) { assert tail[i] == xs[i + 1]; }
      }
      FilterRedundant(tail, keep, q);
      var rest := Filter(tail, keep);
      if keep(xs[0]) {
        var f := [xs[0]] + rest;
        assert Filter(xs, keep) == f;
        assert f[0] == xs[0] && f[1..] == rest;
        assert Filter(f, q) == (if q(xs[0]) then [xs[0]] else []) + Filter(rest, q);
      } else {
        assert Filter(xs, keep) == rest;
        assert !q(xs[0]);
      }
    }
  }

  /** Lookups agree on two sequences that agree position by position on the sought elements. */
  lemma {:induction false} FindFirstPointwise<T>(xs: seq<T>, ys: seq<T>, p: T -> bool)
    requires |xs| == |ys|
    requires forall i :: 0 <= i < |xs| ==> p(xs[i]) == p(ys[i])
    requires forall i :: 0 <= i < |xs| && p(xs[i]) ==> xs[i] == ys[i]
    ensures FindFirst(xs, p) == FindFirst(ys, p)
  {
    if |xs| > 0 && !p(xs[0]) {
      FindFirstPointwise(xs[1..], ys[1..], p);
    }
  }

  /** Appending an element does not change a lookup that already succeeds, nor one it does not satisfy. */
  lemma {:induction false} FindFirstAppend<T>(xs: seq<T>, y: T, p: T -> bool)
    requires FindFirst(xs, p).Some? || !p(y)
    ensures FindFirst(xs + [y], p) == FindFirst(xs, p)
  {
    if |xs| == 0 {
      assert xs + [y] == [y];
      assert [y][1..] == [];
    } else if !p(xs[0]) {
      assert (xs + [y])[1..] == xs[1..] + [y];
      FindFirstAppend(xs[1..], y, p);
    }
  }

  /** Filtering out elements the lookup never selects does not change the lookup. */
  lemma {:induction false} FindFirstFilter<T(!new)>(xs: seq<T>, keep: T -> bool, p: T -> bool)
    requires forall i :: 0 <= i < |xs| && p(xs[i]) ==> keep(xs[i])
    ensures FindFirst(Filter(xs, keep), p) == FindFirst(xs, p)
  {
    if |xs| > 0 {
      var tail := xs[1..];
      assert forall i :: 0 <= i < |tail| && p(tail[i]) ==> keep(tail[i]) by {
        forall i | 0 <= i < |tail| ensures p(tail[i]) ==> keep(tail[i]) { assert tail[i] == xs[i + 1]; }
      }
      var rest := Filter(tail, keep);
      if keep(xs[0]) {
        var f := [xs[0]] + rest;
        assert Filter(xs, keep) == f;
        assert f[0] == xs[0] && f[1..] == rest;
        if !p(xs[0]) {
          FindFirstFilter(tail, keep, p);
        }
      } else {
        assert Filter(xs, keep) == rest;
        FindFirstFilter(tail, keep, p);
      }
    }
  }
}

=== FILE: dish_crud.dfy ===
/** Data access for dishes: create, lookups by title and id, paged list over all dishes, partial update, delete. */
module DishCrud {
  import opened Common
  import opened Models
  import opened Schemas
  import MenuCrud

  const DishDeleted := MenuCrud.Deleted(true, "The dish has been deleted")

  /** The new dish is stored under the given submenu, with the payload's fields. */
  function CreateDish(s: Store, newId: string, submenu: SubMenu, p: DishCreate): (r: (Store, Dish))
    ensures r.1 == Dish(newId, p.title, p.description, p.price, submenu.id)
    ensures r.0.dishes == s.dishes + [r.1]
    ensures r.0.menus == s.menus && r.0.submenus == s.submenus
    ensures Wf(s) && submenu.id in SubmenuIds(s) && newId !in DishIds(s) ==> Wf(r.0)
  {
    var d := Dish(newId, p.title, p.description, p.price, submenu.id);
    (s.(dishes := s.dishes + [d]), d)
  }

  /** The first dish with exactly this title, under whichever submenu it lies. */
  function GetDishByTitle(s: Store, title: string): (r: Option<Dish>)
    ensures r.Some? ==> r.value in s.dishes && r.value.title == title
    ensures r.None? <==> forall d :: d in s.dishes ==> d.title != title
    ensures r.Some? ==> exists i :: 0 <= i < |s.dishes| && s.dishes[i] == r.value
                                 && forall j :: 0 <= j < i ==> s.dishes[j].title != title
  {
    FindFirst(s.dishes, DishTitleIs(title))
  }

  /**
   * Creating a dish leaves a title lookup that already succeeds alone; when
   * none did, the lookup finds the new dish exactly when it carries the title.
   */
  lemma TitleLookupAfterCreate(s: Store, newId: string, submenu: SubMenu, p: DishCreate, title: string)
    ensures var (s', d) := CreateDish(s, newId, submenu, p);
      && (GetDishByTitle(s, title).Some? ==> GetDishByTitle(s', title) == GetDishByTitle(s, title))
      && (GetDishByTitle(s, title).None? ==> GetDishByTitle(s', title) == if p.title == title then Some(d) else None)
  {
    var (s', d) := CreateDish(s, newId, submenu, p);
    if GetDishByTitle(s, title).Some? || p.title != title {
      FindFirstAppend(s.dishes, d, DishTitleIs(title));
    } else {
      var r := GetDishByTitle(s', title);
      var i :| 0 <= i < |s'.dishes| && s'.dishes[i] == r.value && forall j :: 0 <= j < i ==> s'.dishes[j].title != title;
      assert s'.dishes[|s.dishes|] == d;
    }
  }

  function GetDishById(s: Store, id: string): (r: Option<Dish>)
    ensures r.Some? ==> r.value in s.dishes && r.value.id == id
    ensures r.None? <==> id !in DishIds(s)
  {
    FindFirst(s.dishes, DishIdIs(id))
  }

  /** One page of ALL dishes: the query does not filter on the submenu in the path. */
  function GetDishes(s: Store, offset: nat, limit: nat): (r: seq<Dish>)
    ensures |r| == if offset >= |s.dishes| then 0 else Min(limit, |s.dishes| - offset)
    ensures forall i :: 0 <= i < |r| ==> r[i] == s.dishes[offset + i]
  {
    Page(s.dishes, offset, limit)
  }

  function ApplyDishUpdate(d: Dish, u: DishUpdate): (d': Dish)
    ensures d'.id == d.id && d'.submenuId == d.submenuId
    ensures u.title.Set? ==> d'.title == u.title.value
    ensures u.title.Unset? ==> d'.title == d.title
    ensures u.description.Set? ==> d'.description == u.description.value
    ensures u.description.Unset? ==> d'.description == d.description
    ensures u.price.Set? ==> d'.price == u.price.value
    ensures u.price.Unset? ==> d'.price == d.price
  {
    d.(title := if u.title.Set? then u.title.value else d.title,
       description := if u.description.Set? then u.description.value else d.description,
       price := if u.price.Set? then u.price.value else d.price)
  }

  function UpdateDishPartial(s: Store, d: Dish, u: DishUpdate): (r: (Store, Dish))
    ensures r.1 == ApplyDishUpdate(d, u)
    ensures r.0.menus == s.menus && r.0.submenus == s.submenus
    ensures |r.0.dishes| == |s.dishes|
    ensures forall i :: 0 <= i < |s.dishes| && s.dishes[i].id != d.id ==> r.0.dishes[i] == s.dishes[i]
    ensures forall i :: 0 <= i < |s.dishes| && s.dishes[i].id == d.id ==> r.0.dishes[i] == r.1
    ensures DishIds(r.0) == DishIds(s)
    ensures Wf(s) && d in s.dishes ==> Wf(r.0)
  {
    var d' := ApplyDishUpdate(d, u);
    var s' := s.(dishes := ReplaceWhere(s.dishes, (x: Dish) => x.id == d'.id, d'));
    assert DishIds(s') == DishIds(s) by {
      forall x | x in DishIds(s) ensures x in DishIds(s') {
        var i :| 0 <= i < |s.dishes| && s.dishes[i].id == x;
        assert s'.dishes[i].id == x;
      }
    }
    assert Wf(s) && d in s.dishes ==> Wf(s') by {
      if Wf(s) && d in s.dishes {
        forall x | x in s'.dishes ensures x.submenuId in SubmenuIds(s') {
          var i :| 0 <= i < |s'.dishes| && s'.dishes[i] == x;
          if s.dishes[i].id == d.id {
            var k :| 0 <= k < |s.dishes| && s.dishes[k] == d;
            assert k == i;
          }
          assert s.dishes[i] in s.dishes;
        }
      }
    }
    (s', d')
  }

  function DeleteDish(s: Store, d: Dish): (r: (Store, MenuCrud.Deleted))
    ensures r.1 == DishDeleted
    ensures d.id !in DishIds(r.0)
    ensures r.0.menus == s.menus && r.0.submenus == s.submenus
    ensures r.0.dishes == Filter(s.dishes, DishIdIsNot(d.id))
    ensures forall x :: x in r.0.dishes <==> x in s.dishes && x.id != d.id
    ensures Wf(s) ==> Wf(r.0)
  {
    (DeleteDishRow(s, d.id), DishDeleted)
  }
}

=== FILE: dish_router.dfy ===
/**
 * The five dish routes. Each takes the cache and the store as they are when
 * the request arrives and gives back the answer together with both after the
 * request, its background invalidations included.
 *
 * Dependencies are resolved before the body is looked at: a lookup whose id
 * is a UUID runs at once and its 404 wins; an id that is not a UUID and a
 * body that fails validation are both reported as one 422 afterwards; the
 * 409 of the title check comes last.
 */
module DishRouter {
  import opened Common
  import opened Text
  import opened Models
  import opened Schemas
  import opened CacheKeys
  import opened RedisCache
  import opened CacheState
  import MenuUtils
  import SubmenuUtils
  import DishUtils
  import MenuCrud
  import SubmenuCrud
  import DishCrud
  import MenuServices
  import SubmenuServices
  import DishServices

  /** The submenu with this id, if any, belongs to this menu. */
  predicate Owns(s: Store, menuId: string, submenuId: string) {
    forall sm :: sm in s.submenus && sm.id == submenuId ==> sm.menuId == menuId
  }

  /** A well-formed id that no row carries: the lookup's 404. */
  predicate MenuMissing(s: Store, menuId: string) { IsId(menuId) && menuId !in MenuIds(s) }
  predicate SubmenuMissing(s: Store, submenuId: string) { IsId(submenuId) && submenuId !in SubmenuIds(s) }
  predicate DishMissing(s: Store, dishId: string) { IsId(dishId) && dishId !in DishIds(s) }

  /** No two dishes share a title: what the 409 check keeps true on create. */
  predicate DishTitlesUnique(s: Store) {
    forall i, j :: 0 <= i < j < |s.dishes| ==> s.dishes[i].title != s.dishes[j].title
  }

  /**
   * The invalidations `create_dish` schedules, in order, with the menu and
   * submenu clears as written. They remove the fixed list keys, the menu's
   * and the submenu's keys and whatever starts with the menu id, and keep
   * every other entry as it was.
   */
  method CreateInvalidation(c: Cache, menuId: string, submenuId: string) returns (c': Cache)
    ensures Shrunk(c', c)
    ensures forall t :: t in c' ==> t !in MainKeys && t != MenuKey(menuId) && t != SubmenuKey(menuId, submenuId)
    ensures forall t ::
              (&& t in c && t !in MainKeys && t != MenuKey(menuId) && t != SubmenuKey(menuId, submenuId)
               && !StartsWith(t, menuId) && (|t| == 0 || t[0] != '[')) ==> t in c'
  {
    var c1 := ClearCache(c, [Str(AllDishes)]);
    assert Named([Str(AllDishes)]) == {AllDishes};
    var c2, menuDishKeys := MenuServices.ClearMenuCache(c1, menuId);
    var submenuDishKeys;
    c', submenuDishKeys := SubmenuServices.ClearSubmenuCache(c2, menuId, submenuId);
  }

  /**
   * `POST /menus/{menu_id}/submenus/{submenu_id}/dishes`. The new dish goes
   * under the submenu of the path; the route does not check that this
   * submenu belongs to the menu of the path.
   */
  method CreateDish(c: Cache, s: Store, menuId: string, submenuId: string, body: DishBody, newId: string)
    returns (r: Result<Dish, HttpError>, s': Store, c': Cache)
    ensures MenuMissing(s, menuId) ==> r == Err(MenuUtils.MenuNotFound)
    ensures !MenuMissing(s, menuId) && SubmenuMissing(s, submenuId) ==> r == Err(SubmenuUtils.SubmenuNotFound)
    ensures (!MenuMissing(s, menuId) && !SubmenuMissing(s, submenuId)
             && (!IsId(menuId) || !IsId(submenuId) || ValidateDishCreate(body).Err?)) ==> r == Err(InvalidBody)
    ensures IsId(menuId) && IsId(submenuId) && menuId in MenuIds(s) && submenuId in SubmenuIds(s)
            && ValidateDishCreate(body).Ok? ==>
              (r.Err? <==> exists d :: d in s.dishes && d.title == ValidateDishCreate(body).value.title)
    ensures r.Err? ==> s' == s && c' == c
    ensures r.Ok? ==> && ValidateDishCreate(body).Ok?
                      && r.value == Dish(newId, body.title.value, body.description, ValidateDishCreate(body).value.price, submenuId)
                      && s'.dishes == s.dishes + [r.value] && s'.menus == s.menus && s'.submenus == s.submenus
    ensures r.Ok? && Wf(s) && newId !in DishIds(s) ==> Wf(s')
    ensures r.Ok? && DishTitlesUnique(s) ==> DishTitlesUnique(s')
    ensures Wf(s) && newId !in DishIds(s) && Owns(s, menuId, submenuId) && Coherent(c, s) ==> Coherent(c', s')
  {
    s', c' := s, c;
    if IsId(menuId) {
      var (m, _) := MenuServices.MenuById(c, s, menuId, false);
      if m.Err? { return Err(m.error), s, c; }
    }
    var smr: Result<SubMenuRead, HttpError> := Err(InvalidId);
    if IsId(submenuId) {
      var ignored;
      smr, ignored := SubmenuServices.SubmenuById(c, s, submenuId, false);
      if smr.Err? { return Err(smr.error), s, c; }
    }
    var v := ValidateDishCreate(body);
    if !IsId(menuId) || !IsId(submenuId) || v.Err? {
      return Err(InvalidBody), s, c;
    }
    var p := v.value;
    if DishUtils.CheckUniqueDish(s, p.title).Fail? {
      return Err(DishUtils.DishTaken), s, c;
    }
    var sm := smr.value.submenu;
    var created := DishCrud.CreateDish(s, newId, sm, p);
    s' := created.0;
    r := Ok(created.1);
    c' := CreateInvalidation(c, menuId, sm.id);
    NewTitleKeepsTitlesUnique(s, created.1);
    if Wf(s) && newId !in DishIds(s) && Owns(s, menuId, submenuId) && Coherent(c, s) {
      CoherentAfterDishCreate(c, s, newId, sm, p, c');
    }
  }

  /** Appending a dish whose title no dish has keeps titles unique. */
  lemma NewTitleKeepsTitlesUnique(s: Store, d: Dish)
    requires forall x :: x in s.dishes ==> x.title != d.title
    ensures DishTitlesUnique(s) ==> DishTitlesUnique(s.(dishes := s.dishes + [d]))
  {
    var ds := s.dishes + [d];
    if DishTitlesUnique(s) {
      forall i, j | 0 <= i < j < |ds| ensures ds[i].title != ds[j].title {
        if j == |s.dishes| { assert ds[i] in s.dishes; }
      }
    }
  }

  /** `GET /menus/{menu_id}/submenus/{submenu_id}/dishes`: one page of all dishes, whatever the path names. */
  function ListDishes(c: Cache, s: Store, offset: Option<nat>, limit: Option<nat>): (r: (seq<Dish>, Cache))
    ensures Coherent(c, s) ==>
      && r.0 == DishCrud.GetDishes(s, if offset.Some? then offset.value else MenuCrud.DefaultOffset,
                                       if limit.Some? then limit.value else MenuCrud.DefaultLimit)
      && Coherent(r.1, s)
  {
    var o := if offset.Some? then offset.value else MenuCrud.DefaultOffset;
    var l := if limit.Some? then limit.value else MenuCrud.DefaultLimit;
    DishServices.LoadAllDishes(c, s, o, l)
  }

  /** `GET .../dishes/{dish_id}`: the dish, from the cache when a key for it holds one. */
  method GetDish(c: Cache, s: Store, dishId: string) returns (r: Result<Dish, HttpError>, c': Cache)
    ensures !IsId(dishId) ==> r == Err(InvalidBody) && c' == c
    ensures IsId(dishId) && Keyable(s) && Coherent(c, s) ==> r == DishUtils.DishById(s, dishId) && Coherent(c', s)
    ensures IsId(dishId) && Keyable(s) && Coherent(c, s) ==> (r.Err? <==> dishId !in DishIds(s))
  {
    r, c' := DishServices.DishById(c, s, dishId, true);
  }

  /** `PATCH .../dishes/{dish_id}`: only the dish id is resolved; the menu and submenu ids of the path are ignored. */
  method UpdateDish(c: Cache, s: Store, dishId: string, u: DishUpdate)
    returns (r: Result<Dish, HttpError>, s': Store, c': Cache)
    ensures DishMissing(s, dishId) ==> r == Err(DishUtils.DishNotFound)
    ensures !DishMissing(s, dishId) && (!IsId(dishId) || ValidateDishUpdate(u).Err?) ==> r == Err(InvalidBody)
    ensures r.Err? ==> s' == s && c' == c
    ensures r.Ok? ==> && DishUtils.DishById(s, dishId).Ok?
                      && r.value == DishCrud.ApplyDishUpdate(DishUtils.DishById(s, dishId).value, u)
                      && s' == DishCrud.UpdateDishPartial(s, DishUtils.DishById(s, dishId).value, u).0
    ensures IsId(dishId) && dishId in DishIds(s) && ValidateDishUpdate(u).Ok? ==> r.Ok?
    ensures r.Ok? && Wf(s) ==> Wf(s')
    ensures Wf(s) && Coherent(c, s) ==> Coherent(c', s')
  {
    s', c' := s, c;
    var dr: Result<Dish, HttpError> := Err(InvalidId);
    if IsId(dishId) {
      var ignored;
      dr, ignored := DishServices.DishById(c, s, dishId, false);
      if dr.Err? { return dr, s, c; }
    }
    var v := ValidateDishUpdate(u);
    if !IsId(dishId) || v.Err? {
      return Err(InvalidBody), s, c;
    }
    var d := dr.value;
    c' := ClearCache(c, [Str(DishKey(d.submenuId, d.id)), Str(AllDishes), Str(AllMenusNested)]);
    assert DishKey(d.submenuId, d.id) !in c' && AllDishes !in c' by {
      var args := [Str(DishKey(d.submenuId, d.id)), Str(AllDishes), Str(AllMenusNested)];
      assert Rendered(args[0]) in Named(args) && Rendered(args[1]) in Named(args);
    }
    var updated := DishCrud.UpdateDishPartial(s, d, v.value);
    s' := updated.0;
    r := Ok(updated.1);
    if Wf(s) && Coherent(c, s) {
      CoherentAfterDishUpdate(c, s, d, v.value, c');
    }
  }

  /** The id of the menu owning a submenu, as the store records it; `None` for an unknown submenu. */
  function OwnerOf(s: Store, submenuId: string): (m: string)
    ensures submenuId in SubmenuIds(s) ==> exists sm :: sm in s.submenus && sm.id == submenuId && sm.menuId == m
  {
    match SubmenuCrud.GetSubmenuById(s, submenuId)
    case Some(sm) => sm.menuId
    case None => "None"
  }

  /**
   * `DELETE .../dishes/{dish_id}`, with the corrected invalidation that also
   * deletes the key of the menu whose dish count changes.
   */
  method DeleteDish(c: Cache, s: Store, dishId: string)
    returns (r: Result<MenuCrud.Deleted, HttpError>, s': Store, c': Cache)
    ensures DishMissing(s, dishId) ==> r == Err(DishUtils.DishNotFound)
    ensures !IsId(dishId) ==> r == Err(InvalidBody)
    ensures IsId(dishId) && dishId in DishIds(s) ==> r == Ok(DishCrud.DishDeleted)
    ensures r.Err? ==> s' == s && c' == c
    ensures r.Ok? ==> dishId !in DishIds(s') && s'.menus == s.menus && s'.submenus == s.submenus
    ensures r.Ok? ==> forall x :: x in s'.dishes <==> x in s.dishes && x.id != dishId
    ensures Wf(s) ==> Wf(s')
    ensures Wf(s) && Coherent(c, s) ==> Coherent(c', s')
  {
    if !IsId(dishId) {
      return Err(InvalidBody), s, c;
    }
    var dr, ignored := DishServices.DishById(c, s, dishId, false);
    if dr.Err? {
      return Err(dr.error), s, c;
    }
    var d := dr.value;
    var owner := OwnerOf(s, d.submenuId);
    c' := DishServices.ClearDishCacheFixed(c, owner, d.submenuId, d.id);
    var deleted := DishCrud.DeleteDish(s, d);
    s' := deleted.0;
    r := Ok(deleted.1);
    if Wf(s) && Coherent(c, s) {
      var sm :| sm in s.submenus && sm.id == d.submenuId && sm.menuId == owner;
      CoherentAfterDishDelete(c, s, d, sm, c');
    }
  }
}

=== FILE: dish_services.dfy ===
/**
 * The cached dish lookup, the dish invalidation and the cached dish list.
 * `dish_by_id` finds its key by the pattern `*_dish_{id}`; `clear_dish_cache`
 * recovers the menu id from a cached submenu key, when there is one, and
 * deletes the list keys, the dish key and the submenu key.
 */
module DishServices {
  import opened Common
  import opened Text
  import opened Models
  import opened Schemas
  import opened CacheKeys
  import opened RedisCache
  import opened CacheState
  import DishUtils
  import DishCrud
  import SubmenuUtils
  import MenuUtils


  /**
   * `dish_by_id` as a route dependency. A GET is answered from the first key
   * `KEYS *_dish_{id}` gives when it holds a dish. Otherwise the store
   * answers, and a GET it answered is written back under
   * `{submenu_id}_dish_{id}`.
   */
  method DishById(c: Cache, s: Store, id: string, isGet: bool) returns (r: Result<Dish, HttpError>, c': Cache)
    ensures !IsId(id) ==> r == Err(InvalidId) && c' == c
    ensures IsId(id) && !isGet ==> r == DishUtils.DishById(s, id) && c' == c
    ensures IsId(id) && KeysWithSuffix(c, DishSuffix(id)) == {} ==> r == DishUtils.DishById(s, id)
    ensures r.Err? ==> c' == c
    ensures isGet && r.Ok? ==>
      || (c' == c && exists t :: t in c && EndsWith(t, DishSuffix(id)) && c[t] == DishEntry(r.value))
      || (r == DishUtils.DishById(s, id) && DishKey(r.value.submenuId, id) in c'
          && c'[DishKey(r.value.submenuId, id)] == DishEntry(r.value))
    ensures IsId(id) && Keyable(s) && Coherent(c, s) ==> r == DishUtils.DishById(s, id) && Coherent(c', s)
  {
    if !IsId(id) {
      return Err(InvalidId), c;
    }
    var found := KeysWithSuffix(c, DishSuffix(id));
    if found != {} && isGet {
      var keys := ListKeys(found);
      var t := keys[0];
      if c[t].DishEntry? {
        if Coherent(c, s) { CachedDishIsFresh(c, s, t, id); }
        return Ok(c[t].dish), c;
      }
    }
    r := DishUtils.DishById(s, id);
    c' := c;
    if r.Ok? && isGet {
      var d := r.value;
      c' := c[DishKey(d.submenuId, d.id) := DishEntry(d)];
      if Keyable(s) && Coherent(c, s) {
        CoherentAfterWrite(c, s, ForDish(d.submenuId, id), DishEntry(d));
      }
    }
  }

  // ---------------------------------------------------------------------------
  // `clear_dish_cache`

  /** What `clear_dish_cache` deletes once it has settled on a menu id. */
  function DishScope(c: Cache, menuId: string, submenuId: string, dishId: string): (c': Cache)
    ensures Without(c', c, MainKeys + {DishKey(submenuId, dishId), SubmenuKey(menuId, submenuId)})
  {
    var c0 := ClearMainCache(c);
    var args := [Str(DishKey(submenuId, dishId)), Str(DishKey(submenuId, dishId)), Str(SubmenuKey(menuId, submenuId))];
    assert Named(args) == {DishKey(submenuId, dishId), SubmenuKey(menuId, submenuId)} by {
      assert Rendered(args[0]) == DishKey(submenuId, dishId) && Rendered(args[1]) == DishKey(submenuId, dishId);
      assert Rendered(args[2]) == SubmenuKey(menuId, submenuId);
    }
    ClearCache(c0, args)
  }

  /** A menu key is neither a list key, nor a dish key, nor a submenu key. */
  lemma MenuKeySurvivesDishScope(c: Cache, menuId: string, submenuId: string, dishId: string, m: string)
    requires IsId(m) && IsId(submenuId) && MenuKey(m) in c
    ensures MenuKey(m) in DishScope(c, menuId, submenuId, dishId)
  {
    EntityKeyNotFixed(ForMenu(m));
    DishKeyIsNoMenuKey(submenuId, dishId, m);
    MenuKeyIsNoSubmenuKey(m, menuId, submenuId);
  }

  /**
   * `clear_dish_cache` as written. The menu id is the first piece of the
   * first key `KEYS *_submenu_{submenu_id}` gives, or the text `None` when
   * there is none. The key `menu_{menu_id}`, which caches the menu's dish
   * count, is not deleted.
   */
  method ClearDishCache(c: Cache, submenuId: string, dishId: string) returns (c': Cache, menuId: string)
    ensures c' == DishScope(c, menuId, submenuId, dishId)
    ensures KeysWithSuffix(ClearMainCache(c), SubmenuSuffix(submenuId)) == {} ==> menuId == "None"
    ensures KeysWithSuffix(ClearMainCache(c), SubmenuSuffix(submenuId)) != {} ==>
      exists t :: t in c && EndsWith(t, SubmenuSuffix(submenuId)) && Split(t, '_')[0] == menuId
    ensures forall m :: IsId(m) && IsId(submenuId) && MenuKey(m) in c ==> MenuKey(m) in c' && c'[MenuKey(m)] == c[MenuKey(m)]
  {
    var c0 := ClearMainCache(c);
    var found := KeysWithSuffix(c0, SubmenuSuffix(submenuId));
    if found != {} {
      var keys := ListKeys(found);
      var t := keys[0];
      menuId := Split(t, '_')[0];
      assert t in keys && t in found && t in c0;
      assert t in c && EndsWith(t, SubmenuSuffix(submenuId));
    } else {
      menuId := "None";
    }
    c' := DishScope(c, menuId, submenuId, dishId);
    forall m | IsId(m) && IsId(submenuId) && MenuKey(m) in c
      ensures MenuKey(m) in c' && c'[MenuKey(m)] == c[MenuKey(m)]
    {
      MenuKeySurvivesDishScope(c, menuId, submenuId, dishId, m);
    }
  }

  /**
   * `clear_dish_cache` with the menu key deleted as well. The menu id is
   * passed in by the caller, which reads it from the dish's submenu row
   * instead of from whatever the cache happens to hold.
   */
  function ClearDishCacheFixed(c: Cache, menuId: string, submenuId: string, dishId: string): (c': Cache)
    ensures Without(c', c, MainKeys + {DishKey(submenuId, dishId), SubmenuKey(menuId, submenuId), MenuKey(menuId)})
  {
    ClearEach(DishScope(c, menuId, submenuId, dishId), {MenuKey(menuId)})
  }

  /** The ids of the fixture below. */
  const MenuOne := "11111111-1111-4111-8111-111111111111"
  const SubmenuOne := "22222222-2222-4222-8222-222222222222"
  const DishOne := "33333333-3333-4333-8333-333333333333"

  /** One dish in one submenu of one menu. */
  function OneDish(): (s: Store)
    ensures Wf(s)
  {
    Store([Menu(MenuOne, "M", None)], [SubMenu(SubmenuOne, "S", None, MenuOne)], [Dish(DishOne, "D", None, "1.00", SubmenuOne)])
  }

  /** The menu of `OneDish` as the store reads it: one submenu and one dish. */
  lemma OneDishMenuRead()
    ensures MenuUtils.MenuById(OneDish(), MenuOne) == Ok(MenuRead(Menu(MenuOne, "M", None), 1, 1))
  {
    var s := OneDish();
    assert DishUnderMenu(s, s.dishes[0], MenuOne);
    assert DishIdsUnder(s, MenuOne) == {DishOne};
    assert s.submenus[0] in s.submenus;
    assert SubmenuIdsOf(s, MenuOne) == {SubmenuOne};
  }

  /** Once its only dish is deleted, the menu of `OneDish` counts no dish. */
  lemma OneDishDeletedMenuRead()
    ensures MenuUtils.MenuById(DishCrud.DeleteDish(OneDish(), OneDish().dishes[0]).0, MenuOne).Ok?
    ensures MenuUtils.MenuById(DishCrud.DeleteDish(OneDish(), OneDish().dishes[0]).0, MenuOne).value.dishesCount == 0
  {
    var s' := DishCrud.DeleteDish(OneDish(), OneDish().dishes[0]).0;
    assert s'.dishes == [];
    assert DishIdsUnder(s', MenuOne) == {};
  }

  /** A cache holding only the menu of `OneDish`, read with its one dish. */
  function OneDishCache(): Cache {
    map[MenuKey(MenuOne) := MenuEntry(MenuRead(Menu(MenuOne, "M", None), 1, 1))]
  }

  /** `OneDishCache` tells the truth about `OneDish`. */
  lemma OneDishCacheCoherent()
    ensures Coherent(OneDishCache(), OneDish())
  {
    var c, s := OneDishCache(), OneDish();
    ParseRender(ForMenu(MenuOne));
    OneDishMenuRead();
    forall t | t in c ensures ParseKey(t).Some? && FreshEntry(s, ParseKey(t).value, c[t]) {
      assert t == MenuKey(MenuOne);
    }
    EntityKeyNotFixed(ForMenu(MenuOne));
  }

  /** A cache still holding the menu of `OneDish` with one dish is stale once that dish is deleted. */
  lemma StaleMenuAfterDelete(c': Cache)
    requires MenuKey(MenuOne) in c' && c'[MenuKey(MenuOne)] == OneDishCache()[MenuKey(MenuOne)]
    ensures !Coherent(c', DishCrud.DeleteDish(OneDish(), OneDish().dishes[0]).0)
  {
    var s' := DishCrud.DeleteDish(OneDish(), OneDish().dishes[0]).0;
    ParseRender(ForMenu(MenuOne));
    OneDishDeletedMenuRead();
  }

  /** The dish invalidation keeps the fixture's menu record, whatever menu id it settled on. */
  lemma OneDishMenuSurvives(menuId: string)
    ensures var c' := DishScope(OneDishCache(), menuId, SubmenuOne, DishOne);
      MenuKey(MenuOne) in c' && c'[MenuKey(MenuOne)] == OneDishCache()[MenuKey(MenuOne)]
  {
    MenuKeySurvivesDishScope(OneDishCache(), menuId, SubmenuOne, DishOne, MenuOne);
  }

  /**
   * Deleting the dish of `OneDish` with the as-written invalidation leaves
   * the cache incoherent, whatever menu id `ClearDishCache` settles on: the
   * menu key survives with a dish count of one, while the store now counts
   * none under the menu.
   */
  lemma DishDeleteLeavesStaleMenu(menuId: string)
    ensures Coherent(OneDishCache(), OneDish())
    ensures !Coherent(DishScope(OneDishCache(), menuId, SubmenuOne, DishOne),
                      DishCrud.DeleteDish(OneDish(), OneDish().dishes[0]).0)
  {
    OneDishCacheCoherent();
    OneDishMenuSurvives(menuId);
    StaleMenuAfterDelete(DishScope(OneDishCache(), menuId, SubmenuOne, DishOne));
  }

  // ---------------------------------------------------------------------------
  // `load_all_dishes`

  /** `all_dishes` holds a list and `dishes_params` holds the fingerprint of the page asked for. */
  predicate PageCached(c: Cache, offset: nat, limit: nat) {
    AllDishes in c && c[AllDishes].DishList? && DishesParams in c && c[DishesParams] == Plain(Fingerprint(offset, limit))
  }

  /**
   * The dish list: served from `all_dishes` when `dishes_params` names the
   * page asked for; otherwise the page is read and cached with its
   * fingerprint.
   */
  function LoadAllDishes(c: Cache, s: Store, offset: nat, limit: nat): (r: (seq<Dish>, Cache))
    ensures PageCached(c, offset, limit) ==> r == (c[AllDishes].dishes, c)
    ensures !PageCached(c, offset, limit) ==>
      && r.0 == DishCrud.GetDishes(s, offset, limit)
      && PageCached(r.1, offset, limit) && r.1[AllDishes] == DishList(r.0)
    ensures Coherent(c, s) ==> r.0 == DishCrud.GetDishes(s, offset, limit) && Coherent(r.1, s)
  {
    if PageCached(c, offset, limit) then (c[AllDishes].dishes, c)
    else
      var page := DishCrud.GetDishes(s, offset, limit);
      var c' := c[AllDishes := DishList(page)][DishesParams := Plain(Fingerprint(offset, limit))];
      assert Coherent(c, s) ==> Coherent(c', s) by {
        if Coherent(c, s) { CoherentAfterDishPageWrite(c, s, offset, limit); }
      }
      (page, c')
  }

  /** Asking for the same page again is answered from the cache with the same list. */
  lemma DishListRepeats(c: Cache, s: Store, offset: nat, limit: nat)
    ensures var (first, c1) := LoadAllDishes(c, s, offset, limit);
      LoadAllDishes(c1, s, offset, limit) == (first, c1)
  {
  }

  /** Asking for another page after one is cached reads the store again. */
  lemma DishListOtherPage(c: Cache, s: Store, o1: nat, l1: nat, o2: nat, l2: nat)
    requires (o1, l1) != (o2, l2)
    ensures var (_, c1) := LoadAllDishes(c, s, o1, l1);
      LoadAllDishes(c1, s, o2, l2).0 == DishCrud.GetDishes(s, o2, l2)
  {
    FingerprintInjective(o1, l1, o2, l2);
  }
}

=== FILE: dish_utils.dfy ===
/** Dish lookup and the title-uniqueness guard. */
module DishUtils {
  import opened Common
  import opened Models
  import DishCrud

  const DishNotFound := HttpError(NotFound, "dish not found")
  const DishTaken := HttpError(Conflict, "dish cannot be in 2 submenus at the same time")

  function DishById(s: Store, id: string): (r: Result<Dish, HttpError>)
    ensures r.Err? <==> id !in DishIds(s)
    ensures r.Err? ==> r.error == DishNotFound
    ensures r.Ok? ==> r.value in s.dishes && r.value.id == id
  {
    match DishCrud.GetDishById(s, id)
    case None => Err(DishNotFound)
    case Some(d) => Ok(d)
  }

  /** A title already used by any dish, under any submenu, is refused with 409. */
  function CheckUniqueDish(s: Store, title: string): (r: Outcome<HttpError>)
    ensures r.Fail? <==> exists d :: d in s.dishes && d.title == title
    ensures r.Fail? ==> r.error == DishTaken
  {
    if DishCrud.GetDishByTitle(s, title).Some? then Fail(DishTaken) else Pass
  }
}

=== FILE: menu_crud.dfy ===
/** Data access for menus: insert-returning create, paged list, lookup, partial update, delete. */
module MenuCrud {
  import opened Common
  import opened Models
  import opened Schemas

  /** The body `delete_*` returns on success. */
  datatype Deleted = Deleted(status: bool, message: string)

  const MenuDeleted := Deleted(true, "The menu has been deleted")

  const DefaultOffset: nat := 0
  const DefaultLimit: nat := 100

  /** `INSERT ... RETURNING`: the new row goes last and is handed back. */
  function CreateMenu(s: Store, newId: string, p: MenuCreate): (r: (Store, Menu))
    ensures r.1.id == newId && r.1.title == p.title && r.1.description == p.description
    ensures r.0.menus == s.menus + [r.1]
    ensures r.0.submenus == s.submenus && r.0.dishes == s.dishes
    ensures Wf(s) && newId !in MenuIds(s) ==> Wf(r.0)
  {
    var m := Menu(newId, p.title, p.description);
    (s.(menus := s.menus + [m]), m)
  }

  /** `OFFSET offset LIMIT limit` over all menus, each carrying its two counts. */
  function GetMenus(s: Store, offset: nat, limit: nat): (r: seq<MenuRead>)
    ensures |r| == if offset >= |s.menus| then 0 else Min(limit, |s.menus| - offset)
    ensures forall i :: 0 <= i < |r| ==> r[i].menu == s.menus[offset + i]
    ensures forall i :: 0 <= i < |r| ==>
      r[i].submenusCount == TotalSubmenus(s, r[i].menu.id) && r[i].dishesCount == TotalDishes(s, r[i].menu.id)
  {
    var page := Page(s.menus, offset, limit);
    seq(|page|, i requires 0 <= i < |page| =>
      MenuRead(page[i], TotalSubmenus(s, page[i].id), TotalDishes(s, page[i].id)))
  }

  /** `SELECT ... WHERE id = :id`, first row or nothing. */
  function GetMenuById(s: Store, id: string): (r: Option<Menu>)
    ensures r.Some? ==> r.value in s.menus && r.value.id == id
    ensures r.None? <==> id !in MenuIds(s)
  {
    FindFirst(s.menus, MenuIdIs(id))
  }

  /** `setattr` for every field present in the body; absent fields keep their value. */
  function ApplyMenuUpdate(m: Menu, u: MenuUpdate): (m': Menu)
    ensures m'.id == m.id
    ensures u.title.Set? ==> m'.title == u.title.value
    ensures u.title.Unset? ==> m'.title == m.title
    ensures u.description.Set? ==> m'.description == u.description.value
    ensures u.description.Unset? ==> m'.description == m.description
  {
    m.(title := if u.title.Set? then u.title.value else m.title,
       description := if u.description.Set? then u.description.value else m.description)
  }

  function UpdateMenuPartial(s: Store, menu: Menu, u: MenuUpdate): (r: (Store, Menu))
    ensures r.1 == ApplyMenuUpdate(menu, u)
    ensures r.0.submenus == s.submenus && r.0.dishes == s.dishes
    ensures |r.0.menus| == |s.menus|
    ensures forall i :: 0 <= i < |s.menus| && s.menus[i].id != menu.id ==> r.0.menus[i] == s.menus[i]
    ensures forall i :: 0 <= i < |s.menus| && s.menus[i].id == menu.id ==> r.0.menus[i] == r.1
    ensures Wf(s) ==> Wf(r.0)
  {
    var m' := ApplyMenuUpdate(menu, u);
    var s' := s.(menus := ReplaceWhere(s.menus, (x: Menu) => x.id == m'.id, m'));
    assert MenuIds(s') == MenuIds(s) by {
      forall x | x in MenuIds(s) ensures x in MenuIds(s') {
        var i :| 0 <= i < |s.menus| && s.menus[i].id == x;
        assert s'.menus[i].id == x;
      }
    }
    (s', m')
  }

  /** `session.delete(menu)`: the cascade removes its submenus and their dishes. */
  function DeleteMenu(s: Store, menu: Menu): (r: (Store, Deleted))
    ensures r.1 == MenuDeleted
    ensures menu.id !in MenuIds(r.0)
    ensures forall m :: m in r.0.menus <==> m in s.menus && m.id != menu.id
    ensures Wf(s) ==> Wf(r.0) && forall d :: d in r.0.dishes <==> d in s.dishes && !DishUnderMenu(s, d, menu.id)
  {
    (CascadeDeleteMenu(s, menu.id), MenuDeleted)
  }

  /** A freshly created menu is found by its id with the values it was created from. */
  lemma CreateThenGet(s: Store, newId: string, p: MenuCreate)
    requires newId !in MenuIds(s)
    ensures GetMenuById(CreateMenu(s, newId, p).0, newId) == Some(Menu(newId, p.title, p.description))
  {
    var s' := CreateMenu(s, newId, p).0;
    var m := CreateMenu(s, newId, p).1;
    assert m in s'.menus;
  }
}

=== FILE: menu_services.dfy ===
/**
 * The cached menu lookup, the menu invalidation and the cached menu list.
 * `menu_by_id` reads through `menu_{id}`; `clear_menu_cache` deletes the list
 * keys, the menu key and every key starting with the menu id, and then tries
 * to delete the dish keys of the submenus it found.
 */
module MenuServices {
  import opened Common
  import opened Text
  import opened Models
  import opened Schemas
  import opened CacheKeys
  import opened RedisCache
  import opened CacheState
  import MenuUtils
  import MenuCrud

  /**
   * `menu_by_id` as a route dependency. A GET is answered from `menu_{id}`
   * when that key holds a menu; otherwise the store answers, and a GET the
   * store answered is written back. Other methods leave the cache alone.
   */
  function MenuById(c: Cache, s: Store, id: string, isGet: bool): (r: (Result<MenuRead, HttpError>, Cache))
    ensures !IsId(id) ==> r == (Err(InvalidId), c)
    ensures IsId(id) && isGet && MenuKey(id) in c && c[MenuKey(id)].MenuEntry? ==> r == (Ok(c[MenuKey(id)].menu), c)
    ensures IsId(id) && !isGet ==> r == (MenuUtils.MenuById(s, id), c)
    ensures r.0.Err? ==> r.1 == c
    ensures isGet && r.0.Ok? ==> MenuKey(id) in r.1 && r.1[MenuKey(id)] == MenuEntry(r.0.value)
    ensures IsId(id) && Coherent(c, s) ==> r.0 == MenuUtils.MenuById(s, id) && Coherent(r.1, s)
  {
    if !IsId(id) then (Err(InvalidId), c)
    else
      var key := MenuKey(id);
      ParseRender(ForMenu(id));
      if isGet && key in c && c[key].MenuEntry? then (Ok(c[key].menu), c)
      else
        match MenuUtils.MenuById(s, id)
        case Err(e) => (Err(e), c)
        case Ok(m) =>
          if isGet then
            assert Coherent(c, s) ==> Coherent(c[key := MenuEntry(m)], s) by {
              if Coherent(c, s) { CoherentAfterWrite(c, s, ForMenu(id), MenuEntry(m)); }
            }
            (Ok(m), c[key := MenuEntry(m)])
          else (Ok(m), c)
  }

  /** The lookup writes nothing but `menu_{id}`. */
  lemma MenuByIdTouchesOneKey(c: Cache, s: Store, id: string, isGet: bool)
    ensures SameExcept(MenuById(c, s, id, isGet).1, c, MenuKey(id))
  {
  }

  // ---------------------------------------------------------------------------
  // `clear_menu_cache`

  /** The cache after the first two steps of `clear_menu_cache`: the list keys and `menu_{id}` are gone. */
  function MenuScope(c: Cache, menuId: string): (c': Cache)
    ensures Without(c', c, MainKeys + {MenuKey(menuId)})
  {
    ClearCache(ClearMainCache(c), [Str(MenuKey(menuId))])
  }

  /** What `clear_menu_cache` reads as submenu ids: the text after the last `_` of each key. */
  function TrailingIds(keys: set<string>): set<string>
  {
    set t | t in keys :: Last(Split(t, '_'))
  }

  /** The ids `clear_menu_cache` reads off the keys starting with the menu id. */
  function ChildIds(c: Cache, menuId: string): set<string>
  {
    TrailingIds(KeysWithPrefix(MenuScope(c, menuId), menuId))
  }

  /** The cache once the keys starting with the menu id are deleted as well. */
  function SubmenuStage(c: Cache, menuId: string): (c2: Cache)
    ensures Shrunk(c2, c)
    ensures forall t :: t in c2 <==> t in c && t !in MainKeys && t != MenuKey(menuId) && !StartsWith(t, menuId)
  {
    var c1 := MenuScope(c, menuId);
    ClearEach(c1, KeysWithPrefix(c1, menuId))
  }

  /** The keys `{x}*` matches for some `x` of `ids`: one `KEYS` call per id, concatenated. */
  function KeysWithAnyPrefix(c: Cache, ids: set<string>): (ks: set<string>)
    ensures forall t :: t in ks <==> t in c && exists x :: x in ids && StartsWith(t, x)
  {
    set t | t in c && exists x :: x in ids && StartsWith(t, x)
  }

  /** The dish keys `clear_menu_cache` collects. */
  function DishKeysOf(c: Cache, menuId: string): set<string>
  {
    KeysWithAnyPrefix(SubmenuStage(c, menuId), ChildIds(c, menuId))
  }

  /** A submenu key of the menu is among the keys read off, and its submenu id is among the ids. */
  lemma SubmenuKeyIsFound(c: Cache, menuId: string, x: string)
    requires IsId(menuId) && IsId(x) && SubmenuKey(menuId, x) in c
    ensures SubmenuKey(menuId, x) in KeysWithPrefix(MenuScope(c, menuId), menuId)
    ensures x in ChildIds(c, menuId)
  {
    var sk := SubmenuKey(menuId, x);
    EntityKeyNotFixed(ForSubmenu(menuId, x));
    MenuKeyIsNoSubmenuKey(menuId, menuId, x);
    SubmenuKeyHasMenuPrefix(menuId, x);
    SubmenuKeyNamesItsMenu(menuId, x);
    assert sk in KeysWithPrefix(MenuScope(c, menuId), menuId);
  }

  /** Every dish key of a submenu whose key was found is collected, unless it starts with the menu id itself. */
  lemma DishKeyIsCollected(c: Cache, menuId: string, x: string, y: string)
    requires IsId(menuId) && IsId(x) && IsId(y) && SubmenuKey(menuId, x) in c && DishKey(x, y) in c
    requires !StartsWith(DishKey(x, y), menuId)
    ensures DishKey(x, y) in DishKeysOf(c, menuId) && DishKey(x, y) in SubmenuStage(c, menuId)
    ensures DishKey(x, y)[0] != '['
  {
    SubmenuKeyIsFound(c, menuId, x);
    EntityKeyNotFixed(ForDish(x, y));
    DishKeyIsNoMenuKey(x, y, menuId);
    DishKeyHasSubmenuPrefix(x, y);
    assert DishKey(x, y) in SubmenuStage(c, menuId);
    assert DishKey(x, y)[0] == x[0];
  }

  /**
   * `clear_menu_cache` as written. The dish keys it collects are passed to
   * `clear_cache` as one list, which deletes only the list's rendering: every
   * dish key it found is still there afterwards.
   */
  method ClearMenuCache(c: Cache, menuId: string) returns (c': Cache, dishKeys: seq<string>)
    ensures Shrunk(c', c)
    ensures forall t :: t in c' ==> t !in MainKeys && t != MenuKey(menuId) && !StartsWith(t, menuId)
    ensures forall t ::
              (t in c && t !in MainKeys && t != MenuKey(menuId) && !StartsWith(t, menuId) && (|t| == 0 || t[0] != '['))
              ==> t in c'
    ensures forall t :: t in dishKeys <==> t in DishKeysOf(c, menuId)
    ensures forall x, y ::
              (IsId(menuId) && IsId(x) && IsId(y) && SubmenuKey(menuId, x) in c && DishKey(x, y) in c
               && !StartsWith(DishKey(x, y), menuId)) ==> DishKey(x, y) in dishKeys && DishKey(x, y) in c'
  {
    var c2 := SubmenuStage(c, menuId);
    dishKeys := ListKeys(DishKeysOf(c, menuId));
    if |dishKeys| > 0 {
      c' := ClearListArgument(c2, dishKeys);
    } else {
      c' := c2;
    }
    forall x, y | IsId(menuId) && IsId(x) && IsId(y) && SubmenuKey(menuId, x) in c && DishKey(x, y) in c
                  && !StartsWith(DishKey(x, y), menuId)
      ensures DishKey(x, y) in dishKeys && DishKey(x, y) in c'
    {
      DishKeyIsCollected(c, menuId, x, y);
    }
  }

  /**
   * `clear_menu_cache` with the collected dish keys deleted one by one
   * (`clear_cache(*dish_keys)`), as the comment in the source says it should.
   */
  function ClearMenuCacheFixed(c: Cache, menuId: string): (c': Cache)
    ensures Shrunk(c', c)
    ensures forall t :: t in c' ==> t !in MainKeys && t != MenuKey(menuId) && !StartsWith(t, menuId)
    ensures forall t :: t in c' ==> forall x :: x in ChildIds(c, menuId) ==> !StartsWith(t, x)
    ensures forall t ::
              (t in c && t !in MainKeys && t != MenuKey(menuId) && !StartsWith(t, menuId)
               && forall x :: x in ChildIds(c, menuId) ==> !StartsWith(t, x)) ==> t in c'
  {
    ClearEach(SubmenuStage(c, menuId), DishKeysOf(c, menuId))
  }

  /** The corrected invalidation leaves no dish key of any submenu whose key it found. */
  lemma FixedMenuCacheDropsDishKeys(c: Cache, menuId: string, x: string, y: string)
    requires IsId(menuId) && IsId(x) && SubmenuKey(menuId, x) in c
    ensures DishKey(x, y) !in ClearMenuCacheFixed(c, menuId)
  {
    SubmenuKeyIsFound(c, menuId, x);
    DishKeyHasSubmenuPrefix(x, y);
  }

  // ---------------------------------------------------------------------------
  // `load_all_menus`

  /**
   * The menu list: served from `all_menus` whenever that key holds a list,
   * whatever page is asked for; otherwise the page is read and cached. From
   * a coherent cache the answer is a page of the current store, though not
   * necessarily the page asked for.
   */
  function LoadAllMenus(c: Cache, s: Store, offset: nat, limit: nat): (r: (seq<MenuRead>, Cache))
    ensures AllMenus in c && c[AllMenus].MenuList? ==> r == (c[AllMenus].menus, c)
    ensures !(AllMenus in c && c[AllMenus].MenuList?) ==>
      r.0 == MenuCrud.GetMenus(s, offset, limit) && AllMenus in r.1 && r.1[AllMenus] == MenuList(r.0)
    ensures Coherent(c, s) ==> (exists o: nat, l: nat :: r.0 == MenuCrud.GetMenus(s, o, l)) && Coherent(r.1, s)
  {
    if AllMenus in c && c[AllMenus].MenuList? then (c[AllMenus].menus, c)
    else
      var ms := MenuCrud.GetMenus(s, offset, limit);
      var c' := c[AllMenus := MenuList(ms)];
      assert Coherent(c, s) ==> Coherent(c', s) by {
        if Coherent(c, s) { CoherentAfterMenuPageWrite(c, s, offset, limit); }
      }
      (ms, c')
  }

  /** Loading the menu list touches no key but `all_menus`. */
  lemma LoadAllMenusTouchesOneKey(c: Cache, s: Store, offset: nat, limit: nat)
    ensures SameExcept(LoadAllMenus(c, s, offset, limit).1, c, AllMenus)
  {
  }

  /** Once a page is cached, every later request gets that page, whichever page it asks for. */
  lemma MenuListIgnoresPage(c: Cache, s: Store, o1: nat, l1: nat, o2: nat, l2: nat)
    ensures var (first, c1) := LoadAllMenus(c, s, o1, l1);
      LoadAllMenus(c1, s, o2, l2) == (first, c1)
  {
  }
}

=== FILE: menu_utils.dfy ===
/** Menu lookup with its aggregated counts (`menu_by_id`, `get_submenus_dishes`). */
module MenuUtils {
  import opened Common
  import opened Models
  import MenuCrud
  import SubmenuCrud

  const MenuNotFound := HttpError(NotFound, "menu not found")

  /** The dishes beneath a menu, as rows. */
  function DishesUnder(s: Store, menuId: string): (r: seq<Dish>)
    ensures forall d :: d in r <==> d in s.dishes && DishUnderMenu(s, d, menuId)
    ensures UniqueDishIds(s.dishes) ==> UniqueDishIds(r)
  {
    var keep := (d: Dish) => DishUnderMenu(s, d, menuId);
    assert UniqueDishIds(s.dishes) ==> UniqueDishIds(Filter(s.dishes, keep)) by {
      if UniqueDishIds(s.dishes) { FilterKeepsUniqueDishIds(s.dishes, keep); }
    }
    Filter(s.dishes, keep)
  }

  /** 404 when no menu has the id; otherwise the menu with both distinct counts. */
  function MenuById(s: Store, id: string): (r: Result<MenuRead, HttpError>)
    ensures r.Err? <==> id !in MenuIds(s)
    ensures r.Err? ==> r.error == MenuNotFound
    ensures r.Ok? ==> r.value.menu in s.menus && r.value.menu.id == id
    ensures r.Ok? ==> r.value.submenusCount == TotalSubmenus(s, id) && r.value.dishesCount == TotalDishes(s, id)
  {
    match MenuCrud.GetMenuById(s, id)
    case None => Err(MenuNotFound)
    case Some(m) => Ok(MenuRead(m, TotalSubmenus(s, m.id), TotalDishes(s, m.id)))
  }

  /** In a well-formed store the distinct submenu count is the number of the menu's submenu rows. */
  lemma SubmenuCountAgreesWithRows(s: Store, menuId: string)
    requires Wf(s)
    ensures TotalSubmenus(s, menuId) == |SubmenuCrud.SubmenusOf(s, menuId)|
  {
    var subs := SubmenuCrud.SubmenusOf(s, menuId);
    var key := (sm: SubMenu) => sm.id;
    DistinctImageCard(subs, key);
    assert Image(subs, key) == SubmenuIdsOf(s, menuId);
  }

  /** In a well-formed store the distinct dish count is the number of dish rows beneath the menu. */
  lemma DishCountAgreesWithRows(s: Store, menuId: string)
    requires Wf(s)
    ensures TotalDishes(s, menuId) == |DishesUnder(s, menuId)|
  {
    var ds := DishesUnder(s, menuId);
    var key := (d: Dish) => d.id;
    DistinctImageCard(ds, key);
    assert Image(ds, key) == DishIdsUnder(s, menuId);
  }
}

=== FILE: models.dfy ===
/**
 * The relational store: Menu, SubMenu and Dish rows with their foreign keys,
 * cascade deletion, and the aggregated counts the read models carry.
 * Rows are kept in insertion order, the order unordered `SELECT`s return them in
 * this model.
 */
module Models {
  import opened Common

  datatype Menu = Menu(id: string, title: string, description: Option<string>)
  datatype SubMenu = SubMenu(id: string, title: string, description: Option<string>, menuId: string)
  datatype Dish = Dish(id: string, title: string, description: Option<string>, price: string, submenuId: string)

  datatype Store = Store(menus: seq<Menu>, submenus: seq<SubMenu>, dishes: seq<Dish>)

  /** Read models: a record together with the counts computed for it. */
  datatype MenuRead = MenuRead(menu: Menu, submenusCount: nat, dishesCount: nat)
  datatype SubMenuRead = SubMenuRead(submenu: SubMenu, dishesCount: nat)

  function MenuIds(s: Store): set<string> { set m | m in s.menus :: m.id }
  function SubmenuIds(s: Store): set<string> { set sm | sm in s.submenus :: sm.id }
  function DishIds(s: Store): set<string> { set d | d in s.dishes :: d.id }

  predicate UniqueMenuIds(xs: seq<Menu>) {
    forall i, j :: 0 <= i < j < |xs| ==> xs[i].id != xs[j].id
  }
  predicate UniqueSubmenuIds(xs: seq<SubMenu>) {
    forall i, j :: 0 <= i < j < |xs| ==> xs[i].id != xs[j].id
  }
  predicate UniqueDishIds(xs: seq<Dish>) {
    forall i, j :: 0 <= i < j < |xs| ==> xs[i].id != xs[j].id
  }

  /**
   * Primary keys are unique and every foreign key names an existing parent.
   * Titles are not unique: the tables declare no such constraint.
   */
  predicate Wf(s: Store) {
    && UniqueMenuIds(s.menus)
    && UniqueSubmenuIds(s.submenus)
    && UniqueDishIds(s.dishes)
    && (forall sm :: sm in s.submenus ==> sm.menuId in MenuIds(s))
    && (forall d :: d in s.dishes ==> d.submenuId in SubmenuIds(s))
  }

  /** Ids of the submenus belonging to menu `menuId`. */
  function SubmenuIdsOf(s: Store, menuId: string): set<string>
  {
    set sm | sm in s.submenus && sm.menuId == menuId :: sm.id
  }

  /** A dish lies under a menu when its submenu belongs to that menu. */
  predicate DishUnderMenu(s: Store, d: Dish, menuId: string) {
    exists sm :: sm in s.submenus && sm.id == d.submenuId && sm.menuId == menuId
  }

  // ---------------------------------------------------------------------------
  // Row selectors (`WHERE` conditions), named so that lookups and the lemmas
  // about them speak of the same condition

  function MenuIdIs(id: string): Menu -> bool { (m: Menu) => m.id == id }
  function SubmenuIdIs(id: string): SubMenu -> bool { (sm: SubMenu) => sm.id == id }
  function DishIdIs(id: string): Dish -> bool { (d: Dish) => d.id == id }
  function DishIdIsNot(id: string): Dish -> bool { (d: Dish) => d.id != id }
  function DishInSubmenu(submenuId: string): Dish -> bool { (d: Dish) => d.submenuId == submenuId }
  function SubmenuTitleIs(title: string): SubMenu -> bool { (sm: SubMenu) => sm.title == title }
  function DishTitleIs(title: string): Dish -> bool { (d: Dish) => d.title == title }

  /** The dishes whose foreign key names submenu `submenuId`. */
  function DishesOf(s: Store, submenuId: string): (r: seq<Dish>)
    ensures forall d :: d in r <==> d in s.dishes && d.submenuId == submenuId
  {
    Filter(s.dishes, DishInSubmenu(submenuId))
  }

  /** Ids of the dishes whose foreign key names submenu `submenuId`. */
  function DishIdsOf(s: Store, submenuId: string): set<string>
  {
    set d | d in s.dishes && d.submenuId == submenuId :: d.id
  }

  /**
   * `count_dishes`: the length of the list of dishes selected by
   * `submenu_id`. In a well-formed store that is the number of distinct
   * dishes referencing the submenu.
   */
  function CountDishes(s: Store, submenuId: string): (n: nat)
    ensures n == |DishesOf(s, submenuId)|
    ensures n <= |s.dishes|
    ensures n == 0 <==> forall d :: d in s.dishes ==> d.submenuId != submenuId
    ensures Wf(s) ==> n == |DishIdsOf(s, submenuId)|
  {
    var ds := DishesOf(s, submenuId);
    assert |ds| > 0 ==> ds[0] in ds;
    assert Wf(s) ==> |ds| == |DishIdsOf(s, submenuId)| by {
      if Wf(s) { DishCountIsDistinctIds(s, submenuId); }
    }
    |ds|
  }

  /** The rows selected for a submenu carry distinct ids, so there are as many rows as ids. */
  lemma DishCountIsDistinctIds(s: Store, submenuId: string)
    requires Wf(s)
    ensures |DishesOf(s, submenuId)| == |DishIdsOf(s, submenuId)|
  {
    var ds := DishesOf(s, submenuId);
    var key := (d: Dish) => d.id;
    FilterKeepsUniqueDishIds(s.dishes, DishInSubmenu(submenuId));
    DistinctImageCard(ds, key);
    assert Image(ds, key) == DishIdsOf(s, submenuId) by {
      forall x | x in DishIdsOf(s, submenuId) ensures x in Image(ds, key) {
        var d :| d in s.dishes && d.submenuId == submenuId && d.id == x;
        var i :| 0 <= i < |ds| && ds[i] == d;
      }
    }
  }

  /** `count(distinct SubMenu.id)` over the outer join rooted at a menu. */
  function TotalSubmenus(s: Store, menuId: string): (n: nat)
    ensures n == 0 <==> forall sm :: sm in s.submenus ==> sm.menuId != menuId
  {
    var ids := SubmenuIdsOf(s, menuId);
    assert forall sm :: sm in s.submenus && sm.menuId == menuId ==> sm.id in ids;
    |ids|
  }

  /** Ids of the dishes whose submenu lies in menu `menuId`. */
  function DishIdsUnder(s: Store, menuId: string): set<string>
  {
    set d | d in s.dishes && DishUnderMenu(s, d, menuId) :: d.id
  }

  /** `count(distinct Dish.id)` over the same join: the dishes whose submenu lies in the menu. */
  function TotalDishes(s: Store, menuId: string): (n: nat)
    ensures n == 0 <==> forall d :: d in s.dishes ==> !DishUnderMenu(s, d, menuId)
  {
    var ids := DishIdsUnder(s, menuId);
    assert forall d :: d in s.dishes && DishUnderMenu(s, d, menuId) ==> d.id in ids;
    |ids|
  }

  /** In a well-formed store a dish id names one row. */
  lemma SameDishId(s: Store, x: Dish, y: Dish)
    requires Wf(s) && x in s.dishes && y in s.dishes && x.id == y.id
    ensures x == y
  {
    var i :| 0 <= i < |s.dishes| && s.dishes[i] == x;
    var j :| 0 <= j < |s.dishes| && s.dishes[j] == y;
  }

  /** In a well-formed store a submenu id names one row. */
  lemma SameSubmenuId(s: Store, x: SubMenu, y: SubMenu)
    requires Wf(s) && x in s.submenus && y in s.submenus && x.id == y.id
    ensures x == y
  {
    var i :| 0 <= i < |s.submenus| && s.submenus[i] == x;
    var j :| 0 <= j < |s.submenus| && s.submenus[j] == y;
  }

  // ---------------------------------------------------------------------------
  // Cascade deletion (`ondelete='CASCADE'`, `cascade='all, delete-orphan'`)

  /** Removing a submenu row removes the dishes that reference it. */
  function CascadeDeleteSubmenu(s: Store, id: string): (s': Store)
    ensures s'.menus == s.menus
    ensures forall sm :: sm in s'.submenus <==> sm in s.submenus && sm.id != id
    ensures forall d :: d in s'.dishes <==> d in s.dishes && d.submenuId != id
    ensures Wf(s) ==> Wf(s')
  {
    var s' := Store(s.menus,
                    Filter(s.submenus, (sm: SubMenu) => sm.id != id),
                    Filter(s.dishes, (d: Dish) => d.submenuId != id));
    assert Wf(s) ==> Wf(s') by {
      if Wf(s) {
        FilterKeepsUniqueSubmenuIds(s.submenus, (sm: SubMenu) => sm.id != id);
        FilterKeepsUniqueDishIds(s.dishes, (d: Dish) => d.submenuId != id);
        forall d | d in s'.dishes ensures d.submenuId in SubmenuIds(s') {
          var sm :| sm in s.submenus && sm.id == d.submenuId;
          assert sm in s'.submenus;
        }
      }
    }
    s'
  }

  /** Removing a menu row removes its submenus, and through them their dishes. */
  function CascadeDeleteMenu(s: Store, id: string): (s': Store)
    ensures forall m :: m in s'.menus <==> m in s.menus && m.id != id
    ensures forall sm :: sm in s'.submenus <==> sm in s.submenus && sm.menuId != id
    ensures Wf(s) ==> forall d :: d in s'.dishes <==> d in s.dishes && !DishUnderMenu(s, d, id)
    ensures Wf(s) ==> Wf(s')
  {
    var gone := SubmenuIdsOf(s, id);
    var s' := Store(Filter(s.menus, (m: Menu) => m.id != id),
                    Filter(s.submenus, (sm: SubMenu) => sm.menuId != id),
                    Filter(s.dishes, (d: Dish) => d.submenuId !in gone));
    assert Wf(s) ==> (forall d :: d in s'.dishes <==> d in s.dishes && !DishUnderMenu(s, d, id)) && Wf(s') by {
      if Wf(s) {
        forall d | d in s.dishes
          ensures d.submenuId in gone <==> DishUnderMenu(s, d, id)
        {
          if d.submenuId in gone {
            var sm :| sm in s.submenus && sm.menuId == id && sm.id == d.submenuId;
          }
        }
        FilterKeepsUniqueMenuIds(s.menus, (m: Menu) => m.id != id);
        FilterKeepsUniqueSubmenuIds(s.submenus, (sm: SubMenu) => sm.menuId != id);
        FilterKeepsUniqueDishIds(s.dishes, (d: Dish) => d.submenuId !in gone);
        forall sm | sm in s'.submenus ensures sm.menuId in MenuIds(s') {
          var m :| m in s.menus && m.id == sm.menuId;
          assert m in s'.menus;
        }
        forall d | d in s'.dishes ensures d.submenuId in SubmenuIds(s') {
          var sm :| sm in s.submenus && sm.id == d.submenuId;
          assert sm.menuId != id;
          assert sm in s'.submenus;
        }
      }
    }
    s'
  }

  /** Removing one dish row; its rows' order is kept. */
  function DeleteDishRow(s: Store, id: string): (s': Store)
    ensures s'.menus == s.menus && s'.submenus == s.submenus
    ensures s'.dishes == Filter(s.dishes, DishIdIsNot(id))
    ensures forall d :: d in s'.dishes <==> d in s.dishes && d.id != id
    ensures Wf(s) ==> Wf(s')
  {
    var s' := s.(dishes := Filter(s.dishes, DishIdIsNot(id)));
    assert Wf(s) ==> Wf(s') by {
      if Wf(s) { FilterKeepsUniqueDishIds(s.dishes, DishIdIsNot(id)); }
    }
    s'
  }

  /**
   * Deleting a menu leaves no dish anywhere beneath it, and every dish that
   * was not beneath it stays: the two cascades compose transitively.
   */
  lemma CascadeRemovesWholeSubtree(s: Store, menuId: string)
    requires Wf(s)
    ensures var s' := CascadeDeleteMenu(s, menuId);
      && menuId !in MenuIds(s')
      && SubmenuIdsOf(s', menuId) == {}
      && (forall d :: d in s.dishes ==> (d in s'.dishes <==> !DishUnderMenu(s, d, menuId)))
      && (forall d :: d in s'.dishes ==> !DishUnderMenu(s', d, menuId))
  {
  }

  // ---------------------------------------------------------------------------
  // Filtering keeps primary keys unique

  lemma {:induction false} FilterKeepsUniqueMenuIds(xs: seq<Menu>, keep: Menu -> bool)
    requires UniqueMenuIds(xs)
    ensures UniqueMenuIds(Filter(xs, keep))
  {
    if |xs| > 0 {
      FilterKeepsUniqueMenuIds(xs[1..], keep);
      var rest := Filter(xs[1..], keep);
      forall j | 0 <= j < |rest| ensures rest[j].id != xs[0].id {
        assert rest[j] in xs[1..];
      }
    }
  }

  lemma {:induction false} FilterKeepsUniqueSubmenuIds(xs: seq<SubMenu>, keep: SubMenu -> bool)
    requires UniqueSubmenuIds(xs)
    ensures UniqueSubmenuIds(Filter(xs, keep))
  {
    if |xs| > 0 {
      FilterKeepsUniqueSubmenuIds(xs[1..], keep);
      var rest := Filter(xs[1..], keep);
      forall j | 0 <= j < |rest| ensures rest[j].id != xs[0].id {
        assert rest[j] in xs[1..];
      }
    }
  }

  lemma {:induction false} FilterKeepsUniqueDishIds(xs: seq<Dish>, keep: Dish -> bool)
    requires UniqueDishIds(xs)
    ensures UniqueDishIds(Filter(xs, keep))
  {
    if |xs| > 0 {
      FilterKeepsUniqueDishIds(xs[1..], keep);
      var rest := Filter(xs[1..], keep);
      forall j | 0 <= j < |rest| ensures rest[j].id != xs[0].id {
        assert rest[j] in xs[1..];
      }
    }
  }
}

=== FILE: reconciler.dfy ===
/**
 * The reconciler of the synchronisation job: the parsed sheet is laid over
 * the store through the HTTP API, one sheet menu after the other, then
 * orphans are deleted and the discounts are stored.
 *
 * For each sheet menu: a menu found by its sheet id is patched and its
 * children reconciled (`update_all_data`); otherwise it is posted, and a 201
 * creates all its children (`create_all_data`) while a 409 reconciles the
 * children under the first listed menu with the same title. Inside
 * `update_all_data` a sheet submenu is matched by id, else by title, else
 * created, and a sheet dish is matched by id against the dish ids listed
 * before any menu was processed, else created. Resolved ids are written back
 * to the sheet in column A, B or C at the node's row.
 *
 * The three copies of the job differ only where `Variant` is consulted.
 * An exception stops the run where it happens; what was sent before stays
 * sent.
 */
module Reconciler {
  import opened Common
  import opened Text
  import opened Models
  import opened SheetParser
  import opened SyncApi

  /** The sheet columns ids are written to: A for menus, B for submenus, C for dishes. */
  datatype Column = A | B | C

  /** Cell `{column}{row}` of the sheet (1-based row) set to `value`. */
  datatype Write = Write(column: Column, row: nat, value: string)

  /** The exception that stops a run. */
  datatype Crash =
    | KeyError                    // `data['id']` on an answer without an id
    | TypeError                   // a string indexed by `'title'`, or an error body iterated as a list
    | IndexError                  // `[...][0]` on an empty list
    | InvalidJson                 // `requests` refusing a NaN in a `json=` body (`InvalidJSONError`)
    | ParseFailed(e: ParseError)  // the parser's own `IndexError`

  /** What the job has done so far. */
  datatype Run = Run(
    store: Store,
    next: nat,                       // how many fresh ids the store has handed out
    log: seq<Request>,               // store-changing requests sent, in order
    writes: seq<Write>,              // cells written, in order
    dishIds: seq<string>,            // `google_dishes_ids`
    discounts: map<string, string>,  // `discounts`
    menuIds: seq<string>)            // the ids the menus were reconciled under

  /** A run stopped by an exception, with what it had done before. */
  datatype Halt = Halt(run: Run, crash: Crash)

  /** Cells written and dish ids resolved are kept, and the menu bookkeeping stays as it was. */
  predicate Grows(r: Run, r': Run) {
    r.writes <= r'.writes && r.dishIds <= r'.dishIds && r'.menuIds == r.menuIds
  }

  predicate GrowsTo(r: Run, o: Result<Run, Halt>) {
    if o.Ok? then Grows(r, o.value) else Grows(r, o.error.run)
  }

  function IdsOf(xs: seq<SubMenu>): (ids: seq<string>)
    ensures |ids| == |xs| && forall i :: 0 <= i < |xs| ==> ids[i] == xs[i].id
  {
    seq(|xs|, i requires 0 <= i < |xs| => xs[i].id)
  }

  function TitlesOf(xs: seq<SubMenu>): (ts: seq<string>)
    ensures |ts| == |xs| && forall i :: 0 <= i < |xs| ==> ts[i] == xs[i].title
  {
    seq(|xs|, i requires 0 <= i < |xs| => xs[i].title)
  }

  function MenuTitleIs(title: string): Menu -> bool { (m: Menu) => m.title == title }

  /**
   * Whether a request body carrying these two cells holds a NaN. The online
   * and workbook copies keep pandas' NaN for an empty cell, and `requests`
   * refuses to encode NaN in a `json=` body before anything is sent. The
   * asyncio copy has replaced empty cells by `''`.
   */
  predicate NanBody(v: Variant, title: string, description: string) {
    !v.Async? && (Blank(v, title) || Blank(v, description))
  }

  /** A dish id joins `google_dishes_ids` and its discount is recorded under it. */
  function Record(r: Run, id: string, discount: string): Run
  {
    r.(dishIds := r.dishIds + [id], discounts := r.discounts[id := discount])
  }

  /** The ids added to `google_dishes_ids` between two runs. */
  function Added(r: Run, r': Run): seq<string>
    requires |r.dishIds| <= |r'.dishIds|
  {
    r'.dishIds[|r.dishIds|..]
  }

  // ---------------------------------------------------------------------------
  // `update_all_data`: dishes

  /** Whether posting the sheet dish under the submenu is refused. */
  predicate DishRefused(ids: nat -> string, r: Run, menuId: string, submenuId: string, d: SheetDish) {
    OnPostDish(r.store, ids(r.next), menuId, submenuId, d.title, d.description, d.price).0.Refused?
  }

  /**
   * One sheet dish. A dish whose sheet id was listed at the start is patched
   * under its sheet id. Any other is posted: the new id, or on a refusal
   * (asyncio copy only) the sheet id, is written to column C. Either way the
   * id joins the resolved list and carries the dish's discount. The other
   * two copies read the id of a refusal and stop with a `KeyError`, and stop
   * before sending anything when the title or description cell is empty.
   */
  function SyncDish(v: Variant, ids: nat -> string, r: Run, menuId: string, submenuId: string,
                    d: SheetDish, known: seq<string>): (o: Result<Run, Halt>)
    ensures GrowsTo(r, o)
    ensures NanBody(v, d.title, d.description) ==> o == Err(Halt(r, InvalidJson))
    ensures !NanBody(v, d.title, d.description) ==>
              (o.Err? <==> d.id !in known && !v.Async? && DishRefused(ids, r, menuId, submenuId, d))
    ensures o.Err? && !NanBody(v, d.title, d.description) ==> o.error.crash == KeyError
    ensures o.Err? ==> o.error.run.dishIds == r.dishIds
    ensures o.Ok? ==> && |o.value.dishIds| == |r.dishIds| + 1
                      && o.value.discounts == r.discounts[Last(o.value.dishIds) := d.discount]
    ensures o.Ok? && d.id in known ==> Last(o.value.dishIds) == d.id && o.value.writes == r.writes
    ensures o.Ok? && d.id !in known ==> o.value.writes == r.writes + [Write(C, d.index + 1, Last(o.value.dishIds))]
    ensures o.Ok? && d.id !in known && !DishRefused(ids, r, menuId, submenuId, d) ==>
              Last(o.value.dishIds) == ids(r.next) && ids(r.next) in DishIds(o.value.store)
    ensures o.Ok? && d.id !in known && DishRefused(ids, r, menuId, submenuId, d) ==>
              Last(o.value.dishIds) == d.id && o.value.store == r.store
  {
    if NanBody(v, d.title, d.description) then Err(Halt(r, InvalidJson))
    else if d.id in known then
      var s' := OnPatchDish(r.store, d.id, d.title, d.description, d.price);
      Ok(Record(r.(store := s', log := r.log + [PatchDish(submenuId, d.id)]), d.id, d.discount))
    else
      var (answer, s') := OnPostDish(r.store, ids(r.next), menuId, submenuId, d.title, d.description, d.price);
      var r1 := r.(store := s', log := r.log + [PostDish(menuId, submenuId, d.title)]);
      match answer
      case Created(id) =>
        assert id in DishIds(s') by { assert Dish(id, d.title, Some(d.description), d.price, submenuId) in s'.dishes; }
        Ok(Record(r1.(next := r.next + 1, writes := r.writes + [Write(C, d.index + 1, id)]), id, d.discount))
      case Refused(_) =>
        if v.Async? then Ok(Record(r1.(writes := r.writes + [Write(C, d.index + 1, d.id)]), d.id, d.discount))
        else Err(Halt(r1, KeyError))
  }

  /** No later position of `xs` after `i` holds the same value: position `i` is the last one for its value. */
  predicate LastOccurrence(xs: seq<string>, i: nat)
    requires i < |xs|
  {
    forall j :: i < j < |xs| ==> xs[j] != xs[i]
  }

  /**
   * The dish loop of one sheet submenu: every dish adds one id to the
   * resolved list, or the loop stops at the first dish that crashes.
   */
  function SyncDishes(v: Variant, ids: nat -> string, r: Run, menuId: string, submenuId: string,
                      ds: seq<SheetDish>, known: seq<string>): (o: Result<Run, Halt>)
    decreases |ds|
    ensures GrowsTo(r, o)
    ensures o.Ok? ==> |o.value.dishIds| == |r.dishIds| + |ds|
  {
    if |ds| == 0 then Ok(r)
    else match SyncDish(v, ids, r, menuId, submenuId, ds[0], known)
      case Err(h) => Err(h)
      case Ok(r1) => SyncDishes(v, ids, r1, menuId, submenuId, ds[1..], known)
  }

  /** A loop that finished went through its first dish and then through the rest. */
  lemma SyncDishesStep(v: Variant, ids: nat -> string, r: Run, menuId: string, submenuId: string,
                       ds: seq<SheetDish>, known: seq<string>)
    requires |ds| > 0 && SyncDishes(v, ids, r, menuId, submenuId, ds, known).Ok?
    ensures var o1 := SyncDish(v, ids, r, menuId, submenuId, ds[0], known);
      && o1.Ok?
      && SyncDishes(v, ids, r, menuId, submenuId, ds, known) == SyncDishes(v, ids, o1.value, menuId, submenuId, ds[1..], known)
      && Added(r, SyncDishes(v, ids, r, menuId, submenuId, ds, known).value)
         == [Last(o1.value.dishIds)] + Added(o1.value, SyncDishes(v, ids, r, menuId, submenuId, ds, known).value)
  {
    var r1 := SyncDish(v, ids, r, menuId, submenuId, ds[0], known).value;
    var r' := SyncDishes(v, ids, r, menuId, submenuId, ds, known).value;
    AddedOneMore(r.dishIds, r1.dishIds, r'.dishIds);
  }

  /** Ids added after one more id was added are that id followed by the rest. */
  lemma AddedOneMore(xs: seq<string>, ys: seq<string>, zs: seq<string>)
    requires |ys| == |xs| + 1 && ys <= zs
    ensures zs[|xs|..] == [Last(ys)] + zs[|ys|..]
  {
    assert zs[|xs|] == ys[|xs|];
  }

  /** A dish whose sheet id was listed at the start resolves to that id. */
  lemma {:induction false} ListedDishesKeepTheirIds(v: Variant, ids: nat -> string, r: Run, menuId: string, submenuId: string,
                                                    ds: seq<SheetDish>, known: seq<string>)
    requires SyncDishes(v, ids, r, menuId, submenuId, ds, known).Ok?
    ensures var r' := SyncDishes(v, ids, r, menuId, submenuId, ds, known).value;
      forall i :: 0 <= i < |ds| && ds[i].id in known ==> Added(r, r')[i] == ds[i].id
    decreases |ds|
  {
    if |ds| > 0 {
      SyncDishesStep(v, ids, r, menuId, submenuId, ds, known);
      var r1 := SyncDish(v, ids, r, menuId, submenuId, ds[0], known).value;
      ListedDishesKeepTheirIds(v, ids, r1, menuId, submenuId, ds[1..], known);
      forall i | 1 <= i < |ds| ensures ds[i] == ds[1..][i - 1] { }
    }
  }

  /** The discount of an id no dish of the loop resolved to is left as it was. */
  lemma {:induction false} OtherDiscountsUntouched(v: Variant, ids: nat -> string, r: Run, menuId: string, submenuId: string,
                                                   ds: seq<SheetDish>, known: seq<string>)
    requires SyncDishes(v, ids, r, menuId, submenuId, ds, known).Ok?
    ensures var r' := SyncDishes(v, ids, r, menuId, submenuId, ds, known).value;
      forall k :: k in r.discounts && k !in Added(r, r') ==> k in r'.discounts && r'.discounts[k] == r.discounts[k]
    decreases |ds|
  {
    if |ds| > 0 {
      SyncDishesStep(v, ids, r, menuId, submenuId, ds, known);
      var r1 := SyncDish(v, ids, r, menuId, submenuId, ds[0], known).value;
      OtherDiscountsUntouched(v, ids, r1, menuId, submenuId, ds[1..], known);
    }
  }

  /**
   * The map step behind `LastDishWinsDiscount`: the first dish's discount is
   * set under `a`, then the rest's; for each position that is the last one
   * for its id, that position's discount is the one left in `m`.
   */
  lemma LastWinsStep(a: string, rest: seq<string>, add: seq<string>, ds: seq<SheetDish>,
                     m1: map<string, string>, m: map<string, string>)
    requires add == [a] + rest && |add| == |ds|
    requires a in m1 && m1[a] == ds[0].discount
    requires forall i :: 0 <= i < |ds[1..]| && LastOccurrence(rest, i) ==> rest[i] in m && m[rest[i]] == ds[1..][i].discount
    requires forall k :: k in m1 && k !in rest ==> k in m && m[k] == m1[k]
    ensures forall i :: 0 <= i < |ds| && LastOccurrence(add, i) ==> add[i] in m && m[add[i]] == ds[i].discount
  {
    forall i | 0 <= i < |ds| && LastOccurrence(add, i) ensures add[i] in m && m[add[i]] == ds[i].discount {
      if i == 0 {
        FirstLastNotLater(a, rest, add);
      } else {
        LaterLastStaysLast(rest, add, i);
        assert ds[i] == ds[1..][i - 1];
      }
    }
  }

  lemma FirstLastNotLater(a: string, rest: seq<string>, add: seq<string>)
    requires add == [a] + rest && LastOccurrence(add, 0)
    ensures a !in rest
  {
    forall j | 0 <= j < |rest| ensures rest[j] != a { assert rest[j] == add[j + 1]; }
  }

  lemma LaterLastStaysLast(rest: seq<string>, add: seq<string>, i: nat)
    requires |add| == |rest| + 1 && add[1..] == rest && 0 < i < |add| && LastOccurrence(add, i)
    ensures add[i] == rest[i - 1] && LastOccurrence(rest, i - 1)
  {
    forall j | i - 1 < j < |rest| ensures rest[j] != rest[i - 1] { assert rest[j] == add[j + 1]; }
  }

  /**
   * Each id resolved in the loop carries the discount of the last dish that
   * resolved to it: `discounts[id] = discount` overwrites earlier entries.
   */
  lemma {:induction false} LastDishWinsDiscount(v: Variant, ids: nat -> string, r: Run, menuId: string, submenuId: string,
                                                ds: seq<SheetDish>, known: seq<string>)
    requires SyncDishes(v, ids, r, menuId, submenuId, ds, known).Ok?
    ensures var r' := SyncDishes(v, ids, r, menuId, submenuId, ds, known).value;
      forall i :: 0 <= i < |ds| && LastOccurrence(Added(r, r'), i) ==>
        Added(r, r')[i] in r'.discounts && r'.discounts[Added(r, r')[i]] == ds[i].discount
    decreases |ds|
  {
    if |ds| > 0 {
      SyncDishesStep(v, ids, r, menuId, submenuId, ds, known);
      var r1 := SyncDish(v, ids, r, menuId, submenuId, ds[0], known).value;
      var r' := SyncDishes(v, ids, r, menuId, submenuId, ds, known).value;
      LastDishWinsDiscount(v, ids, r1, menuId, submenuId, ds[1..], known);
      OtherDiscountsUntouched(v, ids, r1, menuId, submenuId, ds[1..], known);
      LastWinsStep(Last(r1.dishIds), Added(r1, r'), Added(r, r'), ds, r1.discounts, r'.discounts);
    }
  }

  // ---------------------------------------------------------------------------
  // `update_all_data`: submenus

  /** The first listed submenu with this title. */
  predicate FirstWithTitle(existing: seq<SubMenu>, title: string, id: string) {
    exists i :: 0 <= i < |existing| && existing[i].id == id && existing[i].title == title
      && forall j :: 0 <= j < i ==> existing[j].title != title
  }

  /** Whether posting the sheet submenu under the menu is refused. */
  predicate SubmenuRefused(ids: nat -> string, r: Run, menuId: string, gsm: SheetSubmenu) {
    OnPostSubmenu(r.store, ids(r.next), menuId, gsm.title, gsm.description).0.Refused?
  }

  /** Write the settled submenu id to column B, then reconcile the dishes under it. */
  function SettleSubmenu(v: Variant, ids: nat -> string, r: Run, menuId: string, gsm: SheetSubmenu, sid: string,
                         known: seq<string>): (o: Result<(Run, string), Halt>)
    ensures o.Ok? ==> o.value.1 == sid && Grows(r, o.value.0)
    ensures o.Ok? ==> |r.writes| < |o.value.0.writes| && o.value.0.writes[|r.writes|] == Write(B, gsm.index + 1, sid)
    ensures o.Err? ==> Grows(r, o.error.run)
  {
    var r1 := r.(writes := r.writes + [Write(B, gsm.index + 1, sid)]);
    match SyncDishes(v, ids, r1, menuId, sid, gsm.dishes, known)
    case Err(h) => Err(h)
    case Ok(r2) =>
      assert r2.writes[|r.writes|] == r1.writes[|r.writes|];
      Ok((r2, sid))
  }

  /**
   * The id one sheet submenu of a menu found in the store settles on, with
   * the request that settles it. Its sheet id among the listed ids: patched
   * under that id. Else its title among the listed titles: the asyncio copy
   * patches the first listed submenu with that title and adopts its id,
   * while the other two index an id string by `'title'` and stop with a
   * `TypeError`. Else it is posted and adopts the new id; on a refusal the
   * online copy keeps the sheet id and the other two stop with a `KeyError`.
   * The patch and the post stop before sending when the body holds a NaN.
   */
  function ResolveSubmenu(v: Variant, ids: nat -> string, r: Run, menuId: string, existing: seq<SubMenu>,
                          gsm: SheetSubmenu): (o: Result<(Run, string), Halt>)
    ensures o.Ok? ==> Grows(r, o.value.0) && o.value.0.writes == r.writes
    ensures o.Err? ==> Grows(r, o.error.run)
    ensures NanBody(v, gsm.title, gsm.description) && (gsm.id in IdsOf(existing) || gsm.title !in TitlesOf(existing)) ==>
              o == Err(Halt(r, InvalidJson))
  {
    if gsm.id in IdsOf(existing) then
      if NanBody(v, gsm.title, gsm.description) then Err(Halt(r, InvalidJson))
      else Ok((r.(store := OnPatchSubmenu(r.store, gsm.id, gsm.title, gsm.description),
             log := r.log + [PatchSubmenu(menuId, gsm.id)]), gsm.id))
    else if gsm.title in TitlesOf(existing) then
      if v.Async? then
        match FindFirst(existing, SubmenuTitleIs(gsm.title))
        case None => Err(Halt(r, IndexError))
        case Some(sm) =>
          Ok((r.(store := OnPatchSubmenu(r.store, sm.id, gsm.title, gsm.description),
                 log := r.log + [PatchSubmenu(menuId, sm.id)]), sm.id))
      else Err(Halt(r, TypeError))
    else if NanBody(v, gsm.title, gsm.description) then Err(Halt(r, InvalidJson))
    else
      var (answer, s') := OnPostSubmenu(r.store, ids(r.next), menuId, gsm.title, gsm.description);
      var r1 := r.(store := s', log := r.log + [PostSubmenu(menuId, gsm.title)]);
      match answer
      case Created(id) => Ok((r1.(next := r.next + 1), id))
      case Refused(_) => if v.Online? then Ok((r1, gsm.id)) else Err(Halt(r1, KeyError))
  }

  /** One sheet submenu: settle its id, write it to column B, reconcile its dishes. */
  function SyncSubmenu(v: Variant, ids: nat -> string, r: Run, menuId: string, existing: seq<SubMenu>,
                       gsm: SheetSubmenu, known: seq<string>): (o: Result<(Run, string), Halt>)
    ensures o.Ok? ==> Grows(r, o.value.0)
    ensures o.Err? ==> Grows(r, o.error.run)
    ensures o.Ok? ==> |r.writes| < |o.value.0.writes| && o.value.0.writes[|r.writes|] == Write(B, gsm.index + 1, o.value.1)
  {
    match ResolveSubmenu(v, ids, r, menuId, existing, gsm)
    case Err(h) => Err(h)
    case Ok((r1, sid)) => SettleSubmenu(v, ids, r1, menuId, gsm, sid, known)
  }

  /** A sheet submenu whose sheet id is listed under the menu keeps that id. */
  lemma SubmenuMatchedById(v: Variant, ids: nat -> string, r: Run, menuId: string, existing: seq<SubMenu>,
                           gsm: SheetSubmenu)
    requires gsm.id in IdsOf(existing)
    ensures var o := ResolveSubmenu(v, ids, r, menuId, existing, gsm);
      o.Ok? ==> o.value.1 == gsm.id
  {
  }

  /**
   * A sheet submenu whose id is not listed but whose title is: the asyncio
   * copy settles on the first listed submenu with that title, the other two
   * stop with a `TypeError` before sending anything.
   */
  lemma SubmenuMatchedByTitle(v: Variant, ids: nat -> string, r: Run, menuId: string, existing: seq<SubMenu>,
                              gsm: SheetSubmenu)
    requires gsm.id !in IdsOf(existing) && gsm.title in TitlesOf(existing)
    ensures var o := ResolveSubmenu(v, ids, r, menuId, existing, gsm);
      if v.Async? then o.Ok? ==> FirstWithTitle(existing, gsm.title, o.value.1)
      else o == Err(Halt(r, TypeError))
  {
    if v.Async? {
      var found := FindFirst(existing, SubmenuTitleIs(gsm.title));
      var i :| 0 <= i < |existing| && TitlesOf(existing)[i] == gsm.title;
      assert SubmenuTitleIs(gsm.title)(existing[i]);
      assert found.Some?;
    }
  }

  /**
   * A sheet submenu matched neither by id nor by title is posted: on a 201
   * it takes the new id; on a refusal the online copy keeps the sheet id and
   * the other two stop with a `KeyError`. A body holding a NaN is never sent.
   */
  lemma SubmenuPosted(v: Variant, ids: nat -> string, r: Run, menuId: string, existing: seq<SubMenu>,
                      gsm: SheetSubmenu)
    requires gsm.id !in IdsOf(existing) && gsm.title !in TitlesOf(existing)
    ensures var o := ResolveSubmenu(v, ids, r, menuId, existing, gsm);
      && (o.Ok? && !SubmenuRefused(ids, r, menuId, gsm) ==> o.value.1 == ids(r.next))
      && (o.Ok? && SubmenuRefused(ids, r, menuId, gsm) ==> v.Online? && o.value.1 == gsm.id)
      && (SubmenuRefused(ids, r, menuId, gsm) && !v.Online? && !NanBody(v, gsm.title, gsm.description) ==>
            o.Err? && o.error.crash == KeyError)
      && (NanBody(v, gsm.title, gsm.description) ==> o == Err(Halt(r, InvalidJson)))
  {
  }

  /** The submenu loop: one settled id per sheet submenu, in order. */
  function SyncSubmenus(v: Variant, ids: nat -> string, r: Run, menuId: string, existing: seq<SubMenu>,
                        gsms: seq<SheetSubmenu>, known: seq<string>): (o: Result<(Run, seq<string>), Halt>)
    decreases |gsms|
    ensures o.Ok? ==> Grows(r, o.value.0)
    ensures o.Err? ==> Grows(r, o.error.run)
    ensures o.Ok? ==> |o.value.1| == |gsms|
  {
    if |gsms| == 0 then Ok((r, []))
    else match SyncSubmenu(v, ids, r, menuId, existing, gsms[0], known)
      case Err(h) => Err(h)
      case Ok((r1, sid)) =>
        match SyncSubmenus(v, ids, r1, menuId, existing, gsms[1..], known)
        case Err(h) => Err(h)
        case Ok((r2, kept)) =>
          Ok((r2, [sid] + kept))
  }

  /** The requests added over two steps are those of the first step, then those of the second. */
  lemma NewRequests(a: seq<Request>, b: seq<Request>, c: seq<Request>)
    requires a <= b <= c
    ensures c[|a|..] == b[|a|..] + c[|b|..]
    ensures forall q :: q in c[|a|..] <==> q in b[|a|..] || q in c[|b|..]
  {
    assert c[|a|..] == b[|a|..] + c[|b|..];
  }

  lemma HeadTail(xs: seq<string>)
    requires |xs| > 0
    ensures forall y :: y in xs <==> y == xs[0] || y in xs[1..]
  {
    assert xs == [xs[0]] + xs[1..];
  }

  /** Delete each listed submenu id that no sheet submenu settled on. */
  function Sweep(r: Run, menuId: string, listed: seq<string>, kept: seq<string>): (r': Run)
    decreases |listed|
    ensures r.log <= r'.log && r'.writes == r.writes && r'.dishIds == r.dishIds && r'.discounts == r.discounts && r'.menuIds == r.menuIds
    ensures forall x :: DeleteSubmenu(menuId, x) in r'.log[|r.log|..] <==> x in listed && x !in kept
    ensures forall q :: q in r'.log[|r.log|..] ==> q.DeleteSubmenu?
    ensures r'.store.menus == r.store.menus && SubmenuIds(r'.store) <= SubmenuIds(r.store)
    ensures MenuFound(r.store, menuId) ==> forall x :: x in listed && x !in kept && IsId(x) ==> x !in SubmenuIds(r'.store)
  {
    if |listed| == 0 then r
    else
      var x := listed[0];
      var r1 := if x in kept then r
                else r.(store := OnDeleteSubmenu(r.store, menuId, x), log := r.log + [DeleteSubmenu(menuId, x)]);
      var r2 := Sweep(r1, menuId, listed[1..], kept);
      NewRequests(r.log, r1.log, r2.log);
      HeadTail(listed);
      r2
  }

  /**
   * `update_all_data`: list the menu's submenus, reconcile the sheet
   * submenus, then delete the listed submenus whose ids were not settled on.
   * A menu that cannot be listed yields an error body, which the job
   * iterates as a list of submenus: a `TypeError`.
   */
  function UpdateAllData(v: Variant, ids: nat -> string, r: Run, menuId: string, gm: SheetMenu,
                         known: seq<string>): (o: Result<Run, Halt>)
    ensures GrowsTo(r, o)
    ensures !MenuFound(r.store, menuId) ==> o == Err(Halt(r, TypeError))
  {
    match ListSubmenus(r.store, menuId)
    case None => Err(Halt(r, TypeError))
    case Some(existing) =>
      match SyncSubmenus(v, ids, r, menuId, existing, gm.submenus, known)
      case Err(h) => Err(h)
      case Ok((r1, kept)) => Ok(Sweep(r1, menuId, IdsOf(existing), kept))
  }

  // ---------------------------------------------------------------------------
  // `create_all_data`

  /** The column-C writes for dishes created with consecutive fresh ids from `first`. */
  function CreatedDishWrites(ids: nat -> string, first: nat, ds: seq<SheetDish>): (ws: seq<Write>)
    decreases |ds|
  {
    if |ds| == 0 then [] else [Write(C, ds[0].index + 1, ids(first))] + CreatedDishWrites(ids, first + 1, ds[1..])
  }

  /** The `i`-th dish's id is the `i`-th fresh id after `first`, written to column C at the dish's row. */
  lemma {:induction false} CreatedDishWritesAt(ids: nat -> string, first: nat, ds: seq<SheetDish>, i: nat)
    requires i < |ds|
    ensures |CreatedDishWrites(ids, first, ds)| == |ds|
    ensures CreatedDishWrites(ids, first, ds)[i] == Write(C, ds[i].index + 1, ids(first + i))
    decreases |ds|
  {
    if i > 0 {
      CreatedDishWritesAt(ids, first + 1, ds[1..], i - 1);
    } else if |ds| > 1 {
      CreatedDishWritesAt(ids, first + 1, ds[1..], 0);
    }
  }

  /**
   * The dishes of a freshly created submenu: each is posted and its new id
   * written to column C. A refusal has no id to read and stops the run with a
   * `KeyError`; a body holding a NaN stops it before it is sent. Nothing is
   * added to the resolved list or the discounts.
   */
  function CreateDishes(v: Variant, ids: nat -> string, r: Run, menuId: string, submenuId: string, ds: seq<SheetDish>): (o: Result<Run, Halt>)
    decreases |ds|
    ensures GrowsTo(r, o)
    ensures o.Ok? ==> o.value.dishIds == r.dishIds && o.value.discounts == r.discounts
    ensures o.Ok? ==> o.value.writes == r.writes + CreatedDishWrites(ids, r.next, ds)
    ensures o.Ok? ==> forall i :: 0 <= i < |ds| ==> !NanBody(v, ds[i].title, ds[i].description)
    ensures |ds| > 0 && NanBody(v, ds[0].title, ds[0].description) ==> o == Err(Halt(r, InvalidJson))
    ensures o.Err? ==> o.error.run.dishIds == r.dishIds && o.error.run.discounts == r.discounts
    ensures o.Err? ==> o.error.crash == KeyError || (o.error.crash == InvalidJson && !v.Async?)
  {
    if |ds| == 0 then
      assert r.writes + CreatedDishWrites(ids, r.next, ds) == r.writes;
      Ok(r)
    else
      var d := ds[0];
      if NanBody(v, d.title, d.description) then Err(Halt(r, InvalidJson))
      else
        var (answer, s') := OnPostDish(r.store, ids(r.next), menuId, submenuId, d.title, d.description, d.price);
        var r1 := r.(store := s', log := r.log + [PostDish(menuId, submenuId, d.title)]);
        match answer
        case Refused(_) => Err(Halt(r1, KeyError))
        case Created(id) =>
          var w := Write(C, d.index + 1, id);
          AppendedWrites(r.writes, w, CreatedDishWrites(ids, r.next + 1, ds[1..]), CreatedDishWrites(ids, r.next, ds));
          var o := CreateDishes(v, ids, r1.(next := r.next + 1, writes := r.writes + [w]), menuId, submenuId, ds[1..]);
          assert o.Ok? ==> forall i :: 1 <= i < |ds| ==> !NanBody(v, ds[i].title, ds[i].description) by {
            if o.Ok? { forall i | 1 <= i < |ds| ensures ds[i] == ds[1..][i - 1] { } }
          }
          o
  }

  lemma AppendedWrites(ws: seq<Write>, w: Write, later: seq<Write>, all: seq<Write>)
    requires all == [w] + later
    ensures (ws + [w]) + later == ws + all
  {
  }

  /**
   * Each sheet submenu is posted; a 201 writes the id to column B and
   * creates its dishes, any other answer skips it. A body holding a NaN
   * stops the run before it is sent.
   */
  function CreateSubmenus(v: Variant, ids: nat -> string, r: Run, menuId: string, gsms: seq<SheetSubmenu>): (o: Result<Run, Halt>)
    decreases |gsms|
    ensures GrowsTo(r, o)
    ensures o.Ok? ==> o.value.dishIds == r.dishIds && o.value.discounts == r.discounts
    ensures o.Err? ==> o.error.run.dishIds == r.dishIds && o.error.run.discounts == r.discounts
    ensures |gsms| > 0 && NanBody(v, gsms[0].title, gsms[0].description) ==> o == Err(Halt(r, InvalidJson))
  {
    if |gsms| == 0 then Ok(r)
    else
      var gsm := gsms[0];
      if NanBody(v, gsm.title, gsm.description) then Err(Halt(r, InvalidJson))
      else
        var (answer, s') := OnPostSubmenu(r.store, ids(r.next), menuId, gsm.title, gsm.description);
        var r1 := r.(store := s', log := r.log + [PostSubmenu(menuId, gsm.title)]);
        match answer
        case Refused(_) => CreateSubmenus(v, ids, r1, menuId, gsms[1..])
        case Created(id) =>
          var r2 := r1.(next := r.next + 1, writes := r.writes + [Write(B, gsm.index + 1, id)]);
          match CreateDishes(v, ids, r2, menuId, id, gsm.dishes)
          case Err(h) => Err(h)
          case Ok(r3) => CreateSubmenus(v, ids, r3, menuId, gsms[1..])
  }

  /**
   * `create_all_data` for a menu just created under `menuId`: its id goes to
   * column A, then all its children are created. No dish created here joins
   * the resolved list or gets a discount entry.
   */
  function CreateAllData(v: Variant, ids: nat -> string, r: Run, menuId: string, gm: SheetMenu): (o: Result<Run, Halt>)
    ensures GrowsTo(r, o)
    ensures o.Ok? ==> o.value.dishIds == r.dishIds && o.value.discounts == r.discounts
    ensures o.Err? ==> o.error.run.dishIds == r.dishIds && o.error.run.discounts == r.discounts
    ensures o.Ok? ==> |r.writes| < |o.value.writes| && o.value.writes[|r.writes|] == Write(A, gm.index + 1, menuId)
  {
    var r1 := r.(writes := r.writes + [Write(A, gm.index + 1, menuId)]);
    var o := CreateSubmenus(v, ids, r1, menuId, gm.submenus);
    assert o.Ok? ==> o.value.writes[|r.writes|] == r1.writes[|r.writes|];
    o
  }

  // ---------------------------------------------------------------------------
  // Menus

  /** Whether the sheet menu's description is short enough for the menu routes. */
  predicate MenuBodyFits(gm: SheetMenu) { |gm.description| <= Schemas.MenuDescriptionMax }

  /** Some menu already carries the sheet menu's title: the menu `POST` answers 409. */
  predicate MenuTitleTaken(s: Store, gm: SheetMenu) { exists m :: m in s.menus && m.title == gm.title }

  /**
   * `update_menu` for one sheet menu. Found by sheet id: patched, children
   * reconciled under that id. Otherwise posted: a 201 creates everything
   * under the new id; a 409 reconciles the children under the first listed
   * menu with the title, and stops with an `IndexError` when the first page
   * has none; any other refusal does nothing. The id the menu is reconciled
   * under joins `menuIds`. A title or description cell holding a NaN stops
   * the run at the patch or the post, before it is sent.
   */
  function UpdateMenu(v: Variant, ids: nat -> string, r: Run, gm: SheetMenu, known: seq<string>): (o: Result<Run, Halt>)
    ensures NanBody(v, gm.title, gm.description) ==> o == Err(Halt(r, InvalidJson))
    ensures MenuFound(r.store, gm.id) && o.Ok? ==> o.value.menuIds == r.menuIds + [gm.id]
    ensures !MenuFound(r.store, gm.id) && MenuBodyFits(gm) && !MenuTitleTaken(r.store, gm) && o.Ok? ==>
              && o.value.menuIds == r.menuIds + [ids(r.next)]
              && o.value.dishIds == r.dishIds && o.value.discounts == r.discounts
    ensures !MenuFound(r.store, gm.id) && MenuBodyFits(gm) && MenuTitleTaken(r.store, gm) && o.Ok? ==>
              exists m :: m in ListMenus(r.store) && m.title == gm.title && o.value.menuIds == r.menuIds + [m.id]
    ensures (&& !NanBody(v, gm.title, gm.description) && !MenuFound(r.store, gm.id) && MenuBodyFits(gm)
             && MenuTitleTaken(r.store, gm)
             && forall m :: m in ListMenus(r.store) ==> m.title != gm.title) ==> o.Err? && o.error.crash == IndexError
    ensures !NanBody(v, gm.title, gm.description) && !MenuFound(r.store, gm.id) && !MenuBodyFits(gm) ==>
              o.Ok? && o.value.menuIds == r.menuIds
    ensures o.Ok? ==> r.writes <= o.value.writes && r.menuIds <= o.value.menuIds && |o.value.menuIds| <= |r.menuIds| + 1
  {
    if NanBody(v, gm.title, gm.description) then Err(Halt(r, InvalidJson))
    else if MenuFound(r.store, gm.id) then
      var r1 := r.(store := OnPatchMenu(r.store, gm.id, gm.title, gm.description),
                   log := r.log + [PatchMenu(gm.id)], menuIds := r.menuIds + [gm.id]);
      UpdateAllData(v, ids, r1, gm.id, gm, known)
    else
      var (answer, s') := OnPostMenu(r.store, ids(r.next), gm.title, gm.description);
      var r1 := r.(store := s', log := r.log + [PostMenu(gm.title)]);
      match answer
      case Created(id) => CreateAllData(v, ids, r1.(next := r.next + 1, menuIds := r.menuIds + [id]), id, gm)
      case Refused(status) =>
        if status != Conflict then Ok(r1)
        else match FindFirst(ListMenus(r1.store), MenuTitleIs(gm.title))
          case None => Err(Halt(r1, IndexError))
          case Some(m) => UpdateAllData(v, ids, r1.(menuIds := r.menuIds + [m.id]), m.id, gm, known)
  }

  function SheetIds(t: seq<SheetMenu>): (ids: seq<string>)
    ensures |ids| == |t| && forall i :: 0 <= i < |t| ==> ids[i] == t[i].id
  {
    seq(|t|, i requires 0 <= i < |t| => t[i].id)
  }

  /**
   * The menu loop. `google_menus_ids` collects every sheet menu's id as the
   * loop goes and is read only once the loop has finished, so it is the
   * sheet ids of the whole tree (`SheetIds`).
   */
  function SyncMenus(v: Variant, ids: nat -> string, r: Run, t: seq<SheetMenu>, known: seq<string>): (o: Result<Run, Halt>)
    ensures o.Ok? ==> forall i :: 0 <= i < |t| ==> !NanBody(v, t[i].title, t[i].description)
    ensures o.Ok? ==> r.writes <= o.value.writes
    ensures o.Ok? ==> r.menuIds <= o.value.menuIds && |o.value.menuIds| <= |r.menuIds| + |t|
    decreases |t|
  {
    if |t| == 0 then Ok(r)
    else match UpdateMenu(v, ids, r, t[0], known)
      case Err(h) => Err(h)
      case Ok(r1) => SyncMenus(v, ids, r1, t[1..], known)
  }

  // ---------------------------------------------------------------------------
  // The final pass

  /** `MenuIds` of a store whose menu rows are among another's is among the other's. */
  lemma FewerMenuRows(s: Store, s': Store)
    requires forall m :: m in s'.menus ==> m in s.menus
    ensures MenuIds(s') <= MenuIds(s)
  {
  }

  /** Delete every listed dish id that no sheet dish resolved to. */
  function DeleteOrphanDishes(r: Run, listed: seq<string>): (r': Run)
    decreases |listed|
    ensures r'.writes == r.writes && r'.dishIds == r.dishIds && r'.discounts == r.discounts
    ensures r'.menuIds == r.menuIds && r.log <= r'.log
    ensures forall x :: DeleteDish(x) in r'.log[|r.log|..] <==> x in listed && x !in r.dishIds
    ensures forall q :: q in r'.log[|r.log|..] ==> q.DeleteDish?
    ensures r'.store.menus == r.store.menus
  {
    if |listed| == 0 then r
    else
      var x := listed[0];
      var r1 := if x in r.dishIds then r
                else r.(store := OnDeleteDish(r.store, x), log := r.log + [DeleteDish(x)]);
      var r2 := DeleteOrphanDishes(r1, listed[1..]);
      NewRequests(r.log, r1.log, r2.log);
      HeadTail(listed);
      r2
  }

  /** A menu row still stored after some rows went is found in both stores. */
  lemma RowsKeepFound(s: Store, s': Store)
    requires forall m :: m in s'.menus ==> m in s.menus
    ensures forall m :: m in s'.menus ==> (MenuFound(s', m.id) <==> MenuFound(s, m.id))
  {
    forall m | m in s'.menus ensures MenuFound(s', m.id) <==> MenuFound(s, m.id) {
      assert m in s.menus;
    }
  }

  /** Delete every listed menu id not in `keep`; no other menu row goes. */
  function DeleteOrphanMenus(r: Run, listed: seq<string>, keep: seq<string>): (r': Run)
    decreases |listed|
    ensures r'.writes == r.writes && r'.dishIds == r.dishIds && r'.discounts == r.discounts
    ensures r'.menuIds == r.menuIds && r.log <= r'.log
    ensures forall x :: DeleteMenu(x) in r'.log[|r.log|..] <==> x in listed && x !in keep
    ensures forall q :: q in r'.log[|r.log|..] ==> q.DeleteMenu?
    ensures forall m :: m in r'.store.menus <==> m in r.store.menus && !(m.id in listed && m.id !in keep && MenuFound(r.store, m.id))
  {
    if |listed| == 0 then r
    else
      var x := listed[0];
      var r1 := if x in keep then r
                else r.(store := OnDeleteMenu(r.store, x), log := r.log + [DeleteMenu(x)]);
      var r2 := DeleteOrphanMenus(r1, listed[1..], keep);
      NewRequests(r.log, r1.log, r2.log);
      HeadTail(listed);
      RowsKeepFound(r.store, r1.store);
      r2
  }

  /**
   * The final pass: listed dishes no sheet dish resolved to are deleted,
   * then listed menus whose id is not in `keep`. As written `keep` is the
   * sheet menu ids; corrected, it is the ids the menus were reconciled under.
   */
  function FinalPass(r: Run, dishes: seq<string>, menus: seq<string>, keep: seq<string>): (r': Run)
    ensures r'.writes == r.writes && r'.discounts == r.discounts && r.log <= r'.log
    ensures forall m :: m in r.store.menus && m.id in keep ==> m in r'.store.menus
  {
    DeleteOrphanMenus(DeleteOrphanDishes(r, dishes), menus, keep)
  }

  /**
   * The requests of the final pass delete exactly the listed dishes no sheet
   * dish resolved to and the listed menus whose id is not in `keep`.
   */
  lemma FinalPassDeletes(r: Run, dishes: seq<string>, menus: seq<string>, keep: seq<string>)
    ensures var r' := FinalPass(r, dishes, menus, keep);
      && (forall x :: DeleteDish(x) in r'.log[|r.log|..] <==> x in dishes && x !in r.dishIds)
      && (forall x :: DeleteMenu(x) in r'.log[|r.log|..] <==> x in menus && x !in keep)
  {
    var r1 := DeleteOrphanDishes(r, dishes);
    var r2 := DeleteOrphanMenus(r1, menus, keep);
    assert r2.log[|r.log|..] == r1.log[|r.log|..] + r2.log[|r1.log|..];
  }

  /**
   * The title fallback reconciles a sheet menu under an id other than its
   * sheet id: the sheet id names no stored menu, the adopted id does.
   */
  lemma TitleFallbackAdoptsAnotherId(v: Variant, ids: nat -> string, r: Run, gm: SheetMenu, known: seq<string>)
    requires IsId(gm.id) && !MenuFound(r.store, gm.id) && MenuBodyFits(gm) && MenuTitleTaken(r.store, gm)
    requires UpdateMenu(v, ids, r, gm, known).Ok?
    ensures var r' := UpdateMenu(v, ids, r, gm, known).value;
      |r'.menuIds| == |r.menuIds| + 1 && Last(r'.menuIds) != gm.id && Last(r'.menuIds) in MenuIds(r.store)
  {
    var r' := UpdateMenu(v, ids, r, gm, known).value;
    var m :| m in ListMenus(r.store) && m.title == gm.title && r'.menuIds == r.menuIds + [m.id];
    var i :| 0 <= i < |ListMenus(r.store)| && ListMenus(r.store)[i] == m;
    assert m in r.store.menus;
  }

  /**
   * As written: a listed menu that a sheet menu was reconciled under, but
   * whose id is not a sheet id, is deleted by the final pass.
   */
  lemma ReconciledMenuDeleted(r: Run, dishes: seq<string>, menus: seq<string>, sheetIds: seq<string>, m: string)
    requires m in menus && m in r.menuIds && m !in sheetIds && IsId(m)
    ensures DeleteMenu(m) in FinalPass(r, dishes, menus, sheetIds).log
    ensures m !in MenuIds(FinalPass(r, dishes, menus, sheetIds).store)
  {
    var r' := FinalPass(r, dishes, menus, sheetIds);
    FinalPassDeletes(r, dishes, menus, sheetIds);
    assert DeleteMenu(m) in r'.log[|r.log|..];
    var r1 := DeleteOrphanDishes(r, dishes);
    assert forall x :: x in r'.store.menus ==> x.id != m;
  }

  /** Corrected: no menu that a sheet menu was reconciled under is deleted, and its row stays. */
  lemma ReconciledMenuKept(r: Run, dishes: seq<string>, menus: seq<string>, m: Menu)
    requires m.id in r.menuIds
    ensures DeleteMenu(m.id) !in FinalPass(r, dishes, menus, r.menuIds).log[|r.log|..]
    ensures m in r.store.menus ==> m in FinalPass(r, dishes, menus, r.menuIds).store.menus
  {
    FinalPassDeletes(r, dishes, menus, r.menuIds);
  }

  // ---------------------------------------------------------------------------
  // The whole run

  /** What a run leaves behind: the store, the requests sent, the cells written, the stored discounts, the exception. */
  datatype SyncResult = SyncResult(store: Store, log: seq<Request>, writes: seq<Write>,
                                   discounts: Option<map<string, string>>, crash: Option<Crash>)

  function Start(s: Store): Run { Run(s, 0, [], [], [], map[], []) }

  /**
   * One run of the job over the sheet's rows, with the final pass as written
   * or corrected. The dish ids and the menu ids are listed (first page)
   * before any menu is processed. A run that stops stores no discounts and
   * skips the final pass; the workbook copy loses its cell writes too, as it
   * saves the workbook only at the very end.
   */
  function Sync(v: Variant, ids: nat -> string, rows: seq<Row>, s: Store, fixed: bool): (res: SyncResult)
    ensures Parse(v, rows).Err? ==> res == SyncResult(s, [], [], None, Some(ParseFailed(Parse(v, rows).error)))
    ensures res.crash.Some? ==> res.discounts.None?
    ensures res.crash.Some? && v.Local? ==> res.writes == []
  {
    match Parse(v, rows)
    case Err(e) => SyncResult(s, [], [], None, Some(ParseFailed(e)))
    case Ok(t) =>
      var known := ListDishIds(s);
      var menus := ListMenuIds(s);
      match SyncMenus(v, ids, Start(s), t, known)
      case Err(h) => SyncResult(h.run.store, h.run.log, if v.Local? then [] else h.run.writes, None, Some(h.crash))
      case Ok(r) =>
        var f := FinalPass(r, known, menus, if fixed then r.menuIds else SheetIds(t));
        SyncResult(f.store, f.log, f.writes, Some(f.discounts), None)
  }
}

=== FILE: redis_cache.dfy ===
/**
 * The Redis store as a map from key to cached value, and the two deletion
 * helpers of `CacheCleaner`. Values are kept as the records they encode; the
 * JSON text and the expiry times are not modelled.
 */
module RedisCache {
  import opened Common
  import opened Text
  import opened Models
  import opened CacheKeys

  /** What a key holds: one record, one list of records, a plain string, or the discount table. */
  datatype Entry =
    | MenuEntry(menu: MenuRead)
    | SubmenuEntry(submenu: SubMenuRead)
    | DishEntry(dish: Dish)
    | MenuList(menus: seq<MenuRead>)
    | SubmenuList(submenus: seq<SubMenuRead>)
    | DishList(dishes: seq<Dish>)
    | Plain(text: string)
    | DiscountTable(discounts: map<string, string>)

  type Cache = map<string, Entry>

  /** An argument of `clear_cache`: a key, or a list of keys. */
  datatype Arg = Str(key: string) | List(keys: seq<string>)

  /** The elements of a list of strings as Python's `repr` writes them: quoted and comma-separated. */
  function QuotedItems(xs: seq<string>): string
  {
    if |xs| == 0 then ""
    else if |xs| == 1 then "'" + xs[0] + "'"
    else "'" + xs[0] + "', " + QuotedItems(xs[1..])
  }

  /** `str(arg)`: a key stays as it is; a list becomes its Python rendering `['k1', 'k2']`. */
  function Rendered(a: Arg): (t: string)
    ensures a.List? ==> |t| >= 2 && t[0] == '['
  {
    match a
    case Str(k) => k
    case List(xs) => "[" + QuotedItems(xs) + "]"
  }

  /** The keys `clear_cache(*args)` deletes. */
  function Named(args: seq<Arg>): set<string>
  {
    set a | a in args :: Rendered(a)
  }

  /** `clear_cache(*args)`: for each argument in turn, delete the key `str(arg)`. */
  function ClearCache(c: Cache, args: seq<Arg>): (c': Cache)
    ensures c'.Keys == c.Keys - Named(args)
    ensures forall k :: k in c' ==> c'[k] == c[k]
    decreases |args|
  {
    if |args| == 0 then c
    else
      var r := ClearCache(c - {Rendered(args[0])}, args[1..]);
      assert Named(args) == {Rendered(args[0])} + Named(args[1..]) by {
        assert forall a :: a in args <==> a == args[0] || a in args[1..] by {
          assert args == [args[0]] + args[1..];
        }
      }
      r
  }

  /** `clear_main_cache`: delete the four list keys. */
  function ClearMainCache(c: Cache): (c': Cache)
    ensures c'.Keys == c.Keys - MainKeys
    ensures forall k :: k in c' ==> c'[k] == c[k]
  {
    var args := [Str(AllMenus), Str(AllSubmenus), Str(AllDishes), Str(AllMenusNested)];
    assert Named(args) == MainKeys by {
      assert Rendered(args[0]) == AllMenus && Rendered(args[1]) == AllSubmenus;
      assert Rendered(args[2]) == AllDishes && Rendered(args[3]) == AllMenusNested;
    }
    ClearCache(c, args)
  }

  /** The cache with the keys in `gone` removed and everything else as it was. */
  predicate Without(c': Cache, c: Cache, gone: set<string>) {
    c'.Keys == c.Keys - gone && forall k :: k in c' ==> c'[k] == c[k]
  }

  /** `c'` is `c` except, possibly, under key `k`. */
  ghost predicate SameExcept(c': Cache, c: Cache, k: string) {
    forall t :: t != k ==> (t in c' <==> t in c) && (t in c ==> c'[t] == c[t])
  }

  /**
   * `clear_cache(keys)` with one list argument: it deletes only the list's
   * bracketed rendering, so every key that does not begin with `[`, the
   * listed keys among them, survives with its value.
   */
  function ClearListArgument(c: Cache, xs: seq<string>): (c': Cache)
    ensures c' == ClearCache(c, [List(xs)])
    ensures forall k :: k in c' ==> k in c && c'[k] == c[k]
    ensures forall k :: k in c && (|k| == 0 || k[0] != '[') ==> k in c'
  {
    var t := Rendered(List(xs));
    assert Named([List(xs)]) == {t};
    ClearCache(c, [List(xs)])
  }

  // ---------------------------------------------------------------------------
  // `KEYS pattern` for the two glob shapes the services use

  /** The keys `{prefix}*` matches. */
  function KeysWithPrefix(c: Cache, prefix: string): (ks: set<string>)
    ensures forall t :: t in ks <==> t in c && StartsWith(t, prefix)
  {
    set t | t in c && StartsWith(t, prefix)
  }

  /** The keys `*{suffix}` matches. */
  function KeysWithSuffix(c: Cache, suffix: string): (ks: set<string>)
    ensures forall t :: t in ks <==> t in c && EndsWith(t, suffix)
  {
    set t | t in c && EndsWith(t, suffix)
  }

  /** `KEYS` answers a list in an order Redis does not specify: any enumeration without repeats. */
  method ListKeys(found: set<string>) returns (ks: seq<string>)
    ensures forall t :: t in ks <==> t in found
    ensures |ks| == |found|
  {
    ks := [];
    var rest := found;
    while rest != {}
      invariant rest <= found
      invariant forall t :: t in ks <==> t in found && t !in rest
      invariant |ks| + |rest| == |found|
      decreases |rest|
    {
      var t :| t in rest;
      ks := ks + [t];
      rest := rest - {t};
    }
  }

  /** `clear_cache(*keys)`: every listed key is deleted, each under its own name. */
  function ClearEach(c: Cache, keys: set<string>): (c': Cache)
    ensures Without(c', c, keys)
  {
    c - keys
  }
}

=== FILE: schemas.dfy ===
/**
 * Request bodies and their validation: which fields are required, the
 * description length bounds, and the price default. A field missing from a
 * PATCH body is `Unset`, mirroring `model_dump(exclude_unset=True)`.
 */
module Schemas {
  import opened Common

  const MenuDescriptionMax: nat := 1024
  const SubmenuDescriptionMax: nat := 512
  const DishCreateDescriptionMax: nat := 512
  const DishUpdateDescriptionMax: nat := 1024

  /** The price a dish gets when the create body omits it (`Field(default=0)`). */
  const DefaultPrice: string := "0"

  /** A PATCH field: left out of the body, or supplied with a value. */
  datatype Patch<+T> = Unset | Set(value: T)

  /** Create bodies as they arrive; any field may be missing. */
  datatype MenuBody = MenuBody(title: Option<string>, description: Option<string>)
  datatype SubMenuBody = SubMenuBody(title: Option<string>, description: Option<string>)
  datatype DishBody = DishBody(title: Option<string>, description: Option<string>, price: Option<string>)

  /** Validated create payloads. */
  datatype MenuCreate = MenuCreate(title: string, description: Option<string>)
  datatype SubMenuCreate = SubMenuCreate(title: string, description: Option<string>)
  datatype DishCreate = DishCreate(title: string, description: Option<string>, price: string)

  /** Partial-update payloads; a description may also be set to null explicitly. */
  datatype MenuUpdate = MenuUpdate(title: Patch<string>, description: Patch<Option<string>>)
  datatype SubMenuUpdate = SubMenuUpdate(title: Patch<string>, description: Patch<Option<string>>)
  datatype DishUpdate = DishUpdate(title: Patch<string>, description: Patch<Option<string>>, price: Patch<string>)

  predicate Fits(description: Option<string>, max: nat) {
    description.None? || |description.value| <= max
  }

  predicate PatchFits(description: Patch<Option<string>>, max: nat) {
    description.Unset? || Fits(description.value, max)
  }

  const InvalidBody := HttpError(Unprocessable, "validation error")

  /** A path id that is not a UUID (`UUID4` path parameters) is refused the same way. */
  const InvalidId := InvalidBody

  function ValidateMenuCreate(b: MenuBody): (r: Result<MenuCreate, HttpError>)
    ensures r.Ok? <==> b.title.Some? && Fits(b.description, MenuDescriptionMax)
    ensures r.Ok? ==> r.value.title == b.title.value && r.value.description == b.description
    ensures r.Err? ==> r.error.status == Unprocessable
  {
    if b.title.None? || !Fits(b.description, MenuDescriptionMax) then Err(InvalidBody)
    else Ok(MenuCreate(b.title.value, b.description))
  }

  function ValidateSubMenuCreate(b: SubMenuBody): (r: Result<SubMenuCreate, HttpError>)
    ensures r.Ok? <==> b.title.Some? && Fits(b.description, SubmenuDescriptionMax)
    ensures r.Ok? ==> r.value.title == b.title.value && r.value.description == b.description
    ensures r.Err? ==> r.error.status == Unprocessable
  {
    if b.title.None? || !Fits(b.description, SubmenuDescriptionMax) then Err(InvalidBody)
    else Ok(SubMenuCreate(b.title.value, b.description))
  }

  function ValidateDishCreate(b: DishBody): (r: Result<DishCreate, HttpError>)
    ensures r.Ok? <==> b.title.Some? && Fits(b.description, DishCreateDescriptionMax)
    ensures r.Ok? ==> r.value.title == b.title.value && r.value.description == b.description
    ensures r.Ok? ==> r.value.price == (if b.price.Some? then b.price.value else DefaultPrice)
    ensures r.Err? ==> r.error.status == Unprocessable
  {
    if b.title.None? || !Fits(b.description, DishCreateDescriptionMax) then Err(InvalidBody)
    else Ok(DishCreate(b.title.value, b.description, if b.price.Some? then b.price.value else DefaultPrice))
  }

  /** Update bodies carry no required field; only the description bound can reject them. */
  function ValidateMenuUpdate(u: MenuUpdate): (r: Result<MenuUpdate, HttpError>)
    ensures r.Ok? <==> PatchFits(u.description, MenuDescriptionMax)
    ensures r.Ok? ==> r.value == u
  {
    if PatchFits(u.description, MenuDescriptionMax) then Ok(u) else Err(InvalidBody)
  }

  function ValidateSubMenuUpdate(u: SubMenuUpdate): (r: Result<SubMenuUpdate, HttpError>)
    ensures r.Ok? <==> PatchFits(u.description, SubmenuDescriptionMax)
    ensures r.Ok? ==> r.value == u
  {
    if PatchFits(u.description, SubmenuDescriptionMax) then Ok(u) else Err(InvalidBody)
  }

  function ValidateDishUpdate(u: DishUpdate): (r: Result<DishUpdate, HttpError>)
    ensures r.Ok? <==> PatchFits(u.description, DishUpdateDescriptionMax)
    ensures r.Ok? ==> r.value == u
  {
    if PatchFits(u.description, DishUpdateDescriptionMax) then Ok(u) else Err(InvalidBody)
  }

  /**
   * A dish description accepted on update may be refused on create: the
   * update bound (1024) is looser than the create bound (512), and every
   * description valid on create is valid on update.
   */
  lemma DishUpdateBoundLooserThanCreate(d: string)
    ensures |d| <= DishCreateDescriptionMax ==>
              ValidateDishUpdate(DishUpdate(Unset, Set(Some(d)), Unset)).Ok?
    ensures DishCreateDescriptionMax < |d| <= DishUpdateDescriptionMax ==>
              ValidateDishUpdate(DishUpdate(Unset, Set(Some(d)), Unset)).Ok? &&
              ValidateDishCreate(DishBody(Some("t"), Some(d), None)).Err?
  {
  }
}

=== FILE: sheet_parser.dfy ===
/**
 * The sheet parser of the synchronisation job. The sheet is a list of rows of
 * up to seven cells; the first non-empty cell among the three leading ones
 * decides whether a row opens a menu (column A), adds a submenu to the last
 * menu (column B) or adds a dish to the last submenu of the last menu
 * (column C). Rows with all three empty are skipped. Each node keeps the
 * 0-based position of its row so that ids can later be written back.
 *
 * A cell is modelled by the text the job compares: `tasks/update_db.py`
 * replaces empty cells by `''` and tests truthiness; `tasks/task_online.py`
 * and `tasks/task_local.py` keep pandas' NaN and test `str(cell) != 'nan'`.
 */
module SheetParser {
  import opened Common

  type Row = seq<string>

  /** The three copies of the job: `update_db.py` (asyncio), `task_online.py` and `task_local.py`. */
  datatype Variant = Async | Online | Local

  /** Whether a cell counts as empty for the variant. */
  predicate Blank(v: Variant, cell: string) {
    if v.Async? then cell == "" else cell == "nan"
  }

  /** The discount column G: `row[6] or 0` in the asyncio job, `str(row[6])` in the others; a missing column gives `0` or `'nan'`. */
  function Discount(v: Variant, row: Row): (d: string)
    ensures v.Async? ==> d != ""
    ensures |row| > 6 && !Blank(v, row[6]) ==> d == row[6]
    ensures |row| <= 6 ==> d == (if v.Async? then "0" else "nan")
  {
    if |row| > 6 then (if v.Async? && row[6] == "" then "0" else row[6])
    else if v.Async? then "0" else "nan"
  }

  /** What a row is: a menu, submenu or dish row, a skipped row, or one too short for the cells its level reads (an `IndexError`). */
  datatype Kind = MenuRow | SubmenuRow | DishRow | Skipped | Short

  function KindOf(v: Variant, row: Row): (k: Kind)
    ensures k == MenuRow ==> |row| >= 3 && !Blank(v, row[0])
    ensures k == SubmenuRow ==> |row| >= 4 && Blank(v, row[0]) && !Blank(v, row[1])
    ensures k == DishRow ==> |row| >= 6 && Blank(v, row[0]) && Blank(v, row[1]) && !Blank(v, row[2])
    ensures k == Skipped ==> |row| >= 3 && Blank(v, row[0]) && Blank(v, row[1]) && Blank(v, row[2])
  {
    if |row| < 1 then Short
    else if !Blank(v, row[0]) then (if |row| < 3 then Short else MenuRow)
    else if |row| < 2 then Short
    else if !Blank(v, row[1]) then (if |row| < 4 then Short else SubmenuRow)
    else if |row| < 3 then Short
    else if !Blank(v, row[2]) then (if |row| < 6 then Short else DishRow)
    else Skipped
  }

  datatype SheetDish = SheetDish(id: string, index: nat, title: string, description: string, price: string, discount: string)
  datatype SheetSubmenu = SheetSubmenu(id: string, index: nat, title: string, description: string, dishes: seq<SheetDish>)
  datatype SheetMenu = SheetMenu(id: string, index: nat, title: string, description: string, submenus: seq<SheetSubmenu>)

  /** Why parsing stops: a row too short, a submenu row before any menu row, a dish row with no submenu to go to. */
  datatype ParseError = RowTooShort(index: nat) | NoMenuYet(index: nat) | NoSubmenuYet(index: nat)

  function AddSubmenu(m: SheetMenu, sm: SheetSubmenu): SheetMenu
  {
    m.(submenus := m.submenus + [sm])
  }

  function AddDish(m: SheetMenu, d: SheetDish): SheetMenu
    requires |m.submenus| > 0
  {
    var last := m.submenus[|m.submenus| - 1];
    m.(submenus := m.submenus[..|m.submenus| - 1] + [last.(dishes := last.dishes + [d])])
  }

  /** One row of the loop, applied to the tree built from the rows before it. */
  function Step(v: Variant, t: seq<SheetMenu>, row: Row, i: nat): (o: Result<seq<SheetMenu>, ParseError>)
    ensures o.Err? ==> o.error.index == i
    ensures o.Ok? ==> |t| <= |o.value| <= |t| + 1
    ensures o.Ok? && |t| > 0 ==> o.value[..|t| - 1] == t[..|t| - 1]
    ensures o.Ok? ==> (|o.value| == |t| + 1 <==> KindOf(v, row) == MenuRow)
  {
    match KindOf(v, row)
    case Short => Err(RowTooShort(i))
    case Skipped => Ok(t)
    case MenuRow => Ok(t + [SheetMenu(row[0], i, row[1], row[2], [])])
    case SubmenuRow =>
      if |t| == 0 then Err(NoMenuYet(i))
      else Ok(t[..|t| - 1] + [AddSubmenu(t[|t| - 1], SheetSubmenu(row[1], i, row[2], row[3], []))])
    case DishRow =>
      if |t| == 0 || |t[|t| - 1].submenus| == 0 then Err(NoSubmenuYet(i))
      else Ok(t[..|t| - 1] + [AddDish(t[|t| - 1], SheetDish(row[2], i, row[3], row[4], row[5], Discount(v, row)))])
  }

  /** The tree built from the first `n` rows, or the error of the first row that fails. */
  function ParseUpTo(v: Variant, rows: seq<Row>, n: nat): (o: Result<seq<SheetMenu>, ParseError>)
    requires n <= |rows|
    ensures o.Err? ==> o.error.index < n
    ensures o.Ok? ==> |o.value| <= n
  {
    if n == 0 then Ok([])
    else match ParseUpTo(v, rows, n - 1)
      case Err(e) => Err(e)
      case Ok(t) => Step(v, t, rows[n - 1], n - 1)
  }

  function Parse(v: Variant, rows: seq<Row>): (o: Result<seq<SheetMenu>, ParseError>)
    ensures o.Err? ==> o.error.index < |rows|
    ensures o.Ok? ==> |o.value| <= |rows|
  {
    ParseUpTo(v, rows, |rows|)
  }

  // ---------------------------------------------------------------------------
  // The flat reading of the rows, against which the tree is checked

  /** A node without its children. */
  datatype Node =
    | MenuNode(id: string, index: nat, title: string, description: string)
    | SubmenuNode(id: string, index: nat, title: string, description: string)
    | DishNode(id: string, index: nat, title: string, description: string, price: string, discount: string)

  /** The node row `i` contributes, read straight off the row; none for a skipped or short row. */
  function RowNode(v: Variant, row: Row, i: nat): seq<Node>
  {
    match KindOf(v, row)
    case MenuRow => [MenuNode(row[0], i, row[1], row[2])]
    case SubmenuRow => [SubmenuNode(row[1], i, row[2], row[3])]
    case DishRow => [DishNode(row[2], i, row[3], row[4], row[5], Discount(v, row))]
    case _ => []
  }

  /** The nodes of the first `n` rows, in row order. */
  function RowNodes(v: Variant, rows: seq<Row>, n: nat): seq<Node>
    requires n <= |rows|
  {
    if n == 0 then [] else RowNodes(v, rows, n - 1) + RowNode(v, rows[n - 1], n - 1)
  }

  function DishNodes(ds: seq<SheetDish>): seq<Node>
  {
    if |ds| == 0 then []
    else
      var d := ds[|ds| - 1];
      DishNodes(ds[..|ds| - 1]) + [DishNode(d.id, d.index, d.title, d.description, d.price, d.discount)]
  }

  function SubmenuNodes(sms: seq<SheetSubmenu>): seq<Node>
  {
    if |sms| == 0 then []
    else
      var sm := sms[|sms| - 1];
      SubmenuNodes(sms[..|sms| - 1]) + [SubmenuNode(sm.id, sm.index, sm.title, sm.description)] + DishNodes(sm.dishes)
  }

  /** The tree in document order: each menu, then each of its submenus followed by that submenu's dishes. */
  function TreeNodes(t: seq<SheetMenu>): seq<Node>
  {
    if |t| == 0 then []
    else
      var m := t[|t| - 1];
      TreeNodes(t[..|t| - 1]) + [MenuNode(m.id, m.index, m.title, m.description)] + SubmenuNodes(m.submenus)
  }

  lemma TreeNodesSnoc(t: seq<SheetMenu>, m: SheetMenu)
    ensures TreeNodes(t + [m]) == TreeNodes(t) + [MenuNode(m.id, m.index, m.title, m.description)] + SubmenuNodes(m.submenus)
  {
    assert (t + [m])[..|t|] == t;
  }

  lemma SubmenuNodesSnoc(sms: seq<SheetSubmenu>, sm: SheetSubmenu)
    ensures SubmenuNodes(sms + [sm]) == SubmenuNodes(sms) + [SubmenuNode(sm.id, sm.index, sm.title, sm.description)] + DishNodes(sm.dishes)
  {
    assert (sms + [sm])[..|sms|] == sms;
  }

  lemma DishNodesSnoc(ds: seq<SheetDish>, d: SheetDish)
    ensures DishNodes(ds + [d]) == DishNodes(ds) + [DishNode(d.id, d.index, d.title, d.description, d.price, d.discount)]
  {
    assert (ds + [d])[..|ds|] == ds;
  }

  /** Adding a submenu to the last menu appends its node to the flat reading. */
  lemma {:induction false} AddSubmenuNodes(t: seq<SheetMenu>, sm: SheetSubmenu)
    requires |t| > 0 && sm.dishes == []
    ensures TreeNodes(t[..|t| - 1] + [AddSubmenu(t[|t| - 1], sm)])
            == TreeNodes(t) + [SubmenuNode(sm.id, sm.index, sm.title, sm.description)]
  {
    var m := t[|t| - 1];
    TreeNodesSnoc(t[..|t| - 1], AddSubmenu(m, sm));
    SubmenuNodesSnoc(m.submenus, sm);
    assert DishNodes(sm.dishes) == [];
  }

  /** Adding a dish to the last submenu of the last menu appends its node to the flat reading. */
  lemma {:induction false} AddDishNodes(t: seq<SheetMenu>, d: SheetDish)
    requires |t| > 0 && |t[|t| - 1].submenus| > 0
    ensures TreeNodes(t[..|t| - 1] + [AddDish(t[|t| - 1], d)])
            == TreeNodes(t) + [DishNode(d.id, d.index, d.title, d.description, d.price, d.discount)]
  {
    var m := t[|t| - 1];
    var sms := m.submenus;
    var last := sms[|sms| - 1];
    TreeNodesSnoc(t[..|t| - 1], AddDish(m, d));
    SubmenuNodesSnoc(sms[..|sms| - 1], last.(dishes := last.dishes + [d]));
    DishNodesSnoc(last.dishes, d);
    assert sms[..|sms| - 1] + [last] == sms;
  }

  /** One row that parses appends its own node, if any, to the flat reading. */
  lemma StepNodes(v: Variant, t: seq<SheetMenu>, row: Row, i: nat)
    requires Step(v, t, row, i).Ok?
    ensures TreeNodes(Step(v, t, row, i).value) == TreeNodes(t) + RowNode(v, row, i)
  {
    match KindOf(v, row)
    case Skipped =>
      assert TreeNodes(t) + [] == TreeNodes(t);
    case MenuRow =>
      TreeNodesSnoc(t, SheetMenu(row[0], i, row[1], row[2], []));
    case SubmenuRow =>
      AddSubmenuNodes(t, SheetSubmenu(row[1], i, row[2], row[3], []));
    case DishRow =>
      AddDishNodes(t, SheetDish(row[2], i, row[3], row[4], row[5], Discount(v, row)));
  }

  /**
   * The tree holds exactly the nodes the rows hold, in row order and with
   * their row positions: reading the tree in document order gives the
   * sequence of non-skipped rows, each read on its own.
   */
  lemma {:induction false} ParsedTreeListsRows(v: Variant, rows: seq<Row>, n: nat)
    requires n <= |rows| && ParseUpTo(v, rows, n).Ok?
    ensures TreeNodes(ParseUpTo(v, rows, n).value) == RowNodes(v, rows, n)
  {
    if n > 0 {
      ParsedTreeListsRows(v, rows, n - 1);
      StepNodes(v, ParseUpTo(v, rows, n - 1).value, rows[n - 1], n - 1);
    }
  }

  /** The number of rows with a non-empty leading cell among the first `n`. */
  function CountNodes(v: Variant, rows: seq<Row>, n: nat): nat
    requires n <= |rows|
  {
    if n == 0 then 0
    else CountNodes(v, rows, n - 1) + (if KindOf(v, rows[n - 1]) in {MenuRow, SubmenuRow, DishRow} then 1 else 0)
  }

  /** The tree has one node per row whose leading cells are not all empty. */
  lemma {:induction false} NodeCountIsRowCount(v: Variant, rows: seq<Row>)
    requires Parse(v, rows).Ok?
    ensures |TreeNodes(Parse(v, rows).value)| == CountNodes(v, rows, |rows|)
  {
    ParsedTreeListsRows(v, rows, |rows|);
    RowNodesCount(v, rows, |rows|);
  }

  lemma {:induction false} RowNodesCount(v: Variant, rows: seq<Row>, n: nat)
    requires n <= |rows|
    ensures |RowNodes(v, rows, n)| == CountNodes(v, rows, n)
  {
    if n > 0 { RowNodesCount(v, rows, n - 1); }
  }

  // ---------------------------------------------------------------------------
  // When parsing fails

  /** Some row before `n` opens a menu. */
  predicate MenuBefore(v: Variant, rows: seq<Row>, n: nat)
    requires n <= |rows|
  {
    exists j :: 0 <= j < n && KindOf(v, rows[j]) == MenuRow
  }

  /** Some submenu row before `n` has no menu row after it (before `n`): the current menu has a submenu. */
  predicate SubmenuOpen(v: Variant, rows: seq<Row>, n: nat)
    requires n <= |rows|
  {
    exists j :: 0 <= j < n && KindOf(v, rows[j]) == SubmenuRow && NoMenuBetween(v, rows, j, n)
  }

  predicate NoMenuBetween(v: Variant, rows: seq<Row>, j: nat, n: nat)
    requires j < n <= |rows|
  {
    forall k :: j < k < n ==> KindOf(v, rows[k]) != MenuRow
  }

  /** Row `i` can be read: it is long enough, and the menu or submenu it adds to exists. */
  predicate RowFits(v: Variant, rows: seq<Row>, i: nat)
    requires i < |rows|
  {
    match KindOf(v, rows[i])
    case Short => false
    case SubmenuRow => MenuBefore(v, rows, i)
    case DishRow => SubmenuOpen(v, rows, i)
    case _ => true
  }

  predicate Nested(v: Variant, rows: seq<Row>, n: nat)
    requires n <= |rows|
  {
    forall i :: 0 <= i < n ==> RowFits(v, rows, i)
  }

  lemma MenuBeforeStep(v: Variant, rows: seq<Row>, n: nat)
    requires 0 < n <= |rows|
    ensures MenuBefore(v, rows, n) <==> MenuBefore(v, rows, n - 1) || KindOf(v, rows[n - 1]) == MenuRow
  {
    if MenuBefore(v, rows, n) && KindOf(v, rows[n - 1]) != MenuRow {
      var j :| 0 <= j < n && KindOf(v, rows[j]) == MenuRow;
      assert j < n - 1;
    }
  }

  /** A menu row closes the open submenu, a submenu row opens one, any other row leaves it as it was. */
  lemma SubmenuOpenStep(v: Variant, rows: seq<Row>, n: nat)
    requires 0 < n <= |rows|
    ensures KindOf(v, rows[n - 1]) == MenuRow ==> !SubmenuOpen(v, rows, n)
    ensures KindOf(v, rows[n - 1]) == SubmenuRow ==> SubmenuOpen(v, rows, n)
    ensures KindOf(v, rows[n - 1]) !in {MenuRow, SubmenuRow} ==> (SubmenuOpen(v, rows, n) <==> SubmenuOpen(v, rows, n - 1))
  {
    var k := KindOf(v, rows[n - 1]);
    if k == SubmenuRow {
      assert NoMenuBetween(v, rows, n - 1, n);
    } else if k != MenuRow {
      if SubmenuOpen(v, rows, n - 1) {
        var j :| 0 <= j < n - 1 && KindOf(v, rows[j]) == SubmenuRow && NoMenuBetween(v, rows, j, n - 1);
        assert NoMenuBetween(v, rows, j, n);
      }
      if SubmenuOpen(v, rows, n) {
        var j :| 0 <= j < n && KindOf(v, rows[j]) == SubmenuRow && NoMenuBetween(v, rows, j, n);
        assert j < n - 1;
        assert NoMenuBetween(v, rows, j, n - 1);
      }
    }
  }

  /** In rows that nest properly, an open submenu belongs to a menu. */
  lemma OpenSubmenuHasMenu(v: Variant, rows: seq<Row>, n: nat)
    requires n <= |rows| && Nested(v, rows, n) && SubmenuOpen(v, rows, n)
    ensures MenuBefore(v, rows, n)
  {
    var j :| 0 <= j < n && KindOf(v, rows[j]) == SubmenuRow && NoMenuBetween(v, rows, j, n);
    assert RowFits(v, rows, j);
    var i :| 0 <= i < j && KindOf(v, rows[i]) == MenuRow;
  }

  /** The shape of the tree so far: it has a menu exactly when a menu row was seen, and its last menu has a submenu exactly when one is open. */
  lemma {:induction false} TreeShape(v: Variant, rows: seq<Row>, n: nat)
    requires n <= |rows| && ParseUpTo(v, rows, n).Ok?
    ensures var t := ParseUpTo(v, rows, n).value;
      && (|t| > 0 <==> MenuBefore(v, rows, n))
      && (|t| > 0 ==> (|t[|t| - 1].submenus| > 0 <==> SubmenuOpen(v, rows, n)))
  {
    if n > 0 {
      TreeShape(v, rows, n - 1);
      MenuBeforeStep(v, rows, n);
      SubmenuOpenStep(v, rows, n);
      var t := ParseUpTo(v, rows, n - 1).value;
      var t' := ParseUpTo(v, rows, n).value;
      assert t' == Step(v, t, rows[n - 1], n - 1).value;
      match KindOf(v, rows[n - 1])
      case Skipped => assert t' == t;
      case MenuRow =>
      case SubmenuRow =>
      case DishRow =>
        assert |t'| == |t| && |t'[|t'| - 1].submenus| == |t[|t| - 1].submenus|;
    }
  }

  lemma NestedStep(v: Variant, rows: seq<Row>, n: nat)
    requires 0 < n <= |rows|
    ensures Nested(v, rows, n) <==> Nested(v, rows, n - 1) && RowFits(v, rows, n - 1)
  {
  }

  /** Once the rows before `n` parse, row `n - 1` parses exactly when it fits. */
  lemma StepOkIffFits(v: Variant, rows: seq<Row>, n: nat)
    requires 0 < n <= |rows| && ParseUpTo(v, rows, n - 1).Ok?
    requires Nested(v, rows, n - 1)
    ensures ParseUpTo(v, rows, n).Ok? <==> RowFits(v, rows, n - 1)
  {
    TreeShape(v, rows, n - 1);
    if SubmenuOpen(v, rows, n - 1) { OpenSubmenuHasMenu(v, rows, n - 1); }
  }

  /**
   * Parsing succeeds exactly when every row is long enough for its level,
   * every submenu row has a menu row above it, and every dish row has a
   * submenu row above it with no menu row in between.
   */
  lemma {:induction false} ParseSucceedsIffNested(v: Variant, rows: seq<Row>, n: nat)
    requires n <= |rows|
    ensures ParseUpTo(v, rows, n).Ok? <==> Nested(v, rows, n)
  {
    if n > 0 {
      ParseSucceedsIffNested(v, rows, n - 1);
      NestedStep(v, rows, n);
      if ParseUpTo(v, rows, n - 1).Ok? {
        StepOkIffFits(v, rows, n);
      }
    }
  }

  /** A dish node's price is column F as text, and its discount is column G or the variant's default. */
  lemma DishNodeReadsPriceAndDiscount(v: Variant, row: Row, i: nat)
    requires KindOf(v, row) == DishRow
    ensures RowNode(v, row, i)[0].price == row[5]
    ensures |row| > 6 && !Blank(v, row[6]) ==> RowNode(v, row, i)[0].discount == row[6]
    ensures |row| <= 6 ==> RowNode(v, row, i)[0].discount == (if v.Async? then "0" else "nan")
  {
  }
}

=== FILE: store_frames.dfy ===
/**
 * Which lookups a dish mutation leaves alone. These frame facts are what
 * makes an invalidation set sufficient: a cached record whose lookup the
 * mutation cannot change needs no deletion.
 */
module StoreFrames {
  import opened Common
  import opened Models
  import opened Schemas
  import MenuUtils
  import SubmenuUtils
  import DishUtils
  import DishCrud
  import MenuCrud
  import SubmenuCrud

  /** Same menus and submenus, and dish rows carrying the same ids and foreign keys position by position. */
  predicate SameDishLinks(s: Store, s': Store) {
    && s'.menus == s.menus
    && s'.submenus == s.submenus
    && |s'.dishes| == |s.dishes|
    && forall i :: 0 <= i < |s.dishes| ==>
         s'.dishes[i].id == s.dishes[i].id && s'.dishes[i].submenuId == s.dishes[i].submenuId
  }

  /** The row at position `i` lies under the same menu in both stores. */
  lemma RowFollowsLinks(s: Store, s': Store, i: nat, m: string)
    requires SameDishLinks(s, s') && i < |s.dishes|
    requires DishUnderMenu(s, s.dishes[i], m)
    ensures s'.dishes[i] in s'.dishes && DishUnderMenu(s', s'.dishes[i], m)
  {
    var sm :| sm in s.submenus && sm.id == s.dishes[i].submenuId && sm.menuId == m;
    assert sm in s'.submenus && sm.id == s'.dishes[i].submenuId;
  }

  /** One direction of `TotalDishesFollowLinks`: every id counted in `s` is counted in `s'`. */
  lemma DishIdsUnderFollowLinks(s: Store, s': Store, m: string)
    requires SameDishLinks(s, s')
    ensures DishIdsUnder(s, m) <= DishIdsUnder(s', m)
  {
    forall x | x in DishIdsUnder(s, m) ensures x in DishIdsUnder(s', m) {
      var i :| 0 <= i < |s.dishes| && DishUnderMenu(s, s.dishes[i], m) && s.dishes[i].id == x;
      RowFollowsLinks(s, s', i, m);
      assert s'.dishes[i].id == x;
    }
  }

  /** The distinct dish count of a menu depends only on the dishes' ids and foreign keys. */
  lemma TotalDishesFollowLinks(s: Store, s': Store, m: string)
    requires SameDishLinks(s, s')
    ensures TotalDishes(s', m) == TotalDishes(s, m)
  {
    DishIdsUnderFollowLinks(s, s', m);
    DishIdsUnderFollowLinks(s', s, m);
    assert DishIdsUnder(s', m) == DishIdsUnder(s, m);
  }

  lemma MenuLookupFollowsLinks(s: Store, s': Store, m: string)
    requires SameDishLinks(s, s')
    ensures MenuUtils.MenuById(s', m) == MenuUtils.MenuById(s, m)
  {
    TotalDishesFollowLinks(s, s', m);
  }

  lemma SubmenuLookupFollowsLinks(s: Store, s': Store, x: string)
    requires SameDishLinks(s, s')
    ensures SubmenuUtils.SubmenuById(s', x) == SubmenuUtils.SubmenuById(s, x)
  {
    FilterLengthPointwise(s.dishes, s'.dishes, DishInSubmenu(x));
  }

  /** A page of menus, with its counts, depends only on the dishes' ids and foreign keys. */
  lemma MenuPageFollowsLinks(s: Store, s': Store, o: nat, l: nat)
    requires SameDishLinks(s, s')
    ensures MenuCrud.GetMenus(s', o, l) == MenuCrud.GetMenus(s, o, l)
  {
    var p, p' := MenuCrud.GetMenus(s, o, l), MenuCrud.GetMenus(s', o, l);
    forall i | 0 <= i < |p| ensures p'[i] == p[i] {
      TotalDishesFollowLinks(s, s', p[i].menu.id);
    }
  }

  /** A page of a menu's submenus, with their dish counts, depends only on the dishes' ids and foreign keys. */
  lemma SubmenuPageFollowsLinks(s: Store, s': Store, menu: Menu, o: nat, l: nat)
    requires SameDishLinks(s, s')
    ensures SubmenuCrud.GetSubmenus(s', menu, o, l) == SubmenuCrud.GetSubmenus(s, menu, o, l)
  {
    var p, p' := SubmenuCrud.GetSubmenus(s, menu, o, l), SubmenuCrud.GetSubmenus(s', menu, o, l);
    forall i | 0 <= i < |p| ensures p'[i] == p[i] {
      FilterLengthPointwise(s.dishes, s'.dishes, DishInSubmenu(p[i].submenu.id));
    }
  }

  // ---------------------------------------------------------------------------
  // Partial update of a dish

  lemma UpdateKeepsLinks(s: Store, d: Dish, u: DishUpdate)
    requires Wf(s) && d in s.dishes
    ensures SameDishLinks(s, DishCrud.UpdateDishPartial(s, d, u).0)
  {
    var s' := DishCrud.UpdateDishPartial(s, d, u).0;
    forall i | 0 <= i < |s.dishes|
      ensures s'.dishes[i].id == s.dishes[i].id && s'.dishes[i].submenuId == s.dishes[i].submenuId
    {
      if s.dishes[i].id == d.id { SameDishId(s, s.dishes[i], d); }
    }
  }

  /** Updating a dish changes the lookup of that dish and of no other. */
  lemma DishLookupAfterUpdate(s: Store, d: Dish, u: DishUpdate, y: string)
    requires Wf(s) && d in s.dishes && y != d.id
    ensures DishUtils.DishById(DishCrud.UpdateDishPartial(s, d, u).0, y) == DishUtils.DishById(s, y)
  {
    var s' := DishCrud.UpdateDishPartial(s, d, u).0;
    UpdateKeepsLinks(s, d, u);
    FindFirstPointwise(s.dishes, s'.dishes, DishIdIs(y));
  }

  // ---------------------------------------------------------------------------
  // Creation of a dish

  /** A new dish under `sm` counts only towards the menu owning `sm`. */
  lemma TotalDishesAfterCreate(s: Store, newId: string, sm: SubMenu, p: DishCreate, m: string)
    requires Wf(s) && sm in s.submenus && m != sm.menuId
    ensures TotalDishes(DishCrud.CreateDish(s, newId, sm, p).0, m) == TotalDishes(s, m)
  {
    var s' := DishCrud.CreateDish(s, newId, sm, p).0;
    var nd := DishCrud.CreateDish(s, newId, sm, p).1;
    forall sm2 | sm2 in s.submenus && sm2.id == sm.id ensures sm2.menuId == sm.menuId {
      SameSubmenuId(s, sm2, sm);
    }
    assert !DishUnderMenu(s', nd, m);
    forall x | x in DishIdsUnder(s', m) ensures x in DishIdsUnder(s, m) {
      var d :| d in s'.dishes && DishUnderMenu(s', d, m) && d.id == x;
      assert d in s.dishes;
    }
    assert DishIdsUnder(s', m) == DishIdsUnder(s, m);
  }

  lemma MenuLookupAfterCreate(s: Store, newId: string, sm: SubMenu, p: DishCreate, m: string)
    requires Wf(s) && sm in s.submenus && m != sm.menuId
    ensures MenuUtils.MenuById(DishCrud.CreateDish(s, newId, sm, p).0, m) == MenuUtils.MenuById(s, m)
  {
    TotalDishesAfterCreate(s, newId, sm, p, m);
  }

  lemma SubmenuLookupAfterCreate(s: Store, newId: string, sm: SubMenu, p: DishCreate, x: string)
    requires x != sm.id
    ensures SubmenuUtils.SubmenuById(DishCrud.CreateDish(s, newId, sm, p).0, x) == SubmenuUtils.SubmenuById(s, x)
  {
    var r := DishCrud.CreateDish(s, newId, sm, p);
    FilterAppend(s.dishes, r.1, DishInSubmenu(x));
  }

  lemma DishLookupAfterCreate(s: Store, newId: string, sm: SubMenu, p: DishCreate, y: string)
    requires y != newId
    ensures DishUtils.DishById(DishCrud.CreateDish(s, newId, sm, p).0, y) == DishUtils.DishById(s, y)
  {
    var r := DishCrud.CreateDish(s, newId, sm, p);
    FindFirstAppend(s.dishes, r.1, DishIdIs(y));
  }

  // ---------------------------------------------------------------------------
  // Deletion of a dish

  /** Removing a dish changes the distinct dish count of no menu it did not lie under. */
  lemma TotalDishesAfterDelete(s: Store, d: Dish, m: string)
    requires Wf(s) && d in s.dishes && !DishUnderMenu(s, d, m)
    ensures TotalDishes(DishCrud.DeleteDish(s, d).0, m) == TotalDishes(s, m)
  {
    var s' := DishCrud.DeleteDish(s, d).0;
    forall y | y in DishIdsUnder(s, m) ensures y in DishIdsUnder(s', m) {
      var x :| x in s.dishes && DishUnderMenu(s, x, m) && x.id == y;
      if x.id == d.id { SameDishId(s, x, d); }
      assert x in s'.dishes;
    }
    assert DishIdsUnder(s', m) <= DishIdsUnder(s, m);
    assert DishIdsUnder(s', m) == DishIdsUnder(s, m);
  }

  lemma MenuLookupAfterDelete(s: Store, d: Dish, m: string)
    requires Wf(s) && d in s.dishes && !DishUnderMenu(s, d, m)
    ensures MenuUtils.MenuById(DishCrud.DeleteDish(s, d).0, m) == MenuUtils.MenuById(s, m)
  {
    TotalDishesAfterDelete(s, d, m);
  }

  lemma SubmenuLookupAfterDelete(s: Store, d: Dish, x: string)
    requires Wf(s) && d in s.dishes && x != d.submenuId
    ensures SubmenuUtils.SubmenuById(DishCrud.DeleteDish(s, d).0, x) == SubmenuUtils.SubmenuById(s, x)
  {
    forall i | 0 <= i < |s.dishes| && DishInSubmenu(x)(s.dishes[i])
      ensures DishIdIsNot(d.id)(s.dishes[i])
    {
      if s.dishes[i].id == d.id { SameDishId(s, s.dishes[i], d); }
    }
    FilterRedundant(s.dishes, DishIdIsNot(d.id), DishInSubmenu(x));
  }

  lemma DishLookupAfterDelete(s: Store, d: Dish, y: string)
    requires y != d.id
    ensures DishUtils.DishById(DishCrud.DeleteDish(s, d).0, y) == DishUtils.DishById(s, y)
  {
    FindFirstFilter(s.dishes, DishIdIsNot(d.id), DishIdIs(y));
  }
}

=== FILE: submenu_crud.dfy ===
/** Data access for submenus: per-menu paged list with counts, create, partial update, delete, lookups. */
module SubmenuCrud {
  import opened Common
  import opened Models
  import opened Schemas
  import MenuCrud

  const SubmenuDeleted := MenuCrud.Deleted(true, "The submenu has been deleted")

  function GetSubmenuById(s: Store, id: string): (r: Option<SubMenu>)
    ensures r.Some? ==> r.value in s.submenus && r.value.id == id
    ensures r.None? <==> id !in SubmenuIds(s)
  {
    FindFirst(s.submenus, SubmenuIdIs(id))
  }

  /** The submenus of one menu, in storage order. */
  function SubmenusOf(s: Store, menuId: string): (r: seq<SubMenu>)
    ensures forall sm :: sm in r <==> sm in s.submenus && sm.menuId == menuId
    ensures UniqueSubmenuIds(s.submenus) ==> UniqueSubmenuIds(r)
  {
    var keep := (sm: SubMenu) => sm.menuId == menuId;
    assert UniqueSubmenuIds(s.submenus) ==> UniqueSubmenuIds(Filter(s.submenus, keep)) by {
      if UniqueSubmenuIds(s.submenus) { FilterKeepsUniqueSubmenuIds(s.submenus, keep); }
    }
    Filter(s.submenus, keep)
  }

  /** One page of the given menu's submenus, each carrying its `dishes_count`. */
  function GetSubmenus(s: Store, menu: Menu, offset: nat, limit: nat): (r: seq<SubMenuRead>)
    ensures |r| == if offset >= |SubmenusOf(s, menu.id)| then 0 else Min(limit, |SubmenusOf(s, menu.id)| - offset)
    ensures forall i :: 0 <= i < |r| ==> r[i].submenu in s.submenus && r[i].submenu.menuId == menu.id
    ensures forall i :: 0 <= i < |r| ==> r[i].dishesCount == CountDishes(s, r[i].submenu.id)
    ensures forall i :: 0 <= i < |r| ==> r[i].submenu == SubmenusOf(s, menu.id)[offset + i]
  {
    var page := Page(SubmenusOf(s, menu.id), offset, limit);
    seq(|page|, i requires 0 <= i < |page| => SubMenuRead(page[i], CountDishes(s, page[i].id)))
  }

  function CreateSubmenu(s: Store, newId: string, menu: Menu, p: SubMenuCreate): (r: (Store, SubMenu))
    ensures r.1 == SubMenu(newId, p.title, p.description, menu.id)
    ensures r.0.submenus == s.submenus + [r.1]
    ensures r.0.menus == s.menus && r.0.dishes == s.dishes
    ensures Wf(s) && menu.id in MenuIds(s) && newId !in SubmenuIds(s) ==> Wf(r.0)
  {
    var sm := SubMenu(newId, p.title, p.description, menu.id);
    (s.(submenus := s.submenus + [sm]), sm)
  }

  function ApplySubmenuUpdate(sm: SubMenu, u: SubMenuUpdate): (sm': SubMenu)
    ensures sm'.id == sm.id && sm'.menuId == sm.menuId
    ensures u.title.Set? ==> sm'.title == u.title.value
    ensures u.title.Unset? ==> sm'.title == sm.title
    ensures u.description.Set? ==> sm'.description == u.description.value
    ensures u.description.Unset? ==> sm'.description == sm.description
  {
    sm.(title := if u.title.Set? then u.title.value else sm.title,
        description := if u.description.Set? then u.description.value else sm.description)
  }

  function UpdateSubmenuPartial(s: Store, sm: SubMenu, u: SubMenuUpdate): (r: (Store, SubMenu))
    ensures r.1 == ApplySubmenuUpdate(sm, u)
    ensures r.0.menus == s.menus && r.0.dishes == s.dishes
    ensures |r.0.submenus| == |s.submenus|
    ensures forall i :: 0 <= i < |s.submenus| && s.submenus[i].id != sm.id ==> r.0.submenus[i] == s.submenus[i]
    ensures forall i :: 0 <= i < |s.submenus| && s.submenus[i].id == sm.id ==> r.0.submenus[i] == r.1
    ensures SubmenuIds(r.0) == SubmenuIds(s)
    ensures Wf(s) && sm in s.submenus ==> Wf(r.0)
  {
    var sm' := ApplySubmenuUpdate(sm, u);
    var s' := s.(submenus := ReplaceWhere(s.submenus, (x: SubMenu) => x.id == sm'.id, sm'));
    assert SubmenuIds(s') == SubmenuIds(s) by {
      forall x | x in SubmenuIds(s) ensures x in SubmenuIds(s') {
        var i :| 0 <= i < |s.submenus| && s.submenus[i].id == x;
        assert s'.submenus[i].id == x;
      }
    }
    assert Wf(s) && sm in s.submenus ==> Wf(s') by {
      if Wf(s) && sm in s.submenus {
        forall x | x in s'.submenus ensures x.menuId in MenuIds(s') {
          var i :| 0 <= i < |s'.submenus| && s'.submenus[i] == x;
          if s.submenus[i].id == sm.id {
            var k :| 0 <= k < |s.submenus| && s.submenus[k] == sm;
            assert k == i;
          }
          assert s.submenus[i] in s.submenus;
        }
      }
    }
    (s', sm')
  }

  /** `session.delete(submenu)`: the cascade removes its dishes. */
  function DeleteSubmenu(s: Store, sm: SubMenu): (r: (Store, MenuCrud.Deleted))
    ensures r.1 == SubmenuDeleted
    ensures sm.id !in SubmenuIds(r.0) && r.0.menus == s.menus
    ensures forall x :: x in r.0.submenus <==> x in s.submenus && x.id != sm.id
    ensures forall d :: d in r.0.dishes <==> d in s.dishes && d.submenuId != sm.id
    ensures Wf(s) ==> Wf(r.0)
  {
    (CascadeDeleteSubmenu(s, sm.id), SubmenuDeleted)
  }

  /** The first submenu with exactly this title, in whichever menu it lies. */
  function GetSubmenuByTitle(s: Store, title: string): (r: Option<SubMenu>)
    ensures r.Some? ==> r.value in s.submenus && r.value.title == title
    ensures r.None? <==> forall sm :: sm in s.submenus ==> sm.title != title
    ensures r.Some? ==> exists i :: 0 <= i < |s.submenus| && s.submenus[i] == r.value
                                 && forall j :: 0 <= j < i ==> s.submenus[j].title != title
  {
    FindFirst(s.submenus, SubmenuTitleIs(title))
  }

  /**
   * Creating a submenu leaves a title lookup that already succeeds alone;
   * when none did, the lookup finds the new submenu exactly when it carries
   * the title.
   */
  lemma TitleLookupAfterCreate(s: Store, newId: string, menu: Menu, p: SubMenuCreate, title: string)
    ensures var (s', sm) := CreateSubmenu(s, newId, menu, p);
      && (GetSubmenuByTitle(s, title).Some? ==> GetSubmenuByTitle(s', title) == GetSubmenuByTitle(s, title))
      && (GetSubmenuByTitle(s, title).None? ==> GetSubmenuByTitle(s', title) == if p.title == title then Some(sm) else None)
  {
    var (s', sm) := CreateSubmenu(s, newId, menu, p);
    if GetSubmenuByTitle(s, title).Some? || p.title != title {
      FindFirstAppend(s.submenus, sm, SubmenuTitleIs(title));
    } else {
      var r := GetSubmenuByTitle(s', title);
      var i :| 0 <= i < |s'.submenus| && s'.submenus[i] == r.value && forall j :: 0 <= j < i ==> s'.submenus[j].title != title;
      assert s'.submenus[|s.submenus|] == sm;
    }
  }
}

=== FILE: submenu_services.dfy ===
/**
 * The cached submenu lookup, the submenu invalidation and the cached submenu
 * list. `submenu_by_id` finds its key by the pattern `*_submenu_{id}`, since
 * the caller does not pass the menu id; `clear_submenu_cache` deletes the
 * list keys, the menu and submenu keys, and tries to delete the submenu's
 * dish keys.
 */
module SubmenuServices {
  import opened Common
  import opened Text
  import opened Models
  import opened Schemas
  import opened CacheKeys
  import opened RedisCache
  import opened CacheState
  import SubmenuUtils
  import SubmenuCrud


  /**
   * `submenu_by_id` as a route dependency. `KEYS *_submenu_{id}` is read in
   * the order Redis gives; a GET is answered from the first key found when it
   * holds a submenu. Otherwise the store answers, and a GET it answered is
   * written back under `{menu_id}_submenu_{id}`.
   */
  method SubmenuById(c: Cache, s: Store, id: string, isGet: bool) returns (r: Result<SubMenuRead, HttpError>, c': Cache)
    ensures !IsId(id) ==> r == Err(InvalidId) && c' == c
    ensures IsId(id) && !isGet ==> r == SubmenuUtils.SubmenuById(s, id) && c' == c
    ensures IsId(id) && KeysWithSuffix(c, SubmenuSuffix(id)) == {} ==> r == SubmenuUtils.SubmenuById(s, id)
    ensures r.Err? ==> c' == c
    ensures isGet && r.Ok? ==>
      || (c' == c && exists t :: t in c && EndsWith(t, SubmenuSuffix(id)) && c[t] == SubmenuEntry(r.value))
      || (r == SubmenuUtils.SubmenuById(s, id) && SubmenuKey(r.value.submenu.menuId, id) in c'
          && c'[SubmenuKey(r.value.submenu.menuId, id)] == SubmenuEntry(r.value))
    ensures IsId(id) && Keyable(s) && Coherent(c, s) ==> r == SubmenuUtils.SubmenuById(s, id) && Coherent(c', s)
  {
    if !IsId(id) {
      return Err(InvalidId), c;
    }
    var found := KeysWithSuffix(c, SubmenuSuffix(id));
    if found != {} && isGet {
      var keys := ListKeys(found);
      var t := keys[0];
      if c[t].SubmenuEntry? {
        if Coherent(c, s) { CachedSubmenuIsFresh(c, s, t, id); }
        return Ok(c[t].submenu), c;
      }
    }
    r := SubmenuUtils.SubmenuById(s, id);
    c' := c;
    if r.Ok? && isGet {
      var sr := r.value;
      var key := SubmenuKey(sr.submenu.menuId, sr.submenu.id);
      c' := c[key := SubmenuEntry(sr)];
      if Keyable(s) && Coherent(c, s) {
        CoherentAfterWrite(c, s, ForSubmenu(sr.submenu.menuId, id), SubmenuEntry(sr));
      }
    }
  }

  // ---------------------------------------------------------------------------
  // `clear_submenu_cache`

  /** The cache once the list keys, `menu_{menu_id}` and `{menu_id}_submenu_{submenu_id}` are deleted. */
  function SubmenuScope(c: Cache, menuId: string, submenuId: string): (c1: Cache)
    ensures Without(c1, c, MainKeys + {MenuKey(menuId), SubmenuKey(menuId, submenuId)})
  {
    var c0 := ClearMainCache(c);
    var args := [Str(MenuKey(menuId)), Str(SubmenuKey(menuId, submenuId))];
    assert Named(args) == {MenuKey(menuId), SubmenuKey(menuId, submenuId)} by {
      assert Rendered(args[0]) == MenuKey(menuId) && Rendered(args[1]) == SubmenuKey(menuId, submenuId);
    }
    ClearCache(c0, args)
  }

  /** The pattern `{submenu_id}_dish_*`. */
  function DishPrefix(submenuId: string): string { submenuId + "_dish_" }

  /** Every dish key of the submenu survives the first stage, whatever the menu id. */
  lemma DishKeySurvivesScope(c: Cache, menuId: string, x: string, y: string)
    requires IsId(x) && IsId(y) && DishKey(x, y) in c
    ensures DishKey(x, y) in SubmenuScope(c, menuId, x) && DishKey(x, y)[0] != '['
    ensures StartsWith(DishKey(x, y), DishPrefix(x))
  {
    EntityKeyNotFixed(ForDish(x, y));
    DishKeyIsNoMenuKey(x, y, menuId);
    DishKeyIsNoSubmenuKey(x, y, menuId, x);
    assert DishKey(x, y)[0] == x[0];
    assert DishKey(x, y)[..|DishPrefix(x)|] == DishPrefix(x);
  }

  /**
   * `clear_submenu_cache` as written. The dish keys it finds are passed to
   * `clear_cache` as one list, which deletes only the list's rendering: every
   * dish key of the submenu is still there afterwards.
   */
  method ClearSubmenuCache(c: Cache, menuId: string, submenuId: string) returns (c': Cache, dishKeys: seq<string>)
    ensures Shrunk(c', c)
    ensures forall t :: t in c' ==> t !in MainKeys && t != MenuKey(menuId) && t != SubmenuKey(menuId, submenuId)
    ensures forall t ::
              (t in c && t !in MainKeys && t != MenuKey(menuId) && t != SubmenuKey(menuId, submenuId)
               && (|t| == 0 || t[0] != '[')) ==> t in c'
    ensures forall t :: t in dishKeys <==> t in SubmenuScope(c, menuId, submenuId) && StartsWith(t, DishPrefix(submenuId))
    ensures forall y :: IsId(submenuId) && IsId(y) && DishKey(submenuId, y) in c ==>
              DishKey(submenuId, y) in dishKeys && DishKey(submenuId, y) in c'
  {
    var c1 := SubmenuScope(c, menuId, submenuId);
    dishKeys := ListKeys(KeysWithPrefix(c1, DishPrefix(submenuId)));
    if |dishKeys| > 0 {
      c' := ClearListArgument(c1, dishKeys);
    } else {
      c' := c1;
    }
    forall y | IsId(submenuId) && IsId(y) && DishKey(submenuId, y) in c
      ensures DishKey(submenuId, y) in dishKeys && DishKey(submenuId, y) in c'
    {
      DishKeySurvivesScope(c, menuId, submenuId, y);
    }
  }

  /** `clear_submenu_cache` with the found dish keys deleted one by one (`clear_cache(*dish_keys)`). */
  function ClearSubmenuCacheFixed(c: Cache, menuId: string, submenuId: string): (c': Cache)
    ensures Shrunk(c', c)
    ensures forall t :: t in c' <==>
      t in c && t !in MainKeys && t != MenuKey(menuId) && t != SubmenuKey(menuId, submenuId)
      && !StartsWith(t, DishPrefix(submenuId))
  {
    var c1 := SubmenuScope(c, menuId, submenuId);
    ClearEach(c1, KeysWithPrefix(c1, DishPrefix(submenuId)))
  }

  /** The corrected invalidation leaves no dish key of the submenu. */
  lemma FixedSubmenuCacheDropsDishKeys(c: Cache, menuId: string, submenuId: string, y: string)
    ensures DishKey(submenuId, y) !in ClearSubmenuCacheFixed(c, menuId, submenuId)
  {
    assert DishKey(submenuId, y)[..|DishPrefix(submenuId)|] == DishPrefix(submenuId);
  }

  // ---------------------------------------------------------------------------
  // `load_all_submenus`

  /** `all_submenus` holds a list and `submenus_params` holds `stamp`. */
  predicate PageCached(c: Cache, stamp: string) {
    AllSubmenus in c && c[AllSubmenus].SubmenuList? && SubmenusParams in c && c[SubmenusParams] == Plain(stamp)
  }

  /**
   * `load_all_submenus` as written: the page is served from `all_submenus`
   * when `submenus_params` holds `{offset}_{limit}`, whichever menu the page
   * was read for.
   */
  function LoadAllSubmenus(c: Cache, s: Store, menu: Menu, offset: nat, limit: nat): (r: (seq<SubMenuRead>, Cache))
    ensures PageCached(c, Fingerprint(offset, limit)) ==> r == (c[AllSubmenus].submenus, c)
    ensures !PageCached(c, Fingerprint(offset, limit)) ==>
      && r.0 == SubmenuCrud.GetSubmenus(s, menu, offset, limit)
      && AllSubmenus in r.1 && r.1[AllSubmenus] == SubmenuList(r.0)
      && SubmenusParams in r.1 && r.1[SubmenusParams] == Plain(Fingerprint(offset, limit))
  {
    if PageCached(c, Fingerprint(offset, limit)) then (c[AllSubmenus].submenus, c)
    else
      var page := SubmenuCrud.GetSubmenus(s, menu, offset, limit);
      (page, c[AllSubmenus := SubmenuList(page)][SubmenusParams := Plain(Fingerprint(offset, limit))])
  }

  /** The fixed store used by the counterexample below: two menus, one submenu each. */
  const MenuA := "aaaaaaaa-aaaa-4aaa-8aaa-aaaaaaaaaaaa"
  const MenuB := "bbbbbbbb-bbbb-4bbb-8bbb-bbbbbbbbbbbb"

  function TwoMenus(): (s: Store)
    ensures |s.menus| == 2 && |s.submenus| == 2
  {
    Store([Menu(MenuA, "A", None), Menu(MenuB, "B", None)],
          [SubMenu("11111111-1111-4111-8111-111111111111", "S1", None, MenuA),
           SubMenu("22222222-2222-4222-8222-222222222222", "S2", None, MenuB)],
          [])
  }

  /**
   * Listing the submenus of menu `MenuA` and then of menu `MenuB` with the same
   * page serves `MenuB` the submenus of `MenuA`.
   */
  lemma SubmenuListServesOtherMenu()
    ensures var s := TwoMenus();
      var (first, c1) := LoadAllSubmenus(map[], s, s.menus[0], 0, 100);
      var (second, _) := LoadAllSubmenus(c1, s, s.menus[1], 0, 100);
      && second == first
      && |second| == 1 && second[0].submenu.menuId == MenuA
      && second != SubmenuCrud.GetSubmenus(s, s.menus[1], 0, 100)
  {
    var s := TwoMenus();
    var page := SubmenuCrud.GetSubmenus(s, s.menus[0], 0, 100);
    assert SubmenuCrud.SubmenusOf(s, MenuA) == [s.submenus[0]];
    assert SubmenuCrud.SubmenusOf(s, MenuB) == [s.submenus[1]];
    assert |page| == 1;
  }

  /**
   * The corrected `load_all_submenus`: the fingerprint names the menu as well
   * as the page, `{menu_id}_{offset}_{limit}`.
   */
  function LoadAllSubmenusFixed(c: Cache, s: Store, menu: Menu, offset: nat, limit: nat): (r: (seq<SubMenuRead>, Cache))
    ensures PageCached(c, ScopedFingerprint(menu.id, offset, limit)) ==> r == (c[AllSubmenus].submenus, c)
    ensures !PageCached(c, ScopedFingerprint(menu.id, offset, limit)) ==>
      && r.0 == SubmenuCrud.GetSubmenus(s, menu, offset, limit)
      && AllSubmenus in r.1 && r.1[AllSubmenus] == SubmenuList(r.0)
      && SubmenusParams in r.1 && r.1[SubmenusParams] == Plain(ScopedFingerprint(menu.id, offset, limit))
    ensures IsId(menu.id) && Coherent(c, s) ==> r.0 == SubmenuCrud.GetSubmenus(s, menu, offset, limit) && Coherent(r.1, s)
  {
    var stamp := ScopedFingerprint(menu.id, offset, limit);
    if PageCached(c, stamp) then (c[AllSubmenus].submenus, c)
    else
      var page := SubmenuCrud.GetSubmenus(s, menu, offset, limit);
      var c' := c[AllSubmenus := SubmenuList(page)][SubmenusParams := Plain(stamp)];
      assert IsId(menu.id) && Coherent(c, s) ==> Coherent(c', s) by {
        if IsId(menu.id) && Coherent(c, s) { CoherentAfterSubmenuPageWrite(c, s, menu, offset, limit); }
      }
      (page, c')
  }

  /** With a fresh submenu page, the corrected listing answers what the store answers, and the page stays fresh. */
  lemma FixedSubmenuListIsFresh(c: Cache, s: Store, menu: Menu, offset: nat, limit: nat)
    requires IsId(menu.id) && SubmenuPageFresh(c, s)
    ensures var (page, c') := LoadAllSubmenusFixed(c, s, menu, offset, limit);
      page == SubmenuCrud.GetSubmenus(s, menu, offset, limit) && SubmenuPageFresh(c', s)
  {
    var (page, c') := LoadAllSubmenusFixed(c, s, menu, offset, limit);
    forall m2: Menu, o: nat, l: nat | IsId(m2.id) && SubmenusParams in c'
        && c'[SubmenusParams] == Plain(ScopedFingerprint(m2.id, o, l)) && AllSubmenus in c' && c'[AllSubmenus].SubmenuList?
      ensures c'[AllSubmenus].submenus == SubmenuCrud.GetSubmenus(s, m2, o, l)
    {
      ScopedFingerprintInjective(m2.id, o, l, menu.id, offset, limit);
    }
  }

  /** Listing the same menu's page twice reads the store at most once and gives the same answer. */
  lemma FixedSubmenuListRepeats(c: Cache, s: Store, menu: Menu, offset: nat, limit: nat)
    ensures var (first, c1) := LoadAllSubmenusFixed(c, s, menu, offset, limit);
      LoadAllSubmenusFixed(c1, s, menu, offset, limit) == (first, c1)
  {
  }
}

=== FILE: submenu_utils.dfy ===
/** Submenu lookup with its dish count, and the title-uniqueness guard. */
module SubmenuUtils {
  import opened Common
  import opened Models
  import SubmenuCrud

  const SubmenuNotFound := HttpError(NotFound, "submenu not found")
  const SubmenuTaken := HttpError(Conflict, "submenu cannot be in 2 menus at the same time")

  function SubmenuById(s: Store, id: string): (r: Result<SubMenuRead, HttpError>)
    ensures r.Err? <==> id !in SubmenuIds(s)
    ensures r.Err? ==> r.error == SubmenuNotFound
    ensures r.Ok? ==> r.value.submenu in s.submenus && r.value.submenu.id == id
    ensures r.Ok? ==> r.value.dishesCount == CountDishes(s, id)
  {
    match SubmenuCrud.GetSubmenuById(s, id)
    case None => Err(SubmenuNotFound)
    case Some(sm) => Ok(SubMenuRead(sm, CountDishes(s, id)))
  }

  /** A title already used by any submenu, in any menu, is refused with 409. */
  function CheckUniqueSubmenu(s: Store, title: string): (r: Outcome<HttpError>)
    ensures r.Fail? <==> exists sm :: sm in s.submenus && sm.title == title
    ensures r.Fail? ==> r.error == SubmenuTaken
  {
    if SubmenuCrud.GetSubmenuByTitle(s, title).Some? then Fail(SubmenuTaken) else Pass
  }
}

=== FILE: sync_api.dfy ===
/**
 * The HTTP API as the synchronisation job sees it: each request it sends,
 * answered by the store. Only what the job reads from an answer is kept —
 * whether a lookup found its row, the listed rows, and for a `POST` either
 * the new row's id or the refusing status. The cache the routes keep on the
 * way is not part of this view.
 *
 * New rows take the id the caller passes; the job draws these from a supply
 * of fresh ids.
 */
module SyncApi {
  import opened Common
  import opened Text
  import opened Models
  import opened Schemas
  import MenuCrud
  import SubmenuCrud
  import DishCrud

  /** The store-changing requests, as the job sends them. */
  datatype Request =
    | PatchMenu(menuId: string)
    | PostMenu(title: string)
    | PatchSubmenu(menuId: string, submenuId: string)
    | PostSubmenu(menuId: string, title: string)
    | DeleteSubmenu(menuId: string, submenuId: string)
    | PatchDish(submenuId: string, dishId: string)
    | PostDish(menuId: string, submenuId: string, title: string)
    | DeleteDish(dishId: string)
    | DeleteMenu(menuId: string)

  /** The answer to a `POST`: 201 with the new row's id, or a refusal whose body has no `id`. */
  datatype Posted = Created(id: string) | Refused(status: int)

  /** The lookup dependencies: a 200 needs a UUID that names a row. */
  predicate MenuFound(s: Store, id: string) { IsId(id) && id in MenuIds(s) }
  predicate SubmenuFound(s: Store, id: string) { IsId(id) && id in SubmenuIds(s) }
  predicate DishFound(s: Store, id: string) { IsId(id) && id in DishIds(s) }

  /** `GET /menus/`: the first page (offset 0, limit 100) of menus. */
  function ListMenus(s: Store): (ms: seq<Menu>)
    ensures |ms| == Min(MenuCrud.DefaultLimit, |s.menus|)
    ensures forall i :: 0 <= i < |ms| ==> ms[i] == s.menus[i]
  {
    var page := MenuCrud.GetMenus(s, MenuCrud.DefaultOffset, MenuCrud.DefaultLimit);
    seq(|page|, i requires 0 <= i < |page| => page[i].menu)
  }

  /** The ids of `GET /menus/`, in the listed order. */
  function ListMenuIds(s: Store): (ids: seq<string>)
    ensures |ids| == Min(MenuCrud.DefaultLimit, |s.menus|)
    ensures forall i :: 0 <= i < |ids| ==> ids[i] == s.menus[i].id
  {
    var ms := ListMenus(s);
    seq(|ms|, i requires 0 <= i < |ms| => ms[i].id)
  }

  /** `GET .../dishes/`: the first page of ALL dishes, whatever menu and submenu the path names. */
  function ListDishIds(s: Store): (ids: seq<string>)
    ensures |ids| == Min(MenuCrud.DefaultLimit, |s.dishes|)
    ensures forall i :: 0 <= i < |ids| ==> ids[i] == s.dishes[i].id
  {
    var page := DishCrud.GetDishes(s, MenuCrud.DefaultOffset, MenuCrud.DefaultLimit);
    seq(|page|, i requires 0 <= i < |page| => page[i].id)
  }

  /** `GET /menus/{id}/submenus/`: the first page of the menu's submenus, or nothing when the menu is not found. */
  function ListSubmenus(s: Store, menuId: string): (r: Option<seq<SubMenu>>)
    ensures r.Some? <==> MenuFound(s, menuId)
    ensures r.Some? ==> forall sm :: sm in r.value ==> sm in s.submenus && sm.menuId == menuId
    ensures r.Some? && |SubmenuCrud.SubmenusOf(s, menuId)| <= MenuCrud.DefaultLimit ==>
              r.value == SubmenuCrud.SubmenusOf(s, menuId)
  {
    if !MenuFound(s, menuId) then None
    else
      var menu := MenuCrud.GetMenuById(s, menuId).value;
      var page := SubmenuCrud.GetSubmenus(s, menu, MenuCrud.DefaultOffset, MenuCrud.DefaultLimit);
      Some(seq(|page|, i requires 0 <= i < |page| => page[i].submenu))
  }

  // ---------------------------------------------------------------------------
  // Menus

  /** `PATCH /menus/{id}` with a title and a description: applied when the menu is found and the body is valid. */
  function OnPatchMenu(s: Store, id: string, title: string, description: string): (s': Store)
    ensures !MenuFound(s, id) || |description| > MenuDescriptionMax ==> s' == s
    ensures MenuFound(s, id) && |description| <= MenuDescriptionMax ==>
      && |s'.menus| == |s.menus|
      && forall i :: 0 <= i < |s.menus| ==>
           s'.menus[i] == if s.menus[i].id == id then Menu(id, title, Some(description)) else s.menus[i]
    ensures s'.submenus == s.submenus && s'.dishes == s.dishes
    ensures Wf(s) ==> Wf(s')
  {
    if !MenuFound(s, id) then s
    else match ValidateMenuUpdate(MenuUpdate(Set(title), Set(Some(description))))
      case Err(_) => s
      case Ok(u) => MenuCrud.UpdateMenuPartial(s, MenuCrud.GetMenuById(s, id).value, u).0
  }

  /**
   * `POST /menus/`: 422 for a description over its bound, 409 when a menu
   * with this title already exists, otherwise 201 and the menu is appended.
   */
  function OnPostMenu(s: Store, newId: string, title: string, description: string): (r: (Posted, Store))
    ensures r.0.Created? <==> |description| <= MenuDescriptionMax && forall m :: m in s.menus ==> m.title != title
    ensures |description| <= MenuDescriptionMax && r.0.Refused? ==> r.0.status == Conflict
    ensures r.0.Refused? ==> r.1 == s
    ensures r.0.Created? ==> r.0.id == newId && r.1 == s.(menus := s.menus + [Menu(newId, title, Some(description))])
    ensures r.0.Created? && Wf(s) && newId !in MenuIds(s) ==> Wf(r.1)
  {
    match ValidateMenuCreate(MenuBody(Some(title), Some(description)))
    case Err(e) => (Refused(e.status), s)
    case Ok(p) =>
      if exists m :: m in s.menus && m.title == title then (Refused(Conflict), s)
      else (Created(newId), MenuCrud.CreateMenu(s, newId, p).0)
  }

  /** `DELETE /menus/{id}`: the menu and everything beneath it go, when it is found. */
  function OnDeleteMenu(s: Store, id: string): (s': Store)
    ensures !MenuFound(s, id) ==> s' == s
    ensures IsId(id) ==> id !in MenuIds(s')
    ensures forall m :: m in s'.menus <==> m in s.menus && !(MenuFound(s, id) && m.id == id)
    ensures Wf(s) ==> Wf(s')
  {
    if !MenuFound(s, id) then s else MenuCrud.DeleteMenu(s, MenuCrud.GetMenuById(s, id).value).0
  }

  // ---------------------------------------------------------------------------
  // Submenus

  /** `PATCH .../submenus/{id}`: applied when the submenu is found, whichever menu the path names. */
  function OnPatchSubmenu(s: Store, id: string, title: string, description: string): (s': Store)
    ensures !SubmenuFound(s, id) || |description| > SubmenuDescriptionMax ==> s' == s
    ensures |s'.submenus| == |s.submenus|
    ensures SubmenuFound(s, id) && |description| <= SubmenuDescriptionMax ==>
      forall i :: 0 <= i < |s.submenus| && s.submenus[i].id == id ==>
        s'.submenus[i] == SubmenuCrud.GetSubmenuById(s, id).value.(title := title, description := Some(description))
    ensures s'.menus == s.menus && s'.dishes == s.dishes && SubmenuIds(s') == SubmenuIds(s)
    ensures Wf(s) ==> Wf(s')
  {
    if !SubmenuFound(s, id) then s
    else match ValidateSubMenuUpdate(SubMenuUpdate(Set(title), Set(Some(description))))
      case Err(_) => s
      case Ok(u) =>
        var sm := SubmenuCrud.GetSubmenuById(s, id).value;
        SubmenuCrud.UpdateSubmenuPartial(s, sm, u).0
  }

  /**
   * `POST /menus/{menu_id}/submenus/`: 404 when the menu is not found, 422
   * for a description over its bound, 409 when a submenu of ANY menu has the
   * title, otherwise 201 and the submenu is appended under the menu.
   */
  function OnPostSubmenu(s: Store, newId: string, menuId: string, title: string, description: string): (r: (Posted, Store))
    ensures r.0.Created? <==> && MenuFound(s, menuId) && |description| <= SubmenuDescriptionMax
                              && forall sm :: sm in s.submenus ==> sm.title != title
    ensures r.0.Refused? ==> r.1 == s
    ensures r.0.Created? ==>
      && r.0.id == newId
      && r.1 == s.(submenus := s.submenus + [SubMenu(newId, title, Some(description), menuId)])
    ensures r.0.Created? && Wf(s) && newId !in SubmenuIds(s) ==> Wf(r.1)
  {
    if !MenuFound(s, menuId) then (Refused(NotFound), s)
    else match ValidateSubMenuCreate(SubMenuBody(Some(title), Some(description)))
      case Err(e) => (Refused(e.status), s)
      case Ok(p) =>
        if SubmenuCrud.GetSubmenuByTitle(s, title).Some? then (Refused(Conflict), s)
        else
          var menu := MenuCrud.GetMenuById(s, menuId).value;
          (Created(newId), SubmenuCrud.CreateSubmenu(s, newId, menu, p).0)
  }

  /** `DELETE /menus/{menu_id}/submenus/{id}`: both must be found; the submenu and its dishes go. */
  function OnDeleteSubmenu(s: Store, menuId: string, id: string): (s': Store)
    ensures !(MenuFound(s, menuId) && SubmenuFound(s, id)) ==> s' == s
    ensures MenuFound(s, menuId) && IsId(id) ==> id !in SubmenuIds(s')
    ensures s'.menus == s.menus
    ensures forall sm :: sm in s'.submenus <==> sm in s.submenus && !(MenuFound(s, menuId) && SubmenuFound(s, id) && sm.id == id)
    ensures Wf(s) ==> Wf(s')
  {
    if !(MenuFound(s, menuId) && SubmenuFound(s, id)) then s
    else SubmenuCrud.DeleteSubmenu(s, SubmenuCrud.GetSubmenuById(s, id).value).0
  }

  // ---------------------------------------------------------------------------
  // Dishes

  /** `PATCH .../dishes/{id}`: only the dish id is resolved; price is sent as the sheet's text. */
  function OnPatchDish(s: Store, id: string, title: string, description: string, price: string): (s': Store)
    ensures !DishFound(s, id) || |description| > DishUpdateDescriptionMax ==> s' == s
    ensures |s'.dishes| == |s.dishes|
    ensures DishFound(s, id) && |description| <= DishUpdateDescriptionMax ==>
      forall i :: 0 <= i < |s.dishes| && s.dishes[i].id == id ==>
        s'.dishes[i] == DishCrud.GetDishById(s, id).value.(title := title, description := Some(description), price := price)
    ensures s'.menus == s.menus && s'.submenus == s.submenus
    ensures Wf(s) ==> Wf(s')
  {
    if !DishFound(s, id) then s
    else match ValidateDishUpdate(DishUpdate(Set(title), Set(Some(description)), Set(price)))
      case Err(_) => s
      case Ok(u) => DishCrud.UpdateDishPartial(s, DishCrud.GetDishById(s, id).value, u).0
  }

  /**
   * `POST /menus/{menu_id}/submenus/{submenu_id}/dishes/`: 404 when the menu
   * or the submenu is not found, 422 for a description over its bound, 409
   * when a dish anywhere has the title, otherwise 201 and the dish is appended
   * under the submenu.
   */
  function OnPostDish(s: Store, newId: string, menuId: string, submenuId: string,
                      title: string, description: string, price: string): (r: (Posted, Store))
    ensures r.0.Created? <==> && MenuFound(s, menuId) && SubmenuFound(s, submenuId)
                              && |description| <= DishCreateDescriptionMax
                              && forall d :: d in s.dishes ==> d.title != title
    ensures r.0.Refused? ==> r.1 == s
    ensures r.0.Created? ==>
      && r.0.id == newId
      && r.1 == s.(dishes := s.dishes + [Dish(newId, title, Some(description), price, submenuId)])
    ensures r.0.Created? && Wf(s) && newId !in DishIds(s) ==> Wf(r.1)
  {
    if !MenuFound(s, menuId) || !SubmenuFound(s, submenuId) then (Refused(NotFound), s)
    else match ValidateDishCreate(DishBody(Some(title), Some(description), Some(price)))
      case Err(e) => (Refused(e.status), s)
      case Ok(p) =>
        if DishCrud.GetDishByTitle(s, title).Some? then (Refused(Conflict), s)
        else
          var sm := SubmenuCrud.GetSubmenuById(s, submenuId).value;
          (Created(newId), DishCrud.CreateDish(s, newId, sm, p).0)
  }

  /** `DELETE .../dishes/{id}`: the dish goes when it is found, whatever the path's other segments say. */
  function OnDeleteDish(s: Store, id: string): (s': Store)
    ensures !DishFound(s, id) ==> s' == s
    ensures IsId(id) ==> id !in DishIds(s')
    ensures s'.menus == s.menus && s'.submenus == s.submenus
    ensures forall d :: d in s'.dishes <==> d in s.dishes && !(DishFound(s, id) && d.id == id)
    ensures Wf(s) ==> Wf(s')
  {
    if !DishFound(s, id) then s else DishCrud.DeleteDish(s, DishCrud.GetDishById(s, id).value).0
  }
}

=== FILE: text.dfy ===
/**
 * String operations the cache-key scheme relies on: Python's `str.split`,
 * `str(int)`, and prefix/suffix tests standing in for the two glob shapes
 * (`prefix*` and `*suffix`) the services pass to Redis `KEYS`.
 */
module Text {

  /** A digit of a UUID as `str(uuid)` renders it: lower-case hex. */
  predicate HexDigit(c: char) { '0' <= c <= '9' || 'a' <= c <= 'f' }

  /** The positions of the four `-` in the 8-4-4-4-12 layout. */
  predicate HyphenAt(i: int) { i == 8 || i == 13 || i == 18 || i == 23 }

  /**
   * Entity ids are pydantic `UUID4` values in the text `str(uuid)` gives
   * them: 36 characters in the 8-4-4-4-12 layout, lower-case hex digits,
   * version digit `4`, and an RFC 4122 variant digit (`8`, `9`, `a` or `b`).
   */
  predicate IsId(s: string) {
    && |s| == 36
    && (forall i :: 0 <= i < |s| ==> if HyphenAt(i) then s[i] == '-' else HexDigit(s[i]))
    && s[14] == '4'
    && (s[19] == '8' || s[19] == '9' || s[19] == 'a' || s[19] == 'b')
  }

  /** An id holds no `_`, so it never straddles a key separator. */
  lemma IdHasNoUnderscore(s: string)
    requires IsId(s)
    ensures '_' !in s && s[0] != '['
  {
  }

  predicate StartsWith(s: string, prefix: string) {
    |prefix| <= |s| && s[..|prefix|] == prefix
  }

  predicate EndsWith(s: string, suffix: string) {
    |suffix| <= |s| && s[|s| - |suffix|..] == suffix
  }

  /** Python's `s.split(sep)`: the maximal separator-free pieces, empty pieces kept. */
  function Split(s: string, sep: char): (parts: seq<string>)
    ensures |parts| >= 1
    decreases |s|
  {
    if |s| == 0 then [""]
    else if s[0] == sep then [""] + Split(s[1..], sep)
    else
      var rest := Split(s[1..], sep);
      [[s[0]] + rest[0]] + rest[1..]
  }

  function Last<T>(xs: seq<T>): T
    requires |xs| > 0
  {
    xs[|xs| - 1]
  }

  /** `sep.join(parts)`. */
  function Join(parts: seq<string>, sep: char): string
    requires |parts| >= 1
  {
    if |parts| == 1 then parts[0] else parts[0] + [sep] + Join(parts[1..], sep)
  }

  /** Joining the pieces of a split gives back the string: `sep.join(s.split(sep)) == s`. */
  lemma {:induction false} JoinSplit(s: string, sep: char)
    ensures Join(Split(s, sep), sep) == s
    decreases |s|
  {
    if |s| == 0 {
    } else if s[0] == sep {
      JoinSplit(s[1..], sep);
      assert ([""] + Split(s[1..], sep))[1..] == Split(s[1..], sep);
      assert s == [sep] + s[1..];
    } else {
      var rest := Split(s[1..], sep);
      JoinSplit(s[1..], sep);
      var parts := [[s[0]] + rest[0]] + rest[1..];
      assert parts[1..] == rest[1..];
      if |rest| == 1 {
        assert s == [s[0]] + rest[0];
      } else {
        assert Join(rest, sep) == rest[0] + [sep] + Join(rest[1..], sep);
        assert s == [s[0]] + s[1..];
      }
    }
  }

  /** A string that splits into two pieces is those pieces around one separator. */
  lemma TwoPieces(t: string, sep: char)
    requires |Split(t, sep)| == 2
    ensures t == Split(t, sep)[0] + [sep] + Split(t, sep)[1]
  {
    JoinSplit(t, sep);
  }

  /** A string that splits into three pieces is those pieces around two separators. */
  lemma ThreePieces(t: string, sep: char)
    requires |Split(t, sep)| == 3
    ensures var p := Split(t, sep); t == p[0] + [sep] + p[1] + [sep] + p[2]
  {
    var p := Split(t, sep);
    JoinSplit(t, sep);
    assert p[1..][1..] == [p[2]];
    assert Join(p[1..], sep) == p[1] + [sep] + p[2];
  }

  /** A string with no separator splits into itself alone. */
  lemma {:induction false} SplitNoSep(x: string, sep: char)
    requires sep !in x
    ensures Split(x, sep) == [x]
  {
    if |x| > 0 {
      SplitNoSep(x[1..], sep);
      assert [x[0]] + x[1..] == x;
    }
  }

  /** Splitting distributes over a joining separator. */
  lemma {:induction false} SplitJoin(x: string, sep: char, y: string)
    ensures Split(x + [sep] + y, sep) == Split(x, sep) + Split(y, sep)
  {
    if |x| == 0 {
      assert x + [sep] + y == [sep] + y;
      assert ([sep] + y)[1..] == y;
    } else {
      var s := x + [sep] + y;
      assert s[0] == x[0];
      assert s[1..] == x[1..] + [sep] + y;
      SplitJoin(x[1..], sep, y);
      if x[0] == sep {
      } else {
        var rest := Split(x[1..], sep);
        assert |rest| >= 1;
        assert (rest + Split(y, sep))[0] == rest[0];
        assert (rest + Split(y, sep))[1..] == rest[1..] + Split(y, sep);
      }
    }
  }

  /** `a + sep + b` with separator-free `a`, `b` splits into exactly `[a, b]`. */
  lemma SplitPair(a: string, sep: char, b: string)
    requires sep !in a && sep !in b
    ensures Split(a + [sep] + b, sep) == [a, b]
  {
    SplitJoin(a, sep, b);
    SplitNoSep(a, sep);
    SplitNoSep(b, sep);
  }

  /** A string ending in `sep + a + sep + b` splits into pieces whose last two are `a` and `b`. */
  lemma SplitSuffixPair(t: string, sep: char, a: string, b: string)
    requires sep !in a && sep !in b
    requires EndsWith(t, [sep] + a + [sep] + b)
    ensures var p := Split(t, sep); |p| >= 3 && p[|p| - 2] == a && p[|p| - 1] == b
  {
    var suffix := [sep] + a + [sep] + b;
    var front := t[..|t| - |suffix|];
    assert t == front + [sep] + (a + [sep] + b);
    SplitJoin(front, sep, a + [sep] + b);
    SplitPair(a, sep, b);
  }

  /** A string starting with `a + sep + b + sep` splits into `a`, `b`, then the pieces of the rest. */
  lemma SplitPrefixPair(t: string, sep: char, a: string, b: string)
    requires sep !in a && sep !in b
    requires StartsWith(t, a + [sep] + b + [sep])
    ensures var p := Split(t, sep); |p| >= 3 && p[0] == a && p[1] == b
  {
    var prefix := a + [sep] + b + [sep];
    var rest := t[|prefix|..];
    assert t == a + [sep] + (b + [sep] + rest);
    SplitJoin(a, sep, b + [sep] + rest);
    SplitJoin(b, sep, rest);
    SplitNoSep(a, sep);
    SplitNoSep(b, sep);
  }

  /** `a + sep + m + sep + b` with separator-free parts splits into `[a, m, b]`. */
  lemma SplitTriple(a: string, sep: char, m: string, b: string)
    requires sep !in a && sep !in m && sep !in b
    ensures Split(a + [sep] + m + [sep] + b, sep) == [a, m, b]
  {
    assert a + [sep] + m + [sep] + b == a + [sep] + (m + [sep] + b);
    SplitJoin(a, sep, m + [sep] + b);
    SplitPair(m, sep, b);
    SplitNoSep(a, sep);
  }

  // ---------------------------------------------------------------------------
  // Decimal rendering of naturals (Python `str(n)` for n >= 0)

  function DigitChar(d: nat): char
    requires d < 10
  {
    "0123456789"[d]
  }

  function DigitValue(c: char): nat
  {
    if '0' <= c <= '9' then (c as int - '0' as int) as nat else 0
  }

  function NatToString(n: nat): (s: string)
    ensures |s| >= 1
    ensures forall i :: 0 <= i < |s| ==> '0' <= s[i] <= '9'
  {
    if n < 10 then [DigitChar(n)] else NatToString(n / 10) + [DigitChar(n % 10)]
  }

  /** Reads a string of decimal digits back into a natural. */
  function ParseNat(s: string): nat
  {
    if |s| == 0 then 0 else 10 * ParseNat(s[..|s| - 1]) + DigitValue(s[|s| - 1])
  }

  lemma {:induction false} ParseNatToString(n: nat)
    ensures ParseNat(NatToString(n)) == n
  {
    var s := NatToString(n);
    if n < 10 {
      assert s[..0] == [];
    } else {
      ParseNatToString(n / 10);
      assert s[..|s| - 1] == NatToString(n / 10);
    }
  }

  /** The `{offset}_{limit}` pagination fingerprint the list caches are tagged with. */
  function Fingerprint(offset: nat, limit: nat): string
  {
    NatToString(offset) + "_" + NatToString(limit)
  }

  lemma DigitsHaveNoUnderscore(n: nat)
    ensures '_' !in NatToString(n)
  {
  }

  /** Two pagination requests share a fingerprint exactly when they ask for the same page. */
  lemma FingerprintInjective(o1: nat, l1: nat, o2: nat, l2: nat)
    ensures Fingerprint(o1, l1) == Fingerprint(o2, l2) <==> o1 == o2 && l1 == l2
  {
    if Fingerprint(o1, l1) == Fingerprint(o2, l2) {
      DigitsHaveNoUnderscore(o1);
      DigitsHaveNoUnderscore(l1);
      DigitsHaveNoUnderscore(o2);
      DigitsHaveNoUnderscore(l2);
      SplitPair(NatToString(o1), '_', NatToString(l1));
      SplitPair(NatToString(o2), '_', NatToString(l2));
      ParseNatToString(o1);
      ParseNatToString(l1);
      ParseNatToString(o2);
      ParseNatToString(l2);
    }
  }

  /** A page fingerprint scoped to one parent: `{parent_id}_{offset}_{limit}`. */
  function ScopedFingerprint(parent: string, offset: nat, limit: nat): string
  {
    parent + "_" + Fingerprint(offset, limit)
  }

  /** Scoped fingerprints of UUID parents coincide exactly when parent and page coincide. */
  lemma ScopedFingerprintInjective(p1: string, o1: nat, l1: nat, p2: string, o2: nat, l2: nat)
    requires IsId(p1) && IsId(p2)
    ensures ScopedFingerprint(p1, o1, l1) == ScopedFingerprint(p2, o2, l2) <==> p1 == p2 && o1 == o2 && l1 == l2
  {
    if ScopedFingerprint(p1, o1, l1) == ScopedFingerprint(p2, o2, l2) {
      IdHasNoUnderscore(p1);
      IdHasNoUnderscore(p2);
      DigitsHaveNoUnderscore(o1);
      DigitsHaveNoUnderscore(l1);
      DigitsHaveNoUnderscore(o2);
      DigitsHaveNoUnderscore(l2);
      assert ScopedFingerprint(p1, o1, l1) == p1 + "_" + NatToString(o1) + "_" + NatToString(l1);
      assert ScopedFingerprint(p2, o2, l2) == p2 + "_" + NatToString(o2) + "_" + NatToString(l2);
      SplitTriple(p1, '_', NatToString(o1), NatToString(l1));
      SplitTriple(p2, '_', NatToString(o2), NatToString(l2));
      ParseNatToString(o1);
      ParseNatToString(l1);
      ParseNatToString(o2);
      ParseNatToString(l2);
    }
  }
}
